=== FILE: README.md ===
# Content-pipeline helper scripts, modelled in Dafny

This project models the decision logic of a set of command-line helper scripts:

- An RSS/Atom aggregator (`fetch_rss.py`). It parses every configured feed and keeps the items
  dated within the last N hours.
- A YouTube channel tracker. `manage_channels.py` resolves a channel URL to a channel id and
  keeps a list of tracked channels. `check_updates.py` reads each channel's Atom feed and
  reports recent videos.
- A lyrics fetcher (`fetch_lyrics_cli.js`). It recognises NetEase and QQ Music links, extracts
  the song id and turns LRC text into timed lines.
- A local imagery query (`query_imagery_local.js`). It lists the category files and returns
  the words of a category, de-duplicated and ranked.
- Two output validators: one for generated lyrics (`validate_lyrics_output.js`) and one for
  arrangement prompts (`validate_arrangement_prompt.js`).
- The integer and text parts of the audio feature export (`extract_audio_features_cli.js`).

Each script is one module. Shared modules hold:

- `Text`: JavaScript `trim`, `split`, line splitting on `\r?\n`, and UTF-16 length.
- `LineForms`: the anchored regular expressions, written as predicates.
- `Pattern`: leftmost-match search with one captured run.
- `Xml`: an ElementTree-like element tree with `find`, `findall` and the namespace rewrite.
- `Dates`: dates with an offset-aware flag; the library parsers are parameters.
- `Isolation`: a loop inside one `try` that stops at the first exception and keeps what it
  has appended.
- `Lists` and `Wrappers`.

Every operation is a pure function. Network fetches, file contents, the clock and library
parsers are passed in as values or functions.

Behaviours of the code worth noting:

- `fetch_rss.py` recomputes the cutoff inside `parse_feed`, once per feed. `RssFetch.Aggregate`
  therefore takes one cutoff per feed.
- `fetch_rss.py` falls back to "No Title" only when the `title` element is absent. An empty
  element gives a null title.
- `manage_channels.py` tests a leading `@` segment before looking for `channel`.
  - `channel` may be any segment, not only the first.
  - A URL whose last segment is `channel` raises `IndexError` outside the `try`
    (`Channels.Resolution.Crashed`).
- `check_updates.py` compares strictly (`>`), reads only `published`, and does not strip
  namespaces.
- `validate_lyrics_output.js`: the three line checks need `[`, `#` and `(` as the first
  character, so they exclude each other. A line gets at most one issue.
- `fetch_lyrics_cli.js` cuts the LRC text at `\n` only. JavaScript's `.` does not match `\r`,
  so every timed line of a CRLF text is dropped (`LyricsFetch.CarriageReturnLineDropped`).

## Model

| member | source | states |
|---|---|---|
| Dates.IsoText | skills/rss-fetcher/scripts/fetch_rss.py:43-44 | a trailing `Z` is replaced by `+00:00` and the rest of the text is kept; any other text is passed on unchanged |
| Dates.ParseDate | skills/rss-fetcher/scripts/fetch_rss.py:31-49 | no date for empty text; otherwise the RFC 822 reading when there is one, else the ISO 8601 reading of the rewritten text; no date exactly when the text is empty or both parsers fail |
| Dates.AtOrAfter | skills/rss-fetcher/scripts/fetch_rss.py:83 | the comparison cannot be made exactly when the date is naive; the date is fresh exactly when it is aware and not before the cutoff |
| Dates.After | skills/youtube-tracker/scripts/check_updates.py:57 | the comparison cannot be made exactly when the date is naive; the date is fresh exactly when it is aware and strictly after the cutoff |
| Xml.Find | skills/rss-fetcher/scripts/fetch_rss.py:71-72 | nothing exactly when no child has the tag; otherwise the first child with that tag |
| Xml.FindAppendLater | skills/rss-fetcher/scripts/fetch_rss.py:99 | once a child has the tag, a child added after it does not change what `find` returns |
| Xml.FindAppendOther | skills/rss-fetcher/scripts/fetch_rss.py:76-79 | a child added later with another tag does not change what `find` returns |
| Xml.WithTag | skills/rss-fetcher/scripts/fetch_rss.py:70 | `findall` keeps exactly the children with the tag |
| Xml.WithTagAppend | skills/rss-fetcher/scripts/fetch_rss.py:94 | `findall` distributes over concatenation, so document order is kept |
| Xml.LocalName | skills/rss-fetcher/scripts/fetch_rss.py:62-63 | a tag without `}` is kept; otherwise the result is everything after the first `}` |
| Xml.StripNamespaces | skills/rss-fetcher/scripts/fetch_rss.py:61-63 | every tag at every depth is rewritten to its local name; attributes, text and the shape of the tree are unchanged (`Stripped`) |
| Xml.StrippedUnique | skills/rss-fetcher/scripts/fetch_rss.py:61-63 | a tree that is the input with every tag replaced by its local name is the rewrite's result |
| Xml.StripIdempotent | skills/rss-fetcher/scripts/fetch_rss.py:61-63 | on a tree of Clark-notation tags, rewriting a second time changes nothing |
| Xml.StripWithoutNamespaces | skills/rss-fetcher/scripts/fetch_rss.py:61-63 | a tree without namespaced tags is unchanged by the rewrite |
| Xml.StripRemovesNamespaces | skills/rss-fetcher/scripts/fetch_rss.py:61-63 | on a tree of Clark-notation tags, no `}` is left anywhere after the rewrite |
| Isolation.Run | skills/rss-fetcher/scripts/fetch_rss.py:56-122 | the loop fails exactly when some step raises, and it never appends more records than there are steps |
| Isolation.FirstRaise | skills/rss-fetcher/scripts/fetch_rss.py:121-122 | the position of the first raising step, with no raise before it |
| Isolation.RunKeepsPrefix | skills/rss-fetcher/scripts/fetch_rss.py:56-122 | the records kept are exactly those emitted before the first exception |
| Isolation.RunAppend | skills/rss-fetcher/scripts/fetch_rss.py:67-119 | two loops in one `try`: the second loop runs only when the first did not raise |
| Isolation.RunWithoutRaise | skills/rss-fetcher/scripts/fetch_rss.py:56-122 | with no exception, every emitted record is kept, in order |
| Isolation.RunItemsAll | skills/rss-fetcher/scripts/fetch_rss.py:81-89 | a property of every emitted record holds of every kept record |
| RssFetch.TextOr | skills/rss-fetcher/scripts/fetch_rss.py:71-72 | the default when the child is absent, else the child's text, which may be null |
| RssFetch.DateText | skills/rss-fetcher/scripts/fetch_rss.py:75-79 | the text of the first date child when it exists, else of the second, else nothing |
| RssFetch.RssItems | skills/rss-fetcher/scripts/fetch_rss.py:68-70 | no items without a `channel` child; otherwise exactly the `item` children of the first `channel` child |
| RssFetch.AtomEntries | skills/rss-fetcher/scripts/fetch_rss.py:93-94 | no entries unless the root is a `feed`; otherwise exactly the root's `entry` children |
| RssFetch.Freshness | skills/rss-fetcher/scripts/fetch_rss.py:81-83 | fresh exactly when the text is present and reads as an aware date at or after the cutoff; incomparable exactly when it reads as a naive date |
| RssFetch.RssStep | skills/rss-fetcher/scripts/fetch_rss.py:70-89 | an item is recorded exactly when its date text is fresh, with its title (default "No Title"), its link (default empty), its date text and source RSS; it raises exactly when its date text reads as a naive date; an item without a date text is skipped |
| RssFetch.AtomLink | skills/rss-fetcher/scripts/fetch_rss.py:98-103 | empty without a `link` child; the non-empty `href` when there is one; with an empty or missing `href`, the element's text, or empty when it has none |
| RssFetch.AtomLinkFirstOnly | skills/rss-fetcher/scripts/fetch_rss.py:98-103 | only the first `link` child is read: a later one does not change the link |
| RssFetch.AtomStep | skills/rss-fetcher/scripts/fetch_rss.py:94-119 | an entry is recorded exactly when its `updated`/`published` text is fresh, with its title, link, date text and source Atom; it raises exactly when that text reads as a naive date; an entry without one is skipped |
| RssFetch.ParseFeed | skills/rss-fetcher/scripts/fetch_rss.py:51-124 | no records when there is no content or the XML is malformed; every record is fresh; no RSS record comes after an Atom record |
| RssFetch.ParseFeedKeepsPrefix | skills/rss-fetcher/scripts/fetch_rss.py:56-122 | the records are those of the fresh items and entries before the first item whose date cannot be compared |
| RssFetch.EveryFreshRssItemKept | skills/rss-fetcher/scripts/fetch_rss.py:68-89 | an RSS document whose every item is fresh gives one record per item |
| RssFetch.FeedItems | skills/rss-fetcher/scripts/fetch_rss.py:139-145 | a feed without a URL contributes nothing; otherwise it contributes its parsed records, in order, each tagged with the feed's name or "Unknown" |
| RssFetch.Aggregate | skills/rss-fetcher/scripts/fetch_rss.py:138-145 | no feeds give no records; one feed gives that feed's records; every record carries the name of some feed and is fresh for that feed's cutoff |
| RssFetch.AggregateAppend | skills/rss-fetcher/scripts/fetch_rss.py:138-145 | the output for a list of feeds is the output for its first part followed by the output for the rest |
| RssFetch.MalformedFeedIsolated | skills/rss-fetcher/scripts/fetch_rss.py:121-122 | a feed whose bytes are not XML contributes nothing and leaves the other feeds' records unchanged |
| Channels.StripLeading | skills/youtube-tracker/scripts/manage_channels.py:34 | `lstrip`: the result is a suffix that does not start with the character, and everything removed was that character |
| Channels.StripTrailing | skills/youtube-tracker/scripts/manage_channels.py:34 | `rstrip`: the result is a prefix that does not end with the character, and everything removed was that character |
| Channels.NonEmpty | skills/youtube-tracker/scripts/manage_channels.py:34 | keeps exactly the non-empty parts |
| Channels.PathSegments | skills/youtube-tracker/scripts/manage_channels.py:34 | every segment is non-empty and free of `/` |
| Channels.PathSegmentsIgnoreStrip | skills/youtube-tracker/scripts/manage_channels.py:34 | stripping the slashes first changes nothing: the segments are the non-empty pieces between slashes |
| Channels.IndexOfSegment | skills/youtube-tracker/scripts/manage_channels.py:40 | `list.index`: the first position holding the segment |
| Channels.HandleUrl | skills/youtube-tracker/scripts/manage_channels.py:37-38 | the scheme, `://` and the host, then `/` and the handle, and nothing after it |
| Channels.ChannelPlan | skills/youtube-tracker/scripts/manage_channels.py:32-42 | a leading `@` segment means downloading the handle's page; otherwise a `channel` segment that is not last gives exactly the segment after it, and one that is last gives an `IndexError`; otherwise the URL itself is downloaded |
| Channels.DirectIdIsSegment | skills/youtube-tracker/scripts/manage_channels.py:39-40 | an id read off the path is the whole segment after the first `channel` |
| Channels.ScanPage | skills/youtube-tracker/scripts/manage_channels.py:50-65 | no id exactly when none of the three patterns matches; otherwise the capture of the first pattern that matches, which is non-empty and free of `"` |
| Channels.GetChannelId | skills/youtube-tracker/scripts/manage_channels.py:32-68 | crashes exactly when the plan is an `IndexError`; a direct id is returned as is; a download that fails gives no id; a resolved id is never empty |
| Channels.ChannelPathNeedsNoDownload | skills/youtube-tracker/scripts/manage_channels.py:39-40 | a `/channel/<id>` URL resolves to its id whatever the download would give |
| Channels.DerivedName | skills/youtube-tracker/scripts/manage_channels.py:86-92 | a given non-empty name is kept; otherwise the leading `@` segment; otherwise "Unknown Channel" |
| Channels.AddChannel | skills/youtube-tracker/scripts/manage_channels.py:70-105 | refused exactly when the URL is tracked; fails exactly when the id cannot be resolved or resolving crashes; otherwise appends one channel with the URL, the id and the derived name, keeping the others |
| Channels.AddTwice | skills/youtube-tracker/scripts/manage_channels.py:74-77 | adding the same URL again is refused |
| Channels.Keep | skills/youtube-tracker/scripts/manage_channels.py:120 | keeps exactly the channels whose URL and id both differ from the key, and keeps everything when none matches |
| Channels.KeepAppend | skills/youtube-tracker/scripts/manage_channels.py:120 | the filter distributes over concatenation, so order is kept |
| Channels.RemoveChannel | skills/youtube-tracker/scripts/manage_channels.py:117-126 | the remaining channels are exactly those not matching the key; the list is saved exactly when some channel matched |
| Channels.RemoveIdempotent | skills/youtube-tracker/scripts/manage_channels.py:117-126 | removing twice changes nothing the second time, and the second removal does not save |
| Channels.RemoveUndoesAdd | skills/youtube-tracker/scripts/manage_channels.py:70-126 | removing by URL right after an add leaves what removal would have left before the add, and saves |
| YoutubeUpdates.FeedUrl | skills/youtube-tracker/scripts/check_updates.py:34 | the feed URL is the fixed prefix followed by the channel id |
| YoutubeUpdates.FeedUrlInjective | skills/youtube-tracker/scripts/check_updates.py:34 | distinct channel ids give distinct feed URLs |
| YoutubeUpdates.WatchUrl | skills/youtube-tracker/scripts/check_updates.py:61 | the watch URL prefix followed by the video id, or by `None` when the id is null |
| YoutubeUpdates.EntryStep | skills/youtube-tracker/scripts/check_updates.py:52-69 | recorded exactly when the published date is aware, strictly after the cutoff, and the fields can be read; skipped exactly when it is aware and not after the cutoff; the record carries the channel name, the published text, the video id, the title and the link (or the watch URL) |
| YoutubeUpdates.ChannelVideos | skills/youtube-tracker/scripts/check_updates.py:29-73 | a channel without an id, or whose feed cannot be fetched or parsed, contributes nothing; every video carries the channel's name |
| YoutubeUpdates.ChannelKeepsPrefix | skills/youtube-tracker/scripts/check_updates.py:35-73 | a channel's videos are those its entries emit before the first entry that raises |
| YoutubeUpdates.GetUpdates | skills/youtube-tracker/scripts/check_updates.py:22-75 | no channels give no videos; one channel gives that channel's videos; every video names a channel of the list that has an id |
| YoutubeUpdates.UpdatesAreRecent | skills/youtube-tracker/scripts/check_updates.py:57 | every reported video was published, on an aware date, strictly after the cutoff |
| YoutubeUpdates.GetUpdatesAppend | skills/youtube-tracker/scripts/check_updates.py:22-75 | the output for a list of channels is the output for its first part followed by the output for the rest |
| YoutubeUpdates.FailingChannelIsolated | skills/youtube-tracker/scripts/check_updates.py:71-73 | a channel whose feed fails contributes nothing and leaves the others' videos unchanged |
| YoutubeUpdates.AtCutoffSkipped | skills/youtube-tracker/scripts/check_updates.py:57 | an entry published exactly at the cutoff is not reported |
| YoutubeUpdates.UpdatedIgnored | skills/youtube-tracker/scripts/check_updates.py:53 | the entry's `updated` child is never read |
| LyricsFetch.IsShortLink | skills/ziqi-analyst/scripts/fetch_lyrics_cli.js:145-154 | a short link exactly when the URL parses and its host is one of the short-link domains or a subdomain of one |
| LyricsFetch.DetectPlatform | skills/ziqi-analyst/scripts/fetch_lyrics_cli.js:184-191 | NetEase exactly when `music.163.com` occurs; QQ exactly when it does not but `y.qq.com` does; otherwise none |
| LyricsFetch.NeteaseId | skills/ziqi-analyst/scripts/fetch_lyrics_cli.js:21-24 | no id exactly when `[?&]id=\d+` matches nowhere; an id is a non-empty run of digits |
| LyricsFetch.FirstMid | skills/ziqi-analyst/scripts/fetch_lyrics_cli.js:30-35 | the three mid patterns are tried in order and the first match wins; a mid is a non-empty run of ASCII letters and digits |
| LyricsFetch.QqId | skills/ziqi-analyst/scripts/fetch_lyrics_cli.js:29-41 | a mid exactly when a mid pattern matches; otherwise a numeric id exactly when `songid=\d+` matches; otherwise nothing |
| LyricsFetch.SongRequest | skills/ziqi-analyst/scripts/fetch_lyrics_cli.js:305-313 | unsupported exactly when no platform is detected; no song id exactly when the platform's extraction fails; otherwise the platform's id |
| LyricsFetch.LyricLine | skills/ziqi-analyst/scripts/fetch_lyrics_cli.js:196-205 | kept exactly when the line is not a metadata line, starts with a time tag, and the rest holds no line terminator and is not blank; the kept line is the tag followed by the rest trimmed |
| LyricsFetch.LyricLines | skills/ziqi-analyst/scripts/fetch_lyrics_cli.js:193-207 | never more lines than the input, and each starts with a time tag; a single line is kept, trimmed, exactly when it is a lyric line |
| LyricsFetch.LyricLinesOne | skills/ziqi-analyst/scripts/fetch_lyrics_cli.js:196-205 | one input line gives its trimmed lyric line when it has one, and nothing otherwise |
| LyricsFetch.LyricLinesMembers | skills/ziqi-analyst/scripts/fetch_lyrics_cli.js:196-205 | a line is in the result exactly when it is the lyric line of some input line |
| LyricsFetch.LyricLineShape | skills/ziqi-analyst/scripts/fetch_lyrics_cli.js:200-203 | a kept line starts with the same time tag as the line it came from |
| LyricsFetch.LyricLinesAppend | skills/ziqi-analyst/scripts/fetch_lyrics_cli.js:196-205 | the filter distributes over concatenation, so input order is kept |
| LyricsFetch.ExtractLyricLines | skills/ziqi-analyst/scripts/fetch_lyrics_cli.js:193-207 | at most one line per piece of the text cut at line feeds; each starts with a time tag and holds no line feed; a line is in the result exactly when it is the lyric line of some piece |
| LyricsFetch.LyricLineChars | skills/ziqi-analyst/scripts/fetch_lyrics_cli.js:200-203 | a kept line holds only characters of its source line |
| LyricsFetch.TimedLineKept | skills/ziqi-analyst/scripts/fetch_lyrics_cli.js:200-203 | a tag followed by text without line terminators is kept, with its text trimmed |
| LyricsFetch.CarriageReturnLineDropped | skills/ziqi-analyst/scripts/fetch_lyrics_cli.js:194-203 | a timed line ending in a carriage return is dropped |
| LyricsFetch.OutputContent | skills/ziqi-analyst/scripts/fetch_lyrics_cli.js:324-331 | nothing exactly when there are no lines; otherwise the name, the artist, an empty line and the lyric lines, joined by line feeds and ended by one |
| LyricsFetch.OutputContentLines | skills/ziqi-analyst/scripts/fetch_lyrics_cli.js:331 | reading the written text back line by line gives the name, the artist, the empty line, the lyric lines and a final empty line |
| LyricsValidate.LineIssues | skills/ziqi-lyricist/scripts/validate_lyrics_output.js:61-76 | at most one issue per line, and none exactly when the trimmed line passes all three checks |
| LyricsValidate.ParenTag | skills/ziqi-lyricist/scripts/validate_lyrics_output.js:74 | true exactly when the line is `(`, one or more characters other than `)`, and `)`; such a line is neither a time tag, a heading nor a section tag |
| LyricsValidate.SectionTag | skills/ziqi-lyricist/scripts/validate_lyrics_output.js:78 | true exactly when the line is `[`, one or more characters other than `]`, and `]` |
| LyricsValidate.LineIssuesOf | skills/ziqi-lyricist/scripts/validate_lyrics_output.js:61-81 | every issue names a line from 1 to the number of lines, in strictly increasing order |
| LyricsValidate.LineIssuesOfMembers | skills/ziqi-lyricist/scripts/validate_lyrics_output.js:61-76 | an issue with a code is reported at line n exactly when line n fails that check |
| LyricsValidate.LineIssuesOfEmpty | skills/ziqi-lyricist/scripts/validate_lyrics_output.js:61-76 | no line issue exactly when every line passes all three checks |
| LyricsValidate.HasTag | skills/ziqi-lyricist/scripts/validate_lyrics_output.js:78-80 | true exactly when some trimmed line is a bracketed section tag |
| LyricsValidate.AllIssues | skills/ziqi-lyricist/scripts/validate_lyrics_output.js:61-85 | the missing-tag issue is present exactly when no line is a section tag, and then it comes last; line issues stay in line order |
| LyricsValidate.Validate | skills/ziqi-lyricist/scripts/validate_lyrics_output.js:56-95 | success exactly when there is no issue; the issue count is the number of issues; exit code 0 on success, else 2 |
| LyricsValidate.ValidateIssues | skills/ziqi-lyricist/scripts/validate_lyrics_output.js:83-85 | over a whole text, the missing-tag issue is reported exactly when no line is a section tag |
| LyricsValidate.ValidateReportsLine | skills/ziqi-lyricist/scripts/validate_lyrics_output.js:56-76 | over a whole text, a line issue is reported at line n exactly when the n-th line, trimmed, fails that check |
| LyricsValidate.ValidateSucceeds | skills/ziqi-lyricist/scripts/validate_lyrics_output.js:61-95 | a text passes exactly when every line passes the three checks and some line is a section tag |
| LyricsValidate.BareTimestampIsTag | skills/ziqi-lyricist/scripts/validate_lyrics_output.js:66-80 | a line holding only a time tag is flagged and also counts as a section tag |
| Imagery.SortBy | skills/ziqi-lyricist/scripts/query_imagery_local.js:143-148 | the result is a permutation of the input and is in order |
| Imagery.SortSortedUnchanged | skills/ziqi-lyricist/scripts/query_imagery_local.js:143-148 | an input already in order, ties included, comes back unchanged |
| Imagery.InsertWithRank | skills/ziqi-lyricist/scripts/query_imagery_local.js:143-148 | inserting into an ordered list puts the new element behind every element of equal rank |
| Imagery.SortStable | skills/ziqi-lyricist/scripts/query_imagery_local.js:143-148 | the sort is stable: for every rank, the elements of that rank come out in their input order |
| Imagery.SortIdempotent | skills/ziqi-lyricist/scripts/query_imagery_local.js:143-148 | sorting twice is sorting once |
| Imagery.BeforeTransitive | skills/ziqi-lyricist/scripts/query_imagery_local.js:143-148 | the ranking is transitive: the greater count first, then the collation order of the names |
| Imagery.Kept | skills/ziqi-lyricist/scripts/query_imagery_local.js:126-136 | an item is kept exactly when it is an object whose name is a string with a non-blank trimmed form; the kept name is that trimmed form; a present count is kept as it is and a missing count becomes 0 |
| Imagery.Upsert | skills/ziqi-lyricist/scripts/query_imagery_local.js:137-140 | names stay unique; the record for the name counts at least as much as the new entry; records of other names are kept; nothing else is introduced |
| Imagery.UpsertKeepsCovers | skills/ziqi-lyricist/scripts/query_imagery_local.js:137-140 | a record only ever gains count: when the list holds a record for a name counting at least `n`, so does the list after the upsert |
| Imagery.CountIsMaximum | skills/ziqi-lyricist/scripts/query_imagery_local.js:126-141 | no kept item with a record's name counts more than the record |
| Imagery.Dedupe | skills/ziqi-lyricist/scripts/query_imagery_local.js:123-141 | no two records share a name, and there are no more records than items |
| Imagery.DedupeFromItem | skills/ziqi-lyricist/scripts/query_imagery_local.js:126-141 | every record comes from one of the items |
| Imagery.DedupeAndSort | skills/ziqi-lyricist/scripts/query_imagery_local.js:123-149 | one record per trimmed name, each read from some item, holding at least every kept count of that name, ranked by count and then collation order |
| Imagery.Select | skills/ziqi-lyricist/scripts/query_imagery_local.js:189 | the first `limit` records, or all of them when there are fewer |
| Imagery.CategoryFiles | skills/ziqi-lyricist/scripts/query_imagery_local.js:99-101 | exactly the directory entries that end in `-imagery.json` |
| Imagery.CategoryName | skills/ziqi-lyricist/scripts/query_imagery_local.js:104 | the file name is the category name followed by the suffix |
| Imagery.Categories | skills/ziqi-lyricist/scripts/query_imagery_local.js:94-106 | one category per category file, each with its file in the directory, in collation order of the file names |
| Imagery.CategoryListed | skills/ziqi-lyricist/scripts/query_imagery_local.js:94-106 | a category is listed exactly when its file is in the directory |
| Imagery.Query | skills/ziqi-lyricist/scripts/query_imagery_local.js:172-197 | unknown exactly when the category's file is missing, and then the listed categories come back; otherwise the total is the number of ranked records and the words are a prefix of them no longer than the limit, holding all records or exactly `limit` of them |
| ArrangementPrompt.FindLineNo | skills/ziqi-producer/scripts/validate_arrangement_prompt.js:48-55 | 0 exactly when no line matches; otherwise the 1-based number of the first matching line |
| ArrangementPrompt.BoldLabelFromParts | skills/ziqi-producer/scripts/validate_arrangement_prompt.js:112 | every line of white space, `**`, a label without `*`, `:**` and white space is flagged |
| ArrangementPrompt.BoldLabelToParts | skills/ziqi-producer/scripts/validate_arrangement_prompt.js:112 | every flagged line has that shape |
| ArrangementPrompt.WordColonFromParts | skills/ziqi-producer/scripts/validate_arrangement_prompt.js:106-108 | white space, the word in any case, white space and a colon start a flagged line |
| ArrangementPrompt.WordColonToParts | skills/ziqi-producer/scripts/validate_arrangement_prompt.js:106-108 | every flagged line has that shape |
| ArrangementPrompt.StyleTagsColonFromParts | skills/ziqi-producer/scripts/validate_arrangement_prompt.js:107 | white space, `style` in any case, white space, `tags` in any case, white space and a colon start a flagged line |
| ArrangementPrompt.StyleTagsColonToParts | skills/ziqi-producer/scripts/validate_arrangement_prompt.js:107 | every flagged line has that shape |
| ArrangementPrompt.BracketLabelFromParts | skills/ziqi-producer/scripts/validate_arrangement_prompt.js:109-110 | white space, `[`, white space, the word in any case, white space, a colon, white space, text with no line terminator, `]` and white space make a flagged line |
| ArrangementPrompt.BracketLabelToParts | skills/ziqi-producer/scripts/validate_arrangement_prompt.js:109-110 | every flagged line has that shape |
| ArrangementPrompt.PromptBlock | skills/ziqi-producer/scripts/validate_arrangement_prompt.js:57-79 | empty exactly when no trimmed line is `[Suno Prompt]`; otherwise it starts with that header |
| ArrangementPrompt.PromptBlockExtent | skills/ziqi-producer/scripts/validate_arrangement_prompt.js:59-78 | the block runs from the first header line up to the first later line that starts a Chinese section or a rule, joined and trimmed |
| ArrangementPrompt.TagIssues | skills/ziqi-producer/scripts/validate_arrangement_prompt.js:93-102 | every issue is a missing-tag issue at line 0; there is one for a tag exactly when the tag is listed and the text lacks it; none exactly when the text holds every listed tag |
| ArrangementPrompt.RuleIssues | skills/ziqi-producer/scripts/validate_arrangement_prompt.js:115-120 | every issue is a forbidden-format issue at the line reported for its rule; there is one for a rule at line n exactly when the rule is listed and reported at n > 0; none exactly when no rule is reported |
| ArrangementPrompt.TagIssuesAppend | skills/ziqi-producer/scripts/validate_arrangement_prompt.js:94-102 | the tags are checked in list order: the issues for a list are those for its first part followed by those for the rest |
| ArrangementPrompt.RuleIssuesAppend | skills/ziqi-producer/scripts/validate_arrangement_prompt.js:115-120 | the rules are checked in list order: the issues for a list are those for its first part followed by those for the rest |
| ArrangementPrompt.TagIssuesOnce | skills/ziqi-producer/scripts/validate_arrangement_prompt.js:94-102 | with distinct tags, no two issues report the same tag |
| ArrangementPrompt.RuleIssuesOnce | skills/ziqi-producer/scripts/validate_arrangement_prompt.js:115-120 | with distinct rules, no two issues report the same rule |
| ArrangementPrompt.ChecksDistinct | skills/ziqi-producer/scripts/validate_arrangement_prompt.js:93-113 | neither the required tags nor the forbidden formats list anything twice |
| ArrangementPrompt.GroupsInOrder | skills/ziqi-producer/scripts/validate_arrangement_prompt.js:93-137 | issues listed group by group, without repeats inside the groups, come in group order and repeat nothing |
| ArrangementPrompt.IssuesInGroupOrder | skills/ziqi-producer/scripts/validate_arrangement_prompt.js:93-137 | for distinct tags and rules, the tag issues come before the format issues, which come before the block's issue, with no repeat |
| ArrangementPrompt.BlockIssues | skills/ziqi-producer/scripts/validate_arrangement_prompt.js:122-137 | no issue exactly when the block is present and at most 1000 UTF-16 code units long; otherwise a missing-block or too-long issue |
| ArrangementPrompt.Validate | skills/ziqi-producer/scripts/validate_arrangement_prompt.js:81-148 | success exactly when there is no issue; exit code 0 or 2; the reported length is the block's UTF-16 length |
| ArrangementPrompt.ValidateIssueOrder | skills/ziqi-producer/scripts/validate_arrangement_prompt.js:93-137 | the report lists the missing tags first, then the forbidden formats, then the block's issue, and never reports the same thing twice |
| ArrangementPrompt.RuleChecked | skills/ziqi-producer/scripts/validate_arrangement_prompt.js:105-113 | every forbidden format is checked |
| ArrangementPrompt.NoRuleIssues | skills/ziqi-producer/scripts/validate_arrangement_prompt.js:105-120 | no forbidden-format issue exactly when no line has any forbidden format |
| ArrangementPrompt.RuleIssueHasMatch | skills/ziqi-producer/scripts/validate_arrangement_prompt.js:115-120 | a forbidden-format issue points to a line that matches its rule |
| ArrangementPrompt.ReportedRule | skills/ziqi-producer/scripts/validate_arrangement_prompt.js:115-120 | a non-empty report names a listed rule that was reported at some line |
| ArrangementPrompt.IssuesMembers | skills/ziqi-producer/scripts/validate_arrangement_prompt.js:93-137 | in the three groups together, each kind of issue is present exactly when its own group reports it |
| ArrangementPrompt.ValidateReports | skills/ziqi-producer/scripts/validate_arrangement_prompt.js:93-137 | a missing-tag issue is reported exactly for each required tag the text lacks; a forbidden-format issue at line n exactly when n is the first line of that format; the block issue exactly when the block is missing or longer than 1000 code units, with its length |
| ArrangementPrompt.ValidateSucceeds | skills/ziqi-producer/scripts/validate_arrangement_prompt.js:93-148 | a text passes exactly when it holds every required tag, no line has a forbidden format, and the block is present and at most 1000 code units long |
| ArrangementPrompt.LengthBoundInclusive | skills/ziqi-producer/scripts/validate_arrangement_prompt.js:131 | a block of exactly 1000 code units passes; one of 1001 fails with that length |
| AudioFeatures.WholeSeconds | skills/ziqi-analyst/scripts/extract_audio_features_cli.js:83 | a negative duration counts as 0 seconds; otherwise the whole seconds, at most the duration and less than one second below it |
| AudioFeatures.FormatDuration | skills/ziqi-analyst/scripts/extract_audio_features_cli.js:82-87 | digits, a colon, two digits; the seconds are below 60, and minutes times 60 plus seconds give the whole seconds; the minutes take exactly two digits below 100 minutes, and longer minutes have no leading zero |
| AudioFeatures.PadTwoWidth | skills/ziqi-analyst/scripts/extract_audio_features_cli.js:86 | padding gives exactly two digits to the numbers below 100 and more to the others |
| AudioFeatures.NegativeDuration | skills/ziqi-analyst/scripts/extract_audio_features_cli.js:83-86 | a negative duration is shown as `00:00` |
| AudioFeatures.LongDurationMinutes | skills/ziqi-analyst/scripts/extract_audio_features_cli.js:84-86 | from a hundred minutes on, the minutes are not cut to two digits |
| AudioFeatures.CsvLines | skills/ziqi-analyst/scripts/extract_audio_features_cli.js:205-208 | the header, then one `time,rms` line per row in order |
| AudioFeatures.CsvTextLines | skills/ziqi-analyst/scripts/extract_audio_features_cli.js:209 | reading the file back line by line gives the header, one line per row and a final empty line |
| AudioFeatures.CsvLineFields | skills/ziqi-analyst/scripts/extract_audio_features_cli.js:207 | a row's line splits at its comma into the row's two numbers as written |
| AudioFeatures.AverageRms | skills/ziqi-analyst/scripts/extract_audio_features_cli.js:211-214 | null exactly when there are no rows; otherwise the mean of the RMS values |
| AudioFeatures.AverageWithinBounds | skills/ziqi-analyst/scripts/extract_audio_features_cli.js:211-214 | the mean lies between the smallest and the largest RMS value |
| Pattern.Search | skills/youtube-tracker/scripts/manage_channels.py:51 | no match exactly when the pattern matches nowhere; otherwise the greedy capture of the leftmost match, a non-empty run of the capture class |
| Pattern.SearchFirst | skills/youtube-tracker/scripts/manage_channels.py:50-65 | nothing exactly when no pattern matches; otherwise the capture of one of the patterns, the first in order that matches |
| LineForms.TimeTagLength | skills/ziqi-lyricist/scripts/validate_lyrics_output.js:66 | the time tag is 10 or 11 characters long, or 0 exactly when neither tag shape is present |
| LineForms.IsHeading | skills/ziqi-lyricist/scripts/validate_lyrics_output.js:70 | true exactly when one to six `#` are followed by white space |
| LineForms.Enclosed | skills/ziqi-lyricist/scripts/validate_lyrics_output.js:74-78 | true exactly when the text is the opening character, one or more characters other than the closing one, and the closing character |
| LineForms.IsMetadataLine | skills/ziqi-analyst/scripts/fetch_lyrics_cli.js:198 | true exactly when a `[`, one or more ASCII letters and a colon start the line |
| Text.Trim | skills/ziqi-lyricist/scripts/validate_lyrics_output.js:63 | empty exactly when the text is all white space; otherwise neither end is white space |
| Text.SplitLines | skills/ziqi-lyricist/scripts/validate_lyrics_output.js:56 | one line per piece cut at line feeds, each without its final carriage return except the last |
| Text.Utf16Length | skills/ziqi-producer/scripts/validate_arrangement_prompt.js:123 | between one and two units per character, and one per character exactly when every character lies in the Basic Multilingual Plane |
| Text.Utf16LengthOne | skills/ziqi-producer/scripts/validate_arrangement_prompt.js:123 | one character counts one unit inside the Basic Multilingual Plane and two (a surrogate pair) outside it |
| Text.Utf16LengthAppend | skills/ziqi-producer/scripts/validate_arrangement_prompt.js:123 | the count of a concatenation is the sum of the parts' counts |

## Left out

- Network and processes. The `curl` calls and `https` requests are left out. So is the
  short-link redirect loop (`resolveShortLink`), the NetEase and QQ lyric APIs, and `ffmpeg`
  decoding. Their results are parameters: a document per URL, a page per URL, or an optional
  feed root.
- File and configuration I/O: loading and saving the channel list and feed configuration,
  directory and file reads, JSON output, console messages and `process.exit`.
  - The validators' missing-file error (exit 1) is left out.
  - The audio script's `meta.json` fields other than the formatted duration and the
    average RMS are left out, and so are its output-directory defaults.
- Command-line parsing and help: `--limit`, `--action`, `--file` and the hours argument.
  The model takes their values directly. `Imagery.Select` requires the positive limit that
  argument parsing guarantees.
- Library parsers: `ET.fromstring`, `parsedate_to_datetime`, `fromisoformat`, `urlparse` and
  `new URL`. They are given values or functions. Dates are instants on one integer time line,
  with an offset-aware flag.
- The clock: the cutoff is an integer input (one per feed for the RSS aggregator).
- RssFetch.ParseFeed: an hours argument of `inf`, `nan` or one beyond the range of `datetime`
  makes the cutoff computation at `fetch_rss.py:65` raise inside the `try`, so every feed
  gives no records. The model's cutoff is an integer and cannot express this case.
- Floating point: `computeRmsSeries` and `detectBpm` are not modelled. Durations and averages
  are exact reals, and the 8-digit `toFixed` rounding of the average is not modelled.
- AudioFeatures.CsvLines: JavaScript's number-to-text conversion is an abstract `show`
  parameter, assumed to produce neither commas nor line feeds.
- Imagery.DedupeAndSort: `localeCompare` with the `zh-Hans-CN` collation is an abstract
  collation key compared lexicographically; records equal in both count and key keep their
  input order, as `Array.prototype.sort` is stable.
- Imagery.Query: the `--with-count` switch only chooses between records and bare names, so
  the model returns the records.
- Imagery.Kept: `Number.isFinite` is modelled by the item's count being present or absent.
  Non-numeric and infinite counts are the absent case.
- `list_channels` only prints the list and is not modelled.
- The stored channel records are assumed to hold `url`, `id` and `name`, as `add_channel`
  writes them. A hand-edited record without `url` makes `ch['url']` raise; that case is
  not modelled.
- RssFetch.FeedItems: a feed whose `name` key holds JSON null is treated like a feed with no
  `name`. Python would tag its records with null instead of "Unknown".
- `skills/api-test-generator/scripts/generate_xmind.py` is not part of this model.

=== FILE: arrangement_prompt.dfy ===
/** The arrangement prompt check (`skills/ziqi-producer/scripts/validate_arrangement_prompt.js`):
    required section tags, forbidden line formats, and the English Suno prompt block with its
    length bound. */
module ArrangementPrompt {
  import opened Text
  import opened LineForms

  /** The forbidden formats, in the order they are checked. */
  datatype Rule =
    | TitleColon
    | StyleTagsColon
    | PromptColon
    | GenreTag
    | InstrumentsTag
    | MarkdownHeading
    | MarkdownBoldLabel

  const Rules: seq<Rule> :=
    [TitleColon, StyleTagsColon, PromptColon, GenreTag, InstrumentsTag, MarkdownHeading, MarkdownBoldLabel]

  const RequiredTags: seq<string> := ["[Suno Prompt]", "[Style]", "[Lead]", "[Backing]", "[Vocals]", "[Structure]"]

  const PromptHeader := "[Suno Prompt]"

  /** The trimmed lines that end the prompt block start with one of these. */
  const ChineseSectionMarker := "\U{3010}\U{7F16}\U{66F2}\U{63D0}\U{793A}\U{8BCD} - \U{4E2D}\U{6587}\U{7248}\U{3011}"
  const ChineseVersionMarker := "\U{3010}\U{4E2D}\U{6587}\U{7248}"
  const RuleMarker := "---"
  const BannerMarker := "====="

  const MaxPromptLength := 1000

  /** `^\s*w\s*:` with the `i` flag, `w` an ASCII word in lower case. The word starts with a
      letter, so the first `\s*` takes all the leading white space. */
  predicate WordColon(line: string, w: string) {
    var t := TrimStart(line);
    StartsWithIgnoreCase(t, w) && StartsWith(TrimStart(t[|w|..]), ":")
  }

  /** `^\s*Style\s*Tags\s*:` with the `i` flag. */
  predicate StyleTagsColonLine(line: string) {
    var t := TrimStart(line);
    StartsWithIgnoreCase(t, "style") &&
    var u := TrimStart(t[5..]);
    StartsWithIgnoreCase(u, "tags") && StartsWith(TrimStart(u[4..]), ":")
  }

  /** `^\s*\[\s*w\s*:\s*.*\]\s*$` with the `i` flag: the `]` is the last visible character,
      and between the colon and it, once leading white space is skipped, `.` must match
      everything, so no line terminator is left there. */
  predicate BracketLabel(line: string, w: string) {
    var t := TrimStart(line);
    t != [] && t[0] == '[' &&
    var u := TrimStart(t[1..]);
    StartsWithIgnoreCase(u, w) &&
    var v := TrimStart(u[|w|..]);
    v != [] && v[0] == ':' && BracketTail(v[1..])
  }

  /** `\s*.*\]\s*$`, what follows the colon of a bracket label. */
  predicate BracketTail(c: string) {
    var e := TrimEnd(c);
    e != [] && e[|e| - 1] == ']' && NoLineTerminator(TrimStart(e[..|e| - 1]))
  }

  /** `^\s*\*\*[^*]+:\*\*\s*$`: a bold label alone on its line. */
  predicate BoldLabel(line: string) {
    var u := Trim(line);
    6 <= |u| && StartsWith(u, "**") && EndsWith(u, ":**") && '*' !in u[2..|u| - 3]
  }

  /** Whether `rule`'s regular expression matches `line`. */
  predicate Matches(rule: Rule, line: string) {
    match rule
    case TitleColon => WordColon(line, "title")
    case StyleTagsColon => StyleTagsColonLine(line)
    case PromptColon => WordColon(line, "prompt")
    case GenreTag => BracketLabel(line, "genre")
    case InstrumentsTag => BracketLabel(line, "instruments")
    case MarkdownHeading => IsHeading(TrimStart(line))
    case MarkdownBoldLabel => BoldLabel(line)
  }

  /** A bold label, white space around it removed. */
  lemma BoldLabelParts(line: string)
    requires BoldLabel(line)
    ensures var u := Trim(line); u == "**" + u[2..|u| - 3] + ":**"
  {
    var u := Trim(line);
    Frame(u, "**", ":**");
  }

  /** The label between `**` and `:**`. */
  function BoldLabelText(line: string): string
    requires BoldLabel(line)
  {
    var u := Trim(line);
    u[2..|u| - 3]
  }

  /** Every line of the bold-label pattern's language passes the test: white space, `**`, a
      label free of `*`, `:**`, white space. */
  lemma BoldLabelFromParts(p: string, m: string, q: string)
    requires AllSpace(p) && AllSpace(q) && m != [] && '*' !in m
    ensures BoldLabel(p + ("**" + m + ":**") + q)
  {
    var x := "**" + m + ":**";
    assert x[0] == '*' && x[|x| - 1] == '*';
    TrimAround(p, x, q);
    assert x[2..|x| - 3] == m;
  }

  /** Every line that passes the test is of that language: its label is free of `*` and the
      rest is white space. */
  lemma BoldLabelToParts(line: string)
    requires BoldLabel(line)
    ensures var m := BoldLabelText(line);
            m != [] && '*' !in m && line == LeadingSpace(line) + ("**" + m + ":**") + TrailingSpace(line)
  {
    var u := Trim(line);
    TrimParts(line);
    BoldLabelParts(line);
    assert line == LeadingSpace(line) + u + TrailingSpace(line);
  }

  /** Every line of the language of `^\s*w\s*:` (`i` flag) passes the test: white space,
      the word in any ASCII case, white space, a colon, anything. */
  lemma WordColonFromParts(w: string, p: string, x: string, q: string, rest: string)
    requires w != [] && IsAsciiLetter(w[0])
    requires AllSpace(p) && AllSpace(q) && |x| == |w| && StartsWithIgnoreCase(x, w)
    ensures WordColon(p + (x + (q + ([':'] + rest))), w)
  {
    var after := q + ([':'] + rest);
    var t := TrimStart(p + (x + after));
    assert t == x + after by {
      assert IsAsciiLetter(LowerAscii(x[0]));
      TrimStartSpaces(p, x + after);
    }
    assert StartsWithIgnoreCase(t, w) by {
      forall i | 0 <= i < |w|
        ensures LowerAscii(t[i]) == w[i]
      {
        assert t[i] == x[i];
      }
    }
    assert t[|w|..] == after;
    assert StartsWith(TrimStart(after), ":") by {
      TrimStartSpaces(q, [':'] + rest);
    }
  }

  /** A string that starts, after white space, with a colon. */
  lemma ColonAfterSpace(after: string)
    requires StartsWith(TrimStart(after), ":")
    ensures after == LeadingSpace(after) + ([':'] + TrimStart(after)[1..])
  {
    var v := TrimStart(after);
    assert v == [':'] + v[1..];
  }

  /** Every line that passes the test is of that language: white space, then the word in
      some case, then the rest, which is white space, a colon and anything. */
  lemma WordColonToParts(line: string, w: string)
    requires WordColon(line, w)
    ensures line == LeadingSpace(line) + TrimStart(line)
    ensures StartsWithIgnoreCase(TrimStart(line)[..|w|], w)
    ensures var after := TrimStart(line)[|w|..];
            after == LeadingSpace(after) + ([':'] + TrimStart(after)[1..])
  {
    StartsWithIgnoreCasePrefix(TrimStart(line), w);
    ColonAfterSpace(TrimStart(line)[|w|..]);
  }

  /** White space, then a word in some ASCII case: `trimStart` stops at the word, which
      the trimmed text starts with, and behind it comes the rest. */
  lemma WordAfterSpace(p: string, x: string, w: string, rest: string)
    requires w != [] && IsAsciiLetter(w[0])
    requires AllSpace(p) && |x| == |w| && StartsWithIgnoreCase(x, w)
    ensures TrimStart(p + (x + rest)) == x + rest
    ensures StartsWithIgnoreCase(x + rest, w) && (x + rest)[|w|..] == rest
  {
    assert IsAsciiLetter(LowerAscii(x[0]));
    TrimStartSpaces(p, x + rest);
    forall i | 0 <= i < |w|
      ensures LowerAscii((x + rest)[i]) == w[i]
    {
      assert (x + rest)[i] == x[i];
    }
  }

  /** Every line of the language of `^\s*Style\s*Tags\s*:` (`i` flag) passes the test: white
      space, `style` in any ASCII case, white space, `tags` in any ASCII case, white space, a
      colon, anything. */
  lemma StyleTagsColonFromParts(p: string, x: string, q: string, y: string, r: string, rest: string)
    requires AllSpace(p) && AllSpace(q) && AllSpace(r)
    requires |x| == 5 && StartsWithIgnoreCase(x, "style") && |y| == 4 && StartsWithIgnoreCase(y, "tags")
    ensures StyleTagsColonLine(p + (x + (q + (y + (r + ([':'] + rest))))))
  {
    var after2 := r + ([':'] + rest);
    var after1 := q + (y + after2);
    var t := TrimStart(p + (x + after1));
    WordAfterSpace(p, x, "style", after1);
    assert StartsWithIgnoreCase(t, "style") && t[5..] == after1;
    var u := TrimStart(t[5..]);
    WordAfterSpace(q, y, "tags", after2);
    assert StartsWithIgnoreCase(u, "tags") && u[4..] == after2;
    CharAfterSpace(r, ':', rest);
  }

  /** The converse: text that starts, after white space, with a word in some ASCII case is
      that white space, the word as written, and the rest. */
  lemma WordToParts(s: string, w: string) returns (p: string, x: string, rest: string)
    requires StartsWithIgnoreCase(TrimStart(s), w)
    ensures AllSpace(p) && |x| == |w| && StartsWithIgnoreCase(x, w)
    ensures rest == TrimStart(s)[|w|..] && s == p + (x + rest)
  {
    var t := TrimStart(s);
    StartsWithIgnoreCasePrefix(t, w);
    p, x, rest := LeadingSpace(s), t[..|w|], t[|w|..];
    TakeDrop(t, |w|);
  }

  /** Every line that passes the test is of that language. */
  lemma StyleTagsColonToParts(line: string) returns (p: string, x: string, q: string, y: string, r: string, rest: string)
    requires StyleTagsColonLine(line)
    ensures AllSpace(p) && AllSpace(q) && AllSpace(r)
    ensures |x| == 5 && StartsWithIgnoreCase(x, "style") && |y| == 4 && StartsWithIgnoreCase(y, "tags")
    ensures line == p + (x + (q + (y + (r + ([':'] + rest)))))
  {
    var a1, a2;
    p, x, a1 := WordToParts(line, "style");
    q, y, a2 := WordToParts(a1, "tags");
    ColonAfterSpace(a2);
    r, rest := LeadingSpace(a2), TrimStart(a2)[1..];
  }

  /** White space, then a character that is not white space: `trimStart` stops at it. */
  lemma CharAfterSpace(p: string, c: char, rest: string)
    requires AllSpace(p) && !IsSpace(c)
    ensures TrimStart(p + ([c] + rest)) == [c] + rest && ([c] + rest)[1..] == rest
  {
    TrimStartSpaces(p, [c] + rest);
  }

  /** The converse: text that starts, after white space, with `c` is that white space, `c`,
      and the rest. */
  lemma CharToParts(s: string, c: char) returns (p: string, rest: string)
    requires TrimStart(s) != [] && TrimStart(s)[0] == c
    ensures AllSpace(p) && rest == TrimStart(s)[1..] && s == p + ([c] + rest)
  {
    p, rest := LeadingSpace(s), TrimStart(s)[1..];
    SplitHead(TrimStart(s));
  }

  /** The tail of a bracket label: white space, text without a line terminator, `]`, white
      space. `trimEnd` stops at the `]`, and what precedes it, once `trimStart` has dropped the
      white space, holds no line terminator. */
  lemma BracketTailFromParts(s: string, m: string, z: string)
    requires AllSpace(s) && AllSpace(z) && NoLineTerminator(m)
    ensures BracketTail(s + (m + ([']'] + z)))
  {
    var e := s + m + [']'];
    assert s + (m + ([']'] + z)) == e + z;
    assert e[|e| - 1] == ']';
    TrimEndSpaces(e, z);
    TrimStartBehindSpace(s, m);
    NoLineTerminatorTrimmed(m);
    BracketTailOf(e + z, s + m);
  }

  /** The tail test, given where `trimEnd` stops. */
  lemma BracketTailOf(c: string, mid: string)
    requires TrimEnd(c) == mid + [']'] && NoLineTerminator(TrimStart(mid))
    ensures BracketTail(c)
  {
    var e := TrimEnd(c);
    assert e[..|e| - 1] == mid;
  }

  /** `trimStart` keeps a suffix, so it adds no line terminator. */
  lemma NoLineTerminatorTrimmed(m: string)
    requires NoLineTerminator(m)
    ensures NoLineTerminator(TrimStart(m))
  {
    var n := TrimStart(m);
    forall k | 0 <= k < |n|
      ensures !IsLineTerminator(n[k])
    {
      assert n[k] == m[|m| - |n| + k];
    }
  }

  /** The converse for the tail. */
  lemma BracketTailToParts(c: string) returns (s: string, m: string, z: string)
    requires BracketTail(c)
    ensures AllSpace(s) && AllSpace(z) && NoLineTerminator(m)
    ensures c == s + (m + ([']'] + z))
  {
    var mid;
    mid, z := BracketTailEnd(c);
    s, m := LeadingSpace(mid), TrimStart(mid);
    Regroup(mid, s, m, [']'] + z);
  }


  /** Where `trimEnd` stops in a bracket label's tail: the text before the `]`, and the
      white space after it. */
  lemma BracketTailEnd(c: string) returns (mid: string, z: string)
    requires BracketTail(c)
    ensures c == mid + ([']'] + z) && AllSpace(z) && NoLineTerminator(TrimStart(mid))
  {
    var e := TrimEnd(c);
    mid, z := e[..|e| - 1], c[|e|..];
    TakeDrop(c, |e|);
    SplitLast(e);
    Regroup(e, mid, [']'], z);
  }

  /** The test, step by step: `[` after white space, then the word after white space, then
      a colon after white space, then the tail. */
  lemma BracketLabelSteps(line: string, w: string, a: string, b: string, c: string)
    requires TrimStart(line) == ['['] + a
    requires StartsWithIgnoreCase(TrimStart(a), w) && TrimStart(a)[|w|..] == b
    requires TrimStart(b) == [':'] + c
    requires BracketTail(c)
    ensures BracketLabel(line, w)
  {
    var t := TrimStart(line);
    assert t != [] && t[0] == '[' && t[1..] == a;
    var u := TrimStart(t[1..]);
    assert StartsWithIgnoreCase(u, w) && u[|w|..] == b;
    var v := TrimStart(u[|w|..]);
    assert v != [] && v[0] == ':' && v[1..] == c;
  }

  /** Every line of the language of `^\s*\[\s*w\s*:\s*.*\]\s*$` (`i` flag) passes the test:
      white space, `[`, white space, the word in any ASCII case, white space, a colon, white
      space, text without a line terminator, `]`, white space. */
  lemma BracketLabelFromParts(w: string, p: string, q: string, x: string, r: string, s: string, m: string, z: string)
    requires w != [] && IsAsciiLetter(w[0])
    requires AllSpace(p) && AllSpace(q) && AllSpace(r) && AllSpace(s) && AllSpace(z)
    requires |x| == |w| && StartsWithIgnoreCase(x, w) && NoLineTerminator(m)
    ensures BracketLabel(p + (['['] + (q + (x + (r + ([':'] + (s + (m + ([']'] + z)))))))), w)
  {
    var c := s + (m + ([']'] + z));
    var b := r + ([':'] + c);
    var a := q + (x + b);
    CharAfterSpace(p, '[', a);
    WordAfterSpace(q, x, w, b);
    CharAfterSpace(r, ':', c);
    BracketTailFromParts(s, m, z);
    BracketLabelSteps(p + (['['] + a), w, a, b, c);
  }

  /** Every line that passes the test is of that language. */
  lemma BracketLabelToParts(line: string, w: string)
      returns (p: string, q: string, x: string, r: string, s: string, m: string, z: string)
    requires BracketLabel(line, w)
    ensures AllSpace(p) && AllSpace(q) && AllSpace(r) && AllSpace(s) && AllSpace(z)
    ensures |x| == |w| && StartsWithIgnoreCase(x, w) && NoLineTerminator(m)
    ensures line == p + (['['] + (q + (x + (r + ([':'] + (s + (m + ([']'] + z))))))))
  {
    var a, b, c;
    p, a := CharToParts(line, '[');
    q, x, b := WordToParts(a, w);
    r, c := CharToParts(b, ':');
    s, m, z := BracketTailToParts(c);
  }

  /** The first position at or after `from` whose line passes `test`, `|lines|` when there is
      none: the loop of `findLineNo` and of `Array.prototype.findIndex`. */
  function FirstFrom(lines: seq<string>, from: nat, test: string -> bool): (i: nat)
    requires from <= |lines|
    ensures from <= i <= |lines|
    ensures i < |lines| ==> test(lines[i])
    ensures forall j :: from <= j < i ==> !test(lines[j])
    decreases |lines| - from
  {
    if from == |lines| || test(lines[from]) then from else FirstFrom(lines, from + 1, test)
  }

  /** `findLineNo`: the 1-based number of the first line `rule` matches, 0 when none does. */
  function FindLineNo(lines: seq<string>, rule: Rule): (n: nat)
    ensures n <= |lines|
    ensures n == 0 <==> forall i :: 0 <= i < |lines| ==> !Matches(rule, lines[i])
    ensures n > 0 ==> Matches(rule, lines[n - 1])
    ensures forall i :: 0 <= i < n - 1 ==> !Matches(rule, lines[i])
  {
    var i := FirstFrom(lines, 0, (line: string) => Matches(rule, line));
    if i == |lines| then 0 else i + 1
  }

  predicate IsHeader(line: string) { Trim(line) == PromptHeader }

  predicate IsBlockEnd(line: string) {
    var s := Trim(line);
    StartsWith(s, ChineseSectionMarker) || StartsWith(s, ChineseVersionMarker) ||
    StartsWith(s, RuleMarker) || StartsWith(s, BannerMarker)
  }

  /** Joined lines whose first line is a header, trimmed, start with the header. */
  lemma JoinedBlockStartsWithHeader(block: seq<string>)
    requires |block| >= 1 && IsHeader(block[0])
    ensures StartsWith(Trim(Join(block, "\n")), PromptHeader)
  {
    assert PromptHeader[|PromptHeader| - 1] == ']';
    JoinKeepsLeadingWord(PromptHeader, block, "\n");
  }

  /** The block within the text's lines. */
  function PromptBlockOf(lines: seq<string>): (b: string)
    ensures b == "" <==> forall i :: 0 <= i < |lines| ==> !IsHeader(lines[i])
    ensures b != "" ==> StartsWith(b, PromptHeader)
  {
    var start := FirstFrom(lines, 0, IsHeader);
    if start == |lines| then ""
    else
      var end := FirstFrom(lines, start + 1, IsBlockEnd);
      var block := lines[start..end];
      assert block[0] == lines[start];
      JoinedBlockStartsWithHeader(block);
      var b := Trim(Join(block, "\n"));
      assert b != "" by {
        assert |PromptHeader| > 0;
      }
      b
  }

  /** `extractEnglishPromptBlock`: from the first header line up to the first later line that
      ends the block (or the end of the text), joined with line feeds and trimmed; empty when
      there is no header line. */
  function PromptBlock(text: string): (b: string)
    ensures b == "" <==> forall i :: 0 <= i < |SplitLines(text)| ==> !IsHeader(SplitLines(text)[i])
    ensures b != "" ==> StartsWith(b, PromptHeader)
  {
    PromptBlockOf(SplitLines(text))
  }

  /** The block's extent: it starts at the first header line and ends before the first later
      block-ending line, or at the end of the text. */
  lemma PromptBlockExtent(lines: seq<string>, start: nat, end: nat)
    requires start < end <= |lines|
    requires IsHeader(lines[start]) && forall j :: 0 <= j < start ==> !IsHeader(lines[j])
    requires end == |lines| || IsBlockEnd(lines[end])
    requires forall j :: start < j < end ==> !IsBlockEnd(lines[j])
    ensures PromptBlockOf(lines) == Trim(Join(lines[start..end], "\n"))
  {
    var s := FirstFrom(lines, 0, IsHeader);
    assert s == start;
    var e := FirstFrom(lines, start + 1, IsBlockEnd);
    assert e == end;
  }

  /** What an issue reports. */
  datatype Code =
    | MissingTag(tag: string)
    | Forbidden(rule: Rule)
    | MissingPromptBlock
    | PromptTooLong(length: nat)

  /** An issue at a 1-based line number, 0 for the whole text. */
  datatype Issue = Issue(line: nat, code: Code)

  /** An issue, at line 0, for every required tag the text does not contain. */
  function TagIssues(text: string, tags: seq<string>): (r: seq<Issue>)
    ensures |r| <= |tags|
    ensures forall i :: 0 <= i < |r| ==> r[i].line == 0 && r[i].code.MissingTag?
    ensures forall t :: Issue(0, MissingTag(t)) in r <==> t in tags && !Contains(text, t)
    ensures r == [] <==> forall i :: 0 <= i < |tags| ==> Contains(text, tags[i])
  {
    if tags == [] then []
    else
      (if Contains(text, tags[0]) then [] else [Issue(0, MissingTag(tags[0]))])
      + TagIssues(text, tags[1..])
  }

  /** The 1-based line `findLineNo` reports for each rule over the lines of a text. */
  function RuleLines(lines: seq<string>): (f: Rule -> nat)
    ensures forall rule :: f(rule) == FindLineNo(lines, rule)
  {
    (rule: Rule) => FindLineNo(lines, rule)
  }

  /** An issue, at the line `lineOf` reports for it, for every rule reported at some line. */
  function RuleIssues(lineOf: Rule -> nat, rules: seq<Rule>): (r: seq<Issue>)
    ensures |r| <= |rules|
    ensures forall i :: 0 <= i < |r| ==> r[i].code.Forbidden? && r[i].line == lineOf(r[i].code.rule) > 0
    ensures forall rule, n :: Issue(n, Forbidden(rule)) in r <==> rule in rules && n == lineOf(rule) > 0
    ensures r == [] <==> forall k :: 0 <= k < |rules| ==> lineOf(rules[k]) == 0
  {
    if rules == [] then []
    else
      var n := lineOf(rules[0]);
      (if n > 0 then [Issue(n, Forbidden(rules[0]))] else []) + RuleIssues(lineOf, rules[1..])
  }

  /** The prompt block's issue: none when it is present and at most 1000 UTF-16 code units. */
  function BlockIssues(block: string): (r: seq<Issue>)
    ensures r == [] <==> block != "" && Utf16Length(block) <= MaxPromptLength
    ensures block == "" ==> r == [Issue(0, MissingPromptBlock)]
    ensures block != "" && Utf16Length(block) > MaxPromptLength ==> r == [Issue(0, PromptTooLong(Utf16Length(block)))]
  {
    if block == "" then [Issue(0, MissingPromptBlock)]
    else if Utf16Length(block) > MaxPromptLength then [Issue(0, PromptTooLong(Utf16Length(block)))]
    else []
  }

  /** The printed result and the exit status. */
  datatype Report = Report(success: bool, promptLength: nat, issues: seq<Issue>, exitCode: int)

  /** `main`, once the file is read: tag issues, then forbidden formats, then the block. */
  function Validate(text: string): (r: Report)
    ensures r.success <==> r.issues == []
    ensures r.exitCode == (if r.success then 0 else 2)
    ensures r.promptLength == Utf16Length(PromptBlock(text))
  {
    var block := PromptBlock(text);
    var issues := TagIssues(text, RequiredTags) + RuleIssues(RuleLines(SplitLines(text)), Rules) + BlockIssues(block);
    Report(issues == [], Utf16Length(block), issues, if issues == [] then 0 else 2)
  }

  /** Every forbidden format is checked. */
  lemma RuleChecked(rule: Rule)
    ensures rule in Rules
  {
    match rule
    case TitleColon => assert Rules[0] == rule;
    case StyleTagsColon => assert Rules[1] == rule;
    case PromptColon => assert Rules[2] == rule;
    case GenreTag => assert Rules[3] == rule;
    case InstrumentsTag => assert Rules[4] == rule;
    case MarkdownHeading => assert Rules[5] == rule;
    case MarkdownBoldLabel => assert Rules[6] == rule;
  }

  /** No line has any of the forbidden formats. */
  predicate NoForbiddenFormat(lines: seq<string>) {
    forall rule, i :: 0 <= i < |lines| ==> !Matches(rule, lines[i])
  }

  /** The text holds every required tag. */
  predicate HasRequiredTags(text: string) {
    forall i :: 0 <= i < |RequiredTags| ==> Contains(text, RequiredTags[i])
  }

  /** With no forbidden-format issue, every rule is reported at line 0. */
  lemma RuleUnreported(lineOf: Rule -> nat, rule: Rule)
    requires RuleIssues(lineOf, Rules) == []
    ensures lineOf(rule) == 0
  {
    RuleChecked(rule);
    assert Issue(lineOf(rule), Forbidden(rule)) !in RuleIssues(lineOf, Rules);
  }

  /** With no forbidden-pattern issue, no line matches any rule. */
  lemma NoRuleIssueNoMatch(lines: seq<string>, rule: Rule, i: nat)
    requires RuleIssues(RuleLines(lines), Rules) == [] && i < |lines|
    ensures !Matches(rule, lines[i])
  {
    RuleUnreported(RuleLines(lines), rule);
  }

  /** A forbidden-pattern issue names a line that matches its rule. */
  lemma RuleIssueHasMatch(lines: seq<string>) returns (rule: Rule, i: nat)
    requires RuleIssues(RuleLines(lines), Rules) != []
    ensures i < |lines| && Matches(rule, lines[i])
  {
    rule := ReportedRule(RuleLines(lines), Rules);
    i := FindLineNo(lines, rule) - 1;
  }

  /** Some rule of a non-empty report is reported at a line. */
  lemma ReportedRule(lineOf: Rule -> nat, rules: seq<Rule>) returns (rule: Rule)
    requires RuleIssues(lineOf, rules) != []
    ensures rule in rules && lineOf(rule) > 0
  {
    var issue := RuleIssues(lineOf, rules)[0];
    rule := issue.code.rule;
  }

  /** No forbidden-format issue is raised exactly when no line matches any of the formats. */
  lemma NoRuleIssues(lines: seq<string>)
    ensures RuleIssues(RuleLines(lines), Rules) == [] <==> NoForbiddenFormat(lines)
  {
    if RuleIssues(RuleLines(lines), Rules) == [] {
      forall rule, i | 0 <= i < |lines|
        ensures !Matches(rule, lines[i])
      {
        NoRuleIssueNoMatch(lines, rule, i);
      }
    } else {
      var rule, i := RuleIssueHasMatch(lines);
    }
  }

  /** A text passes exactly when it holds every required tag, no line has a forbidden format,
      and its prompt block is present and at most 1000 code units long. */
  lemma ValidateSucceeds(text: string)
    ensures Validate(text).success <==>
              && HasRequiredTags(text)
              && NoForbiddenFormat(SplitLines(text))
              && PromptBlock(text) != "" && Utf16Length(PromptBlock(text)) <= MaxPromptLength
  {
    var lines := SplitLines(text);
    var tags := TagIssues(text, RequiredTags);
    var rules := RuleIssues(RuleLines(lines), Rules);
    var block := BlockIssues(PromptBlock(text));
    assert Validate(text).success <==> tags == [] && rules == [] && block == [] by {
      assert Validate(text).issues == tags + rules + block;
    }
    assert tags == [] <==> HasRequiredTags(text);
    assert rules == [] <==> NoForbiddenFormat(lines) by {
      NoRuleIssues(lines);
    }
  }

  /** No two elements of `s` are equal. */
  predicate Distinct<T(==)>(s: seq<T>) {
    forall i, j :: 0 <= i < j < |s| ==> s[i] != s[j]
  }

  /** No two issues of `r` report the same thing. */
  predicate DistinctCodes(r: seq<Issue>) {
    forall i, j :: 0 <= i < j < |r| ==> r[i].code != r[j].code
  }

  /** The tag loop runs in list order: the issues for a list of tags are those for its first
      part followed by those for the rest. With the contract of `TagIssues` for a single tag,
      this fixes the whole list. */
  lemma {:induction false} TagIssuesAppend(text: string, a: seq<string>, b: seq<string>)
    ensures TagIssues(text, a + b) == TagIssues(text, a) + TagIssues(text, b)
    decreases |a|
  {
    if a == [] {
      assert a + b == b;
    } else {
      var head := if Contains(text, a[0]) then [] else [Issue(0, MissingTag(a[0]))];
      assert TagIssues(text, a + b) == head + TagIssues(text, a[1..] + b) by {
        assert (a + b)[0] == a[0];
        assert (a + b)[1..] == a[1..] + b;
      }
      TagIssuesAppend(text, a[1..], b);
      Regroup(TagIssues(text, a), head, TagIssues(text, a[1..]), TagIssues(text, b));
    }
  }

  /** The rule loop runs in rule order: the issues for a list of rules are those for its first
      part followed by those for the rest. With the contract of `RuleIssues` for a single rule,
      this fixes the whole list. */
  lemma {:induction false} RuleIssuesAppend(lineOf: Rule -> nat, a: seq<Rule>, b: seq<Rule>)
    ensures RuleIssues(lineOf, a + b) == RuleIssues(lineOf, a) + RuleIssues(lineOf, b)
    decreases |a|
  {
    if a == [] {
      assert a + b == b;
    } else {
      var n := lineOf(a[0]);
      var head := if n > 0 then [Issue(n, Forbidden(a[0]))] else [];
      assert RuleIssues(lineOf, a + b) == head + RuleIssues(lineOf, a[1..] + b) by {
        assert (a + b)[0] == a[0];
        assert (a + b)[1..] == a[1..] + b;
      }
      RuleIssuesAppend(lineOf, a[1..], b);
      Regroup(RuleIssues(lineOf, a), head, RuleIssues(lineOf, a[1..]), RuleIssues(lineOf, b));
    }
  }

  /** A tag listed once is reported at most once. */
  lemma {:induction false} TagIssuesOnce(text: string, tags: seq<string>)
    requires Distinct(tags)
    ensures DistinctCodes(TagIssues(text, tags))
    decreases |tags|
  {
    if tags != [] {
      var rest := TagIssues(text, tags[1..]);
      TagIssuesOnce(text, tags[1..]);
      forall k | 0 <= k < |rest|
        ensures rest[k].code != MissingTag(tags[0])
      {
        assert rest[k] == Issue(0, MissingTag(rest[k].code.tag));
        assert rest[k].code.tag in tags[1..];
      }
    }
  }

  /** A rule listed once is reported at most once. */
  lemma {:induction false} RuleIssuesOnce(lineOf: Rule -> nat, rules: seq<Rule>)
    requires Distinct(rules)
    ensures DistinctCodes(RuleIssues(lineOf, rules))
    decreases |rules|
  {
    if rules != [] {
      var rest := RuleIssues(lineOf, rules[1..]);
      RuleIssuesOnce(lineOf, rules[1..]);
      forall k | 0 <= k < |rest|
        ensures rest[k].code != Forbidden(rules[0])
      {
        assert rest[k] == Issue(rest[k].line, Forbidden(rest[k].code.rule));
        assert rest[k].code.rule in rules[1..];
      }
    }
  }

  /** The position of an issue's kind in the report: tags, then formats, then the block. */
  function Group(c: Code): nat {
    match c
    case MissingTag(_) => 0
    case Forbidden(_) => 1
    case MissingPromptBlock => 2
    case PromptTooLong(_) => 2
  }

  /** Every issue of `r` is of kind `g`. */
  predicate AllInGroup(r: seq<Issue>, g: nat) {
    forall i :: 0 <= i < |r| ==> Group(r[i].code) == g
  }

  /** The issues come group by group and no two report the same thing. */
  predicate InGroupOrder(r: seq<Issue>) {
    forall i, j :: 0 <= i < j < |r| ==> Group(r[i].code) <= Group(r[j].code) && r[i].code != r[j].code
  }

  /** Issues listed group by group, with no repeat inside a group, are ordered and repeat
      nothing. */
  lemma GroupsInOrder(a: seq<Issue>, b: seq<Issue>, c: seq<Issue>)
    requires AllInGroup(a, 0) && AllInGroup(b, 1) && AllInGroup(c, 2)
    requires DistinctCodes(a) && DistinctCodes(b) && |c| <= 1
    ensures InGroupOrder(a + b + c)
  {
    var r := a + b + c;
    forall i, j | 0 <= i < j < |r|
      ensures Group(r[i].code) <= Group(r[j].code) && r[i].code != r[j].code
    {
      if j < |a| {
        assert r[i] == a[i] && r[j] == a[j];
      } else if j < |a| + |b| {
        assert r[j] == b[j - |a|];
        if i >= |a| {
          assert r[i] == b[i - |a|];
        } else {
          assert r[i] == a[i];
        }
      } else {
        assert r[j] == c[j - |a| - |b|];
        if i < |a| {
          assert r[i] == a[i];
        } else {
          assert r[i] == b[i - |a|];
        }
      }
    }
  }

  /** The block contributes at most one issue, of the block's kind. */
  lemma BlockIssuesGroup(block: string)
    ensures AllInGroup(BlockIssues(block), 2) && |BlockIssues(block)| <= 1
  {
  }

  /** Neither list of checks names anything twice. */
  lemma ChecksDistinct()
    ensures Distinct(RequiredTags) && Distinct(Rules)
  {
  }

  /** For any distinct tags and rules, the three loops report group by group without repeats. */
  lemma IssuesInGroupOrder(text: string, tags: seq<string>, lineOf: Rule -> nat, rules: seq<Rule>, block: string)
    requires Distinct(tags) && Distinct(rules)
    ensures InGroupOrder(TagIssues(text, tags) + RuleIssues(lineOf, rules) + BlockIssues(block))
  {
    TagIssuesOnce(text, tags);
    RuleIssuesOnce(lineOf, rules);
    BlockIssuesGroup(block);
    GroupsInOrder(TagIssues(text, tags), RuleIssues(lineOf, rules), BlockIssues(block));
  }

  /** The report lists the missing tags first, then the forbidden formats, then the block's
      issue, and never reports the same thing twice. */
  lemma ValidateIssueOrder(text: string)
    ensures InGroupOrder(Validate(text).issues)
  {
    ChecksDistinct();
    IssuesInGroupOrder(text, RequiredTags, RuleLines(SplitLines(text)), Rules, PromptBlock(text));
  }



  /** An issue is in the three groups together exactly when it is in its own group. */
  lemma GroupMembers(a: seq<Issue>, b: seq<Issue>, c: seq<Issue>, x: Issue)
    requires AllInGroup(a, 0) && AllInGroup(b, 1) && AllInGroup(c, 2)
    ensures x in a + b + c <==> if Group(x.code) == 0 then x in a else if Group(x.code) == 1 then x in b else x in c
  {
    assert x in a ==> Group(x.code) == 0;
    assert x in b ==> Group(x.code) == 1;
    assert x in c ==> Group(x.code) == 2;
  }

  /** In the three groups together, a missing-tag issue, a forbidden-format issue and a block
      issue are each reported exactly when their own group reports them. */
  lemma IssuesMembers(text: string, tags: seq<string>, lineOf: Rule -> nat, rules: seq<Rule>, block: string)
    ensures var issues := TagIssues(text, tags) + RuleIssues(lineOf, rules) + BlockIssues(block);
            && (forall t :: Issue(0, MissingTag(t)) in issues <==> t in tags && !Contains(text, t))
            && (forall rule, n :: Issue(n, Forbidden(rule)) in issues <==> rule in rules && n == lineOf(rule) > 0)
            && (forall i :: Issue(i, MissingPromptBlock) in issues <==> i == 0 && block == "")
            && (forall i, n :: Issue(i, PromptTooLong(n)) in issues <==>
                  i == 0 && block != "" && n == Utf16Length(block) > MaxPromptLength)
  {
    var a := TagIssues(text, tags);
    var b := RuleIssues(lineOf, rules);
    var c := BlockIssues(block);
    assert AllInGroup(a, 0) && AllInGroup(b, 1);
    BlockIssuesGroup(block);
    forall t
      ensures Issue(0, MissingTag(t)) in a + b + c <==> Issue(0, MissingTag(t)) in a
    {
      GroupMembers(a, b, c, Issue(0, MissingTag(t)));
    }
    forall rule, n
      ensures Issue(n, Forbidden(rule)) in a + b + c <==> Issue(n, Forbidden(rule)) in b
    {
      GroupMembers(a, b, c, Issue(n, Forbidden(rule)));
    }
    forall i
      ensures Issue(i, MissingPromptBlock) in a + b + c <==> Issue(i, MissingPromptBlock) in c
    {
      GroupMembers(a, b, c, Issue(i, MissingPromptBlock));
    }
    forall i, n
      ensures Issue(i, PromptTooLong(n)) in a + b + c <==> Issue(i, PromptTooLong(n)) in c
    {
      GroupMembers(a, b, c, Issue(i, PromptTooLong(n)));
    }
  }

  /** The report holds one missing-tag issue for each required tag the text lacks, one
      forbidden-format issue for each format some line has, at its first such line, and the
      block's issue: `MISSING_PROMPT_BLOCK` without a block, `PROMPT_TOO_LONG` with the length
      for a block over 1000 code units. */
  lemma ValidateReports(text: string)
    ensures var issues := Validate(text).issues; var block := PromptBlock(text);
            && (forall t :: Issue(0, MissingTag(t)) in issues <==> t in RequiredTags && !Contains(text, t))
            && (forall rule, n :: Issue(n, Forbidden(rule)) in issues <==> n == FindLineNo(SplitLines(text), rule) > 0)
            && (forall i :: Issue(i, MissingPromptBlock) in issues <==> i == 0 && block == "")
            && (forall i, n :: Issue(i, PromptTooLong(n)) in issues <==>
                  i == 0 && block != "" && n == Utf16Length(block) > MaxPromptLength)
  {
    var lineOf := RuleLines(SplitLines(text));
    IssuesMembers(text, RequiredTags, lineOf, Rules, PromptBlock(text));
    forall rule
      ensures rule in Rules
    {
      RuleChecked(rule);
    }
  }

  /** A block of exactly 1000 code units passes the length check; one more fails it. */
  lemma LengthBoundInclusive(block: string)
    requires block != ""
    ensures Utf16Length(block) == MaxPromptLength ==> BlockIssues(block) == []
    ensures Utf16Length(block) == MaxPromptLength + 1 ==> BlockIssues(block) == [Issue(0, PromptTooLong(1001))]
  {
  }
}

=== FILE: audio_features.dfy ===
/** The integer and text parts of the audio feature export
    (`skills/ziqi-analyst/scripts/extract_audio_features_cli.js`): the `mm:ss` duration, the
    CSV layout and the rule for the average RMS. */
module AudioFeatures {
  import opened Wrappers
  import opened Text

  /** `Math.max(0, Math.floor(d))`: the whole seconds of a duration, none for a negative one. */
  function WholeSeconds(d: real): (w: nat)
    ensures d < 0.0 ==> w == 0
    ensures d >= 0.0 ==> w as real <= d < w as real + 1.0
  {
    var f := d.Floor;
    if f < 0 then 0 else f
  }

  /** Padding gives exactly two digits to the numbers below 100 and more to the others. */
  lemma PadTwoWidth(n: nat)
    ensures |PadTwo(n)| == 2 <==> n < 100
  {
    if n >= 10 {
      assert NatToDecimal(n) == NatToDecimal(n / 10) + [DigitChar(n % 10)];
      if n / 10 >= 10 {
        assert NatToDecimal(n / 10) == NatToDecimal(n / 100) + [DigitChar(n / 10 % 10)];
      }
    }
  }

  /** `formatDuration`: minutes and seconds, each padded to two digits, around a colon. The
      minutes are not wrapped into hours, so they may run to three digits or more. */
  function FormatDuration(d: real): (r: string)
    ensures |r| >= 5 && r[|r| - 3] == ':'
    ensures AllDigits(r[..|r| - 3]) && AllDigits(r[|r| - 2..])
    ensures DecimalValue(r[|r| - 2..]) < 60
    ensures DecimalValue(r[..|r| - 3]) * 60 + DecimalValue(r[|r| - 2..]) == WholeSeconds(d)
    ensures |r| > 5 ==> r[0] != '0'
    ensures |r| == 5 <==> WholeSeconds(d) < 6000
  {
    var whole := WholeSeconds(d);
    var mm := PadTwo(whole / 60);
    var ss := PadTwo(whole % 60);
    PadTwoWidth(whole / 60);
    PadTwoWidth(whole % 60);
    var r := mm + ":" + ss;
    assert r[..|r| - 3] == mm && r[|r| - 2..] == ss;
    r
  }

  /** A negative duration is shown as no time at all. */
  lemma NegativeDuration(d: real)
    requires d < 0.0
    ensures FormatDuration(d) == "00:00"
  {
    assert WholeSeconds(d) == 0;
    assert NatToDecimal(0) == "0";
  }

  /** From a hundred minutes on, the minutes take three digits or more. */
  lemma LongDurationMinutes(d: real)
    requires d >= 6000.0
    ensures |FormatDuration(d)| >= 6
  {
    assert WholeSeconds(d) >= 6000;
  }

  /** One sample of the RMS series. */
  datatype Row = Row(time: real, rms: real)

  /** How JavaScript writes a number into a template string. A number's text holds neither a
      comma nor a line feed. */
  ghost predicate PlainNumbers(show: real -> string) {
    forall x :: ',' !in show(x) && '\n' !in show(x)
  }

  /** The CSV line of one row: `${row.time},${row.rms}`. */
  function CsvLine(row: Row, show: real -> string): string {
    show(row.time) + "," + show(row.rms)
  }

  /** The lines `writeOutputs` joins: the header, then one line per row in order. */
  function CsvLines(rows: seq<Row>, show: real -> string): (lines: seq<string>)
    ensures |lines| == |rows| + 1 && lines[0] == "time,rms"
    ensures forall i :: 0 <= i < |rows| ==> lines[i + 1] == CsvLine(rows[i], show)
  {
    ["time,rms"] + seq(|rows|, i requires 0 <= i < |rows| => CsvLine(rows[i], show))
  }

  /** The text of the `.features.csv` file: the lines joined with line feeds, and one more line
      feed at the end. */
  function CsvText(rows: seq<Row>, show: real -> string): string {
    Join(CsvLines(rows, show), "\n") + "\n"
  }

  /** Reading the file back line by line gives the header, one line per row, and the empty
      piece after the final line feed. */
  lemma CsvTextLines(rows: seq<Row>, show: real -> string)
    requires PlainNumbers(show)
    ensures Split(CsvText(rows, show), '\n') == CsvLines(rows, show) + [""]
  {
    var lines := CsvLines(rows, show);
    JoinAppend(lines, [""], "\n");
    assert Join([""], "\n") == "";
    assert Join(lines + [""], "\n") == CsvText(rows, show);
    var parts := lines + [""];
    forall i | 0 <= i < |parts|
      ensures '\n' !in parts[i]
    {
      if 1 <= i < |lines| {
        assert '\n' !in show(rows[i - 1].time) && '\n' !in show(rows[i - 1].rms);
      }
    }
    SplitJoin(parts, '\n');
  }

  /** A row's line splits at its comma back into the row's two numbers as written. */
  lemma CsvLineFields(row: Row, show: real -> string)
    requires PlainNumbers(show)
    ensures Split(CsvLine(row, show), ',') == [show(row.time), show(row.rms)]
  {
    assert ',' !in show(row.time) && ',' !in show(row.rms);
    SplitFirst(show(row.time), show(row.rms), ',');
  }

  /** `rows.reduce((acc, x) => acc + x.rms, 0)`. */
  function SumRms(rows: seq<Row>): real
    decreases |rows|
  {
    if rows == [] then 0.0 else SumRms(rows[..|rows| - 1]) + rows[|rows| - 1].rms
  }

  /** The average RMS of the metadata: `null` exactly when there are no rows, else the mean of
      the rows' RMS values (before rounding to eight decimals). */
  function AverageRms(rows: seq<Row>): (r: Option<real>)
    ensures r.None? <==> rows == []
    ensures r.Some? ==> r.value * |rows| as real == SumRms(rows)
  {
    if |rows| > 0 then Some(SumRms(rows) / |rows| as real) else None
  }

  /** The sum of values between two bounds lies between the bounds times the count. */
  lemma {:induction false} SumRmsBounds(rows: seq<Row>, lo: real, hi: real)
    requires forall i :: 0 <= i < |rows| ==> lo <= rows[i].rms <= hi
    ensures |rows| as real * lo <= SumRms(rows) <= |rows| as real * hi
    decreases |rows|
  {
    if rows != [] {
      var p := rows[..|rows| - 1];
      assert forall i :: 0 <= i < |p| ==> p[i] == rows[i];
      SumRmsBounds(p, lo, hi);
    }
  }

  /** The average lies between the smallest and the largest RMS value. */
  lemma AverageWithinBounds(rows: seq<Row>, lo: real, hi: real)
    requires rows != []
    requires forall i :: 0 <= i < |rows| ==> lo <= rows[i].rms <= hi
    ensures lo <= AverageRms(rows).value <= hi
  {
    SumRmsBounds(rows, lo, hi);
    var n := |rows| as real;
    var a := AverageRms(rows).value;
    assert a * n == SumRms(rows);
  }
}

=== FILE: channels.dfy ===
/** The channel list of the YouTube tracker (`skills/youtube-tracker/scripts/manage_channels.py`):
    resolving a channel URL to its channel id, and adding and removing tracked channels. The
    URL parser and the page download are given: `urlparse` as its result, the download as a
    function from URL to page text, `None` when it raises. */
module Channels {
  import opened Wrappers
  import opened Text
  import opened Pattern

  /** The parts of a URL `urlparse` gives: scheme, network location and path. */
  datatype UrlParts = UrlParts(scheme: string, netloc: string, path: string)

  /** `s.lstrip(c)`. */
  function StripLeading(s: string, c: char): (r: string)
    ensures |r| <= |s| && r == s[|s| - |r|..]
    ensures r == [] || r[0] != c
    ensures forall i :: 0 <= i < |s| - |r| ==> s[i] == c
  {
    if s != [] && s[0] == c then StripLeading(s[1..], c) else s
  }

  /** `s.rstrip(c)`. */
  function StripTrailing(s: string, c: char): (r: string)
    ensures |r| <= |s| && r == s[..|r|]
    ensures r == [] || r[|r| - 1] != c
    ensures forall i :: |r| <= i < |s| ==> s[i] == c
  {
    if s != [] && s[|s| - 1] == c then StripTrailing(s[..|s| - 1], c) else s
  }

  /** `s.strip(c)`. */
  function Strip(s: string, c: char): string {
    StripTrailing(StripLeading(s, c), c)
  }

  /** The parts that are not empty, in order. */
  function NonEmpty(parts: seq<string>): (r: seq<string>)
    ensures |r| <= |parts|
    ensures forall x :: x in r <==> x in parts && x != ""
  {
    if parts == [] then []
    else (if parts[0] == "" then [] else [parts[0]]) + NonEmpty(parts[1..])
  }

  lemma {:induction false} NonEmptyAppend(a: seq<string>, b: seq<string>)
    ensures NonEmpty(a + b) == NonEmpty(a) + NonEmpty(b)
    decreases |a|
  {
    if a == [] {
      assert a + b == b;
    } else {
      assert (a + b)[1..] == a[1..] + b;
      NonEmptyAppend(a[1..], b);
    }
  }

  /** No piece of a split holds the separator. */
  lemma SplitPiecesFree(s: string, c: char)
    ensures forall x :: x in Split(s, c) ==> c !in x
  {
    var parts := Split(s, c);
    forall x | x in parts
      ensures c !in x
    {
      var i :| 0 <= i < |parts| && parts[i] == x;
    }
  }

  /** `path_parts`: the non-empty pieces of the path between slashes, once leading and
      trailing slashes are stripped. */
  function PathSegments(path: string): (segs: seq<string>)
    ensures forall x :: x in segs ==> x != "" && '/' !in x
  {
    var parts := Split(Strip(path, '/'), '/');
    SplitPiecesFree(Strip(path, '/'), '/');
    NonEmpty(parts)
  }

  /** A separator in front adds one empty piece in front. */
  lemma SplitLeadingSep(s: string, c: char)
    ensures Split([c] + s, c) == [""] + Split(s, c)
  {
    var t := [c] + s;
    assert IndexOf(t, c) == 0;
    assert t[1..] == s;
  }

  /** A separator at the end adds one empty piece at the end. */
  lemma SplitTrailingSep(s: string, c: char)
    ensures Split(s + [c], c) == Split(s, c) + [""]
  {
    var parts := Split(s, c) + [""];
    JoinAppend(Split(s, c), [""], [c]);
    assert Join(parts, [c]) == s + [c];
    assert forall i :: 0 <= i < |parts| ==> c !in parts[i] by {
      assert forall i :: 0 <= i < |parts| - 1 ==> parts[i] == Split(s, c)[i];
    }
    SplitJoin(parts, c);
  }

  lemma {:induction false} StripLeadingSegments(s: string, c: char)
    ensures NonEmpty(Split(StripLeading(s, c), c)) == NonEmpty(Split(s, c))
    decreases |s|
  {
    if s != [] && s[0] == c {
      assert s == [c] + s[1..];
      SplitLeadingSep(s[1..], c);
      NonEmptyAppend([""], Split(s[1..], c));
      StripLeadingSegments(s[1..], c);
    }
  }

  lemma {:induction false} StripTrailingSegments(s: string, c: char)
    ensures NonEmpty(Split(StripTrailing(s, c), c)) == NonEmpty(Split(s, c))
    decreases |s|
  {
    if s != [] && s[|s| - 1] == c {
      var t := s[..|s| - 1];
      assert s == t + [c];
      SplitTrailingSep(t, c);
      NonEmptyAppend(Split(t, c), [""]);
      StripTrailingSegments(t, c);
    }
  }

  /** Stripping the slashes first changes nothing: the segments are the non-empty pieces of
      the path between slashes. */
  lemma PathSegmentsIgnoreStrip(path: string)
    ensures PathSegments(path) == NonEmpty(Split(path, '/'))
  {
    StripTrailingSegments(StripLeading(path, '/'), '/');
    StripLeadingSegments(path, '/');
  }

  /** The first position of `x` in `segs`: `segs.index(x)`. */
  function IndexOfSegment(segs: seq<string>, x: string): (k: nat)
    requires x in segs
    ensures k < |segs| && segs[k] == x && x !in segs[..k]
  {
    if segs[0] == x then 0 else 1 + IndexOfSegment(segs[1..], x)
  }

  /** The first path segment names a handle: it starts with `@`. */
  predicate IsHandle(segs: seq<string>) {
    |segs| > 0 && |segs[0]| > 0 && segs[0][0] == '@'
  }

  /** The channel page of a handle, without whatever path followed the handle. */
  function HandleUrl(u: UrlParts, handle: string): (r: string)
    ensures StartsWith(r, u.scheme + "://" + u.netloc)
    ensures r[|u.scheme + "://" + u.netloc|..] == "/" + handle
  {
    u.scheme + "://" + u.netloc + "/" + handle
  }

  /** What `get_channel_id` does before any download. */
  datatype Plan =
    | Download(target: string)  // fetch this page and scan it
    | Direct(id: string)        // the id is in the path itself
    | IndexError                // `channel` is the last segment: the lookup raises, uncaught

  function ChannelPlan(url: string, u: UrlParts): (pl: Plan)
    ensures IsHandle(PathSegments(u.path)) ==> pl == Download(HandleUrl(u, PathSegments(u.path)[0]))
    ensures !IsHandle(PathSegments(u.path)) && "channel" !in PathSegments(u.path) ==> pl == Download(url)
    ensures var segs := PathSegments(u.path);
              !IsHandle(segs) && "channel" in segs && IndexOfSegment(segs, "channel") + 1 < |segs|
              ==> pl == Direct(segs[IndexOfSegment(segs, "channel") + 1])
    ensures pl.Direct? ==> var segs := PathSegments(u.path);
              !IsHandle(segs) && "channel" in segs
              && IndexOfSegment(segs, "channel") + 1 < |segs|
              && pl.id == segs[IndexOfSegment(segs, "channel") + 1]
    ensures pl.IndexError? <==> var segs := PathSegments(u.path);
              !IsHandle(segs) && "channel" in segs && IndexOfSegment(segs, "channel") == |segs| - 1
  {
    var segs := PathSegments(u.path);
    if IsHandle(segs) then Download(HandleUrl(u, segs[0]))
    else if "channel" in segs then
      var k := IndexOfSegment(segs, "channel");
      if k + 1 < |segs| then Direct(segs[k + 1]) else IndexError
    else Download(url)
  }

  /** A id read straight off the path is one whole, non-empty segment. */
  lemma DirectIdIsSegment(url: string, u: UrlParts)
    requires ChannelPlan(url, u).Direct?
    ensures var id := ChannelPlan(url, u).id;
            id != "" && '/' !in id && id in NonEmpty(Split(u.path, '/'))
  {
    PathSegmentsIgnoreStrip(u.path);
  }

  /** `<meta itemprop="channelId" content="([^"]+)"` */
  const MetaChannelId := Capture(Literal("<meta itemprop=\"channelId\" content=\""), NotQuote, Some('"'))

  /** `"externalId":"([^"]+)"` */
  const ExternalId := Capture(Literal("\"externalId\":\""), NotQuote, Some('"'))

  /** `<link rel="canonical" href="https://www.youtube.com/channel/([^"]+)"`, whose unescaped
      dots match any character but a line feed. */
  const CanonicalLink := Capture(
    Literal("<link rel=\"canonical\" href=\"https://www") + [AnyButNewline] + Literal("youtube")
      + [AnyButNewline] + Literal("com/channel/"),
    NotQuote, Some('"'))

  /** The page strategies, in the order they are tried. */
  const Strategies: seq<Regex> := [MetaChannelId, ExternalId, CanonicalLink]

  lemma StrategiesShape()
    ensures forall i :: 0 <= i < |Strategies| ==> Strategies[i].run == NotQuote
  {
  }

  /** The outcome of `get_channel_id`. */
  datatype Resolution =
    | Resolved(id: string)  // a channel id
    | Unresolved            // `None`: no strategy matched, or the download raised
    | Crashed               // the uncaught `IndexError`

  /** The id on a downloaded page: the capture of the first strategy that matches. */
  function ScanPage(page: string): (r: Option<string>)
    ensures r.None? <==> forall i :: 0 <= i < |Strategies| ==> Search(page, Strategies[i]).None?
    ensures r.Some? ==> exists i :: 0 <= i < |Strategies| && r == Search(page, Strategies[i])
                                    && forall j :: 0 <= j < i ==> Search(page, Strategies[j]).None?
    ensures r.Some? ==> r.value != "" && '"' !in r.value
  {
    StrategiesShape();
    SearchFirstRun(page, Strategies, NotQuote);
    SearchFirst(page, Strategies)
  }

  /** `get_channel_id(url)`, where `u` is what `urlparse(url)` returns and `download` the
      page text at a URL. */
  function GetChannelId(url: string, u: UrlParts, download: string -> Option<string>): (r: Resolution)
    ensures r.Crashed? <==> ChannelPlan(url, u).IndexError?
    ensures ChannelPlan(url, u).Direct? ==> r == Resolved(ChannelPlan(url, u).id)
    ensures ChannelPlan(url, u).Download? ==>
              var page := download(ChannelPlan(url, u).target);
              (r.Unresolved? <==> page.None? || ScanPage(page.value).None?)
              && (r.Resolved? ==> Some(r.id) == ScanPage(page.value))
    ensures r.Resolved? ==> r.id != ""
  {
    match ChannelPlan(url, u)
    case IndexError => Crashed
    case Direct(id) => Resolved(id)
    case Download(target) =>
      match download(target)
      case None => Unresolved
      case Some(page) =>
        match ScanPage(page)
        case None => Unresolved
        case Some(id) => Resolved(id)
  }

  lemma StripChannelPath(id: string)
    requires id != "" && '/' !in id
    ensures Strip("/channel/" + id, '/') == "channel/" + id
  {
    var path := "/channel/" + id;
    var stripped := "channel/" + id;
    assert StripLeading(path, '/') == stripped by {
      assert path[0] == '/' && path[1..] == stripped;
      assert stripped[0] == 'c';
    }
    assert stripped[|stripped| - 1] == id[|id| - 1];
    assert id[|id| - 1] in id;
  }

  lemma SplitChannelPath(id: string)
    requires '/' !in id
    ensures Split("channel/" + id, '/') == ["channel", id]
  {
    assert "channel/" + id == "channel" + ['/'] + id;
    SplitFirst("channel", id, '/');
  }

  lemma ChannelPathSegments(id: string)
    requires id != "" && '/' !in id
    ensures PathSegments("/channel/" + id) == ["channel", id]
  {
    StripChannelPath(id);
    SplitChannelPath(id);
    var parts := ["channel", id];
    assert NonEmpty(parts[1..]) == [id] by {
      assert parts[1..] == [id];
      assert [id][1..] == [];
      assert NonEmpty([id]) == [id] + NonEmpty([]);
    }
    assert NonEmpty(parts) == [parts[0]] + NonEmpty(parts[1..]);
  }

  lemma PlanForChannelSegments(url: string, u: UrlParts, id: string)
    requires PathSegments(u.path) == ["channel", id]
    ensures ChannelPlan(url, u) == Direct(id)
  {
    var segs := PathSegments(u.path);
    assert !IsHandle(segs) by {
      assert segs[0][0] == 'c';
    }
    assert "channel" in segs by {
      assert segs[0] == "channel";
    }
    assert IndexOfSegment(segs, "channel") == 0;
    assert segs[1] == id;
  }

  /** A `/channel/<id>` URL yields its id without any download. */
  lemma ChannelPathNeedsNoDownload(url: string, u: UrlParts, id: string, download: string -> Option<string>)
    requires id != "" && '/' !in id
    requires u.path == "/channel/" + id
    ensures GetChannelId(url, u, download) == Resolved(id)
  {
    ChannelPathSegments(id);
    PlanForChannelSegments(url, u, id);
  }

  /** A tracked channel. */
  datatype Channel = Channel(url: string, id: string, name: string)

  const UnknownChannel := "Unknown Channel"

  /** The name of a new channel: the given one unless it is missing or empty, else the handle
      when the URL's first segment is one, else `Unknown Channel`. */
  function DerivedName(name: Option<string>, u: UrlParts): (r: string)
    ensures name.Some? && name.value != "" ==> r == name.value
    ensures (name.None? || name.value == "") && IsHandle(PathSegments(u.path)) ==> r == PathSegments(u.path)[0]
    ensures (name.None? || name.value == "") && !IsHandle(PathSegments(u.path)) ==> r == UnknownChannel
  {
    if name.Some? && name.value != "" then name.value
    else
      var segs := PathSegments(u.path);
      if IsHandle(segs) then segs[0] else UnknownChannel
  }

  /** What `add_channel` does to the list. */
  datatype AddOutcome =
    | AlreadyTracked           // a channel with this exact URL exists: nothing changes
    | NoChannelId              // no id could be found: nothing changes
    | Added(channels: seq<Channel>)
    | AddCrashed               // `get_channel_id` raised

  predicate HasUrl(channels: seq<Channel>, url: string) {
    exists i :: 0 <= i < |channels| && channels[i].url == url
  }

  /** `add_channel(url, name)`. */
  function AddChannel(channels: seq<Channel>, url: string, name: Option<string>, u: UrlParts,
                      download: string -> Option<string>): (r: AddOutcome)
    ensures r.AlreadyTracked? <==> HasUrl(channels, url)
    ensures r.NoChannelId? <==> !HasUrl(channels, url) && GetChannelId(url, u, download).Unresolved?
    ensures r.AddCrashed? <==> !HasUrl(channels, url) && GetChannelId(url, u, download).Crashed?
    ensures r.Added? ==> && |r.channels| == |channels| + 1
                         && r.channels[..|channels|] == channels
                         && r.channels[|channels|]
                            == Channel(url, GetChannelId(url, u, download).id, DerivedName(name, u))
  {
    if HasUrl(channels, url) then AlreadyTracked
    else match GetChannelId(url, u, download)
      case Crashed => AddCrashed
      case Unresolved => NoChannelId
      case Resolved(id) =>
        var added := channels + [Channel(url, id, DerivedName(name, u))];
        assert added[..|channels|] == channels;
        Added(added)
  }

  /** Adding the same URL again is refused. */
  lemma AddTwice(channels: seq<Channel>, url: string, name: Option<string>, name2: Option<string>,
                 u: UrlParts, download: string -> Option<string>)
    requires AddChannel(channels, url, name, u, download).Added?
    ensures AddChannel(AddChannel(channels, url, name, u, download).channels, url, name2, u, download) == AlreadyTracked
  {
    var added := AddChannel(channels, url, name, u, download).channels;
    assert added[|channels|].url == url;
  }

  /** The result of `remove_channel`: the channels kept, and whether the list is saved. */
  datatype Removal = Removal(remaining: seq<Channel>, saved: bool)

  predicate Matches(ch: Channel, key: string) {
    ch.url == key || ch.id == key
  }

  /** The channels whose URL and id both differ from `key`, in order. */
  function Keep(channels: seq<Channel>, key: string): (r: seq<Channel>)
    ensures |r| <= |channels|
    ensures forall c :: c in r <==> c in channels && !Matches(c, key)
    ensures |r| == |channels| <==> forall i :: 0 <= i < |channels| ==> !Matches(channels[i], key)
    ensures (forall i :: 0 <= i < |channels| ==> !Matches(channels[i], key)) ==> r == channels
  {
    if channels == [] then []
    else
      var rest := Keep(channels[1..], key);
      assert forall i :: 1 <= i < |channels| ==> channels[1..][i - 1] == channels[i];
      if Matches(channels[0], key) then rest else [channels[0]] + rest
  }

  lemma {:induction false} KeepAppend(a: seq<Channel>, b: seq<Channel>, key: string)
    ensures Keep(a + b, key) == Keep(a, key) + Keep(b, key)
    decreases |a|
  {
    if a == [] {
      assert a + b == b;
    } else {
      assert (a + b)[0] == a[0];
      assert (a + b)[1..] == a[1..] + b;
      KeepAppend(a[1..], b, key);
    }
  }

  /** `remove_channel(url_or_id)`: every channel whose URL or id equals the argument goes,
      the others stay in order; the list is saved only when it got shorter. */
  function RemoveChannel(channels: seq<Channel>, key: string): (r: Removal)
    ensures forall c :: c in r.remaining <==> c in channels && !Matches(c, key)
    ensures r.saved <==> exists i :: 0 <= i < |channels| && Matches(channels[i], key)
    ensures r.remaining == Keep(channels, key)
  {
    var kept := Keep(channels, key);
    Removal(kept, |kept| < |channels|)
  }

  /** Removing twice removes nothing the second time. */
  lemma {:induction false} RemoveIdempotent(channels: seq<Channel>, key: string)
    ensures var once := RemoveChannel(channels, key).remaining;
            RemoveChannel(once, key) == Removal(once, false)
  {
    var once := Keep(channels, key);
    forall i | 0 <= i < |once|
      ensures !Matches(once[i], key)
    {
      assert once[i] in once;
    }
  }

  /** Removing by URL what was just added restores the list as removal would have left it
      before the addition. */
  lemma RemoveUndoesAdd(channels: seq<Channel>, url: string, name: Option<string>, u: UrlParts,
                        download: string -> Option<string>)
    requires AddChannel(channels, url, name, u, download).Added?
    ensures RemoveChannel(AddChannel(channels, url, name, u, download).channels, url).remaining
         == RemoveChannel(channels, url).remaining
    ensures RemoveChannel(AddChannel(channels, url, name, u, download).channels, url).saved
  {
    var added := AddChannel(channels, url, name, u, download).channels;
    var nw := added[|channels|];
    assert added == channels + [nw];
    KeepAppend(channels, [nw], url);
    assert Keep([nw], url) == [] by {
      assert [nw][1..] == [];
    }
    assert Matches(added[|channels|], url);
  }
}

=== FILE: dates.dfy ===
/** Date-times as the Python scripts handle them. The library parsers are parameters: their
    results are given, only the order in which they are tried is modelled. */
module Dates {
  import opened Wrappers
  import opened Text

  /** A parsed date-time: an instant on one integer time line, and whether it carries a UTC
      offset. Python refuses to order an offset-aware date-time against a naive one. */
  datatype DateTime = DateTime(instant: int, aware: bool)

  /** The library parsers, `None` where they raise: `email.utils.parsedate_to_datetime`
      (the date format of section 5 of RFC 822) and `datetime.fromisoformat` (ISO 8601). */
  datatype Parsers = Parsers(rfc822: string -> Option<DateTime>, iso: string -> Option<DateTime>)

  /** The text handed to the ISO 8601 parser: one trailing `Z` becomes the offset `+00:00`. */
  function IsoText(s: string): (r: string)
    ensures EndsWith(s, "Z") ==> |r| == |s| + 5 && r[..|s| - 1] == s[..|s| - 1] && EndsWith(r, "+00:00")
    ensures !EndsWith(s, "Z") ==> r == s
  {
    if EndsWith(s, "Z") then s[..|s| - 1] + "+00:00" else s
  }

  /** `parse_date`: nothing for an empty text; otherwise the RFC 822 reading if there is one,
      else the ISO 8601 reading of the rewritten text, else nothing. */
  function ParseDate(s: string, p: Parsers): (r: Option<DateTime>)
    ensures s == "" ==> r.None?
    ensures s != "" && p.rfc822(s).Some? ==> r == p.rfc822(s)
    ensures s != "" && p.rfc822(s).None? ==> r == p.iso(IsoText(s))
    ensures r.None? <==> s == "" || (p.rfc822(s).None? && p.iso(IsoText(s)).None?)
  {
    if s == [] then None
    else match p.rfc822(s)
      case Some(d) => Some(d)
      case None => p.iso(IsoText(s))
  }

  /** The outcome of comparing a parsed date-time against the offset-aware cutoff. */
  datatype Verdict =
    | Stale          // compares, and is too old
    | Fresh          // compares, and is recent enough
    | Incomparable   // naive: Python raises TypeError

  /** `d >= cutoff`, the inclusive bound of the RSS fetcher. */
  function AtOrAfter(d: DateTime, cutoff: int): (v: Verdict)
    ensures v == Incomparable <==> !d.aware
    ensures v == Fresh <==> d.aware && d.instant >= cutoff
  {
    if !d.aware then Incomparable else if d.instant >= cutoff then Fresh else Stale
  }

  /** `d > cutoff`, the strict bound of the channel update check. */
  function After(d: DateTime, cutoff: int): (v: Verdict)
    ensures v == Incomparable <==> !d.aware
    ensures v == Fresh <==> d.aware && d.instant > cutoff
  {
    if !d.aware then Incomparable else if d.instant > cutoff then Fresh else Stale
  }
}

=== FILE: imagery.dfy ===
/** The local imagery query (`skills/ziqi-lyricist/scripts/query_imagery_local.js`): the
    categories found in the imagery directory, and the de-duplicated, ranked imagery words of
    one category cut to a limit. */
module Imagery {
  import opened Wrappers
  import opened Text

  /** One element of a category file's JSON array. `Falsy` is `null`, `false`, `0` or `""`;
      `name` is `None` when the element's `name` is not a string, and `count` is `None` when
      the element's `count` is not a finite number. */
  datatype Item = Falsy | Item(name: Option<string>, count: Option<real>)

  /** A ranked imagery word. */
  datatype Entry = Entry(name: string, count: real)

  /** The order key of `String.prototype.localeCompare` under the `zh-Hans-CN` collation: two
      strings compare as their keys compare lexicographically. */
  type CollationKey = string -> seq<int>

  /** What the sort compares: a count (descending), then a collation key (ascending). */
  datatype Rank = Rank(count: real, key: seq<int>)

  predicate LexLess(a: seq<int>, b: seq<int>) {
    b != [] && (a == [] || a[0] < b[0] || (a[0] == b[0] && LexLess(a[1..], b[1..])))
  }

  lemma {:induction false} LexLessIrreflexive(a: seq<int>)
    ensures !LexLess(a, a)
  {
    if a != [] {
      LexLessIrreflexive(a[1..]);
    }
  }

  lemma {:induction false} LexLessTransitive(a: seq<int>, b: seq<int>, c: seq<int>)
    requires LexLess(a, b) && LexLess(b, c)
    ensures LexLess(a, c)
  {
    if a != [] && a[0] == b[0] && b[0] == c[0] {
      LexLessTransitive(a[1..], b[1..], c[1..]);
    }
  }

  /** The comparator of the sort is negative: the greater count first, equal counts by key. */
  predicate Before(a: Rank, b: Rank) {
    a.count > b.count || (a.count == b.count && LexLess(a.key, b.key))
  }

  lemma BeforeIrreflexive(a: Rank)
    ensures !Before(a, a)
  {
    LexLessIrreflexive(a.key);
  }

  lemma BeforeTransitive(a: Rank, b: Rank, c: Rank)
    requires Before(a, b) && Before(b, c)
    ensures Before(a, c)
  {
    if a.count == b.count && b.count == c.count {
      LexLessTransitive(a.key, b.key, c.key);
    }
  }

  /** No element is ranked strictly before an element in front of it. */
  predicate Sorted<T>(s: seq<T>, rank: T -> Rank) {
    forall i, j :: 0 <= i < j < |s| ==> !Before(rank(s[j]), rank(s[i]))
  }

  lemma InsertFront<T>(x: T, s: seq<T>, rank: T -> Rank)
    requires Sorted(s, rank) && s != [] && Before(rank(x), rank(s[0]))
    ensures Sorted([x] + s, rank)
  {
    forall j | 0 <= j < |s|
      ensures !Before(rank(s[j]), rank(x))
    {
      if Before(rank(s[j]), rank(x)) {
        BeforeTransitive(rank(s[j]), rank(x), rank(s[0]));
        BeforeIrreflexive(rank(s[0]));
      }
    }
  }

  lemma InsertBehind<T>(x: T, s: seq<T>, t: seq<T>, rank: T -> Rank)
    requires Sorted(s, rank) && s != [] && !Before(rank(x), rank(s[0]))
    requires Sorted(t, rank) && multiset(t) == multiset(s[1..]) + multiset{x}
    ensures Sorted([s[0]] + t, rank)
  {
    forall j | 0 <= j < |t|
      ensures !Before(rank(t[j]), rank(s[0]))
    {
      assert t[j] in multiset(t);
      if t[j] != x {
        var k :| 1 <= k < |s| && s[k] == t[j];
      }
    }
  }

  /** Puts `x` into a sorted sequence behind every element not ranked after it: the insertion
      step of a stable sort. */
  function Insert<T(==)>(x: T, s: seq<T>, rank: T -> Rank): (r: seq<T>)
    requires Sorted(s, rank)
    ensures multiset(r) == multiset(s) + multiset{x}
    ensures Sorted(r, rank)
    decreases |s|
  {
    if s == [] then [x]
    else if Before(rank(x), rank(s[0])) then
      InsertFront(x, s, rank);
      [x] + s
    else
      var t := Insert(x, s[1..], rank);
      assert s == [s[0]] + s[1..];
      InsertBehind(x, s, t, rank);
      [s[0]] + t
  }

  /** `Array.prototype.sort` with the ranking comparator: a stable sort. */
  function SortBy<T(==)>(s: seq<T>, rank: T -> Rank): (r: seq<T>)
    ensures multiset(r) == multiset(s)
    ensures Sorted(r, rank)
    decreases |s|
  {
    if s == [] then []
    else
      assert s == s[..|s| - 1] + [s[|s| - 1]];
      Insert(s[|s| - 1], SortBy(s[..|s| - 1], rank), rank)
  }

  /** An element ranked no earlier than every element of a sorted sequence goes to its end. */
  lemma {:induction false} InsertLast<T>(x: T, s: seq<T>, rank: T -> Rank)
    requires Sorted(s, rank)
    requires forall i :: 0 <= i < |s| ==> !Before(rank(x), rank(s[i]))
    ensures Insert(x, s, rank) == s + [x]
    decreases |s|
  {
    if s != [] {
      InsertLast(x, s[1..], rank);
      assert [s[0]] + (s[1..] + [x]) == s + [x];
    }
  }

  /** An input that is already in order, ties included, comes back unchanged. */
  lemma {:induction false} SortSortedUnchanged<T>(s: seq<T>, rank: T -> Rank)
    requires Sorted(s, rank)
    ensures SortBy(s, rank) == s
    decreases |s|
  {
    if s != [] {
      var p := s[..|s| - 1];
      assert Sorted(p, rank);
      SortSortedUnchanged(p, rank);
      InsertLast(s[|s| - 1], p, rank);
      assert p + [s[|s| - 1]] == s;
    }
  }

  /** Sorting twice is sorting once. */
  lemma SortIdempotent<T>(s: seq<T>, rank: T -> Rank)
    ensures SortBy(SortBy(s, rank), rank) == SortBy(s, rank)
  {
    SortSortedUnchanged(SortBy(s, rank), rank);
  }

  /** The elements of `s` ranked exactly `k`, in their order in `s`. Two elements tie under
      the comparator exactly when their ranks are equal. */
  function WithRank<T>(s: seq<T>, rank: T -> Rank, k: Rank): (r: seq<T>)
    ensures |r| <= |s|
    ensures forall i :: 0 <= i < |r| ==> rank(r[i]) == k
  {
    if s == [] then []
    else (if rank(s[0]) == k then [s[0]] else []) + WithRank(s[1..], rank, k)
  }

  lemma {:induction false} WithRankAppend<T>(a: seq<T>, b: seq<T>, rank: T -> Rank, k: Rank)
    ensures WithRank(a + b, rank, k) == WithRank(a, rank, k) + WithRank(b, rank, k)
    decreases |a|
  {
    if a == [] {
      assert a + b == b;
    } else {
      assert (a + b)[0] == a[0];
      assert (a + b)[1..] == a[1..] + b;
      WithRankAppend(a[1..], b, rank, k);
    }
  }

  lemma {:induction false} WithRankNone<T>(s: seq<T>, rank: T -> Rank, k: Rank)
    requires forall i :: 0 <= i < |s| ==> rank(s[i]) != k
    ensures WithRank(s, rank, k) == []
    decreases |s|
  {
    if s != [] {
      WithRankNone(s[1..], rank, k);
    }
  }

  /** An element ranked before the head of a sorted sequence ties with none of its elements. */
  lemma NoTieBehind<T>(x: T, s: seq<T>, rank: T -> Rank)
    requires Sorted(s, rank) && s != [] && Before(rank(x), rank(s[0]))
    ensures forall i :: 0 <= i < |s| ==> rank(s[i]) != rank(x)
  {
    forall i | 0 <= i < |s|
      ensures rank(s[i]) != rank(x)
    {
      BeforeIrreflexive(rank(x));
      if i > 0 {
        assert !Before(rank(s[i]), rank(s[0]));
      }
    }
  }

  /** Inserting `x` puts it behind every element of its own rank. */
  lemma {:induction false} InsertWithRank<T>(x: T, s: seq<T>, rank: T -> Rank, k: Rank)
    requires Sorted(s, rank)
    ensures WithRank(Insert(x, s, rank), rank, k)
         == WithRank(s, rank, k) + (if rank(x) == k then [x] else [])
    decreases |s|
  {
    if s == [] {
      assert [x][1..] == [];
    } else if Before(rank(x), rank(s[0])) {
      var r := [x] + s;
      assert r[0] == x && r[1..] == s;
      if rank(x) == k {
        NoTieBehind(x, s, rank);
        WithRankNone(s, rank, k);
      }
    } else {
      var t := Insert(x, s[1..], rank);
      InsertWithRank(x, s[1..], rank, k);
      var r := [s[0]] + t;
      assert r[0] == s[0] && r[1..] == t;
    }
  }

  /** The sort is stable: for every rank, the elements of that rank come out in their input
      order. */
  lemma {:induction false} SortStable<T>(s: seq<T>, rank: T -> Rank, k: Rank)
    ensures WithRank(SortBy(s, rank), rank, k) == WithRank(s, rank, k)
    decreases |s|
  {
    if s != [] {
      var p := s[..|s| - 1];
      var x := s[|s| - 1];
      var tail := if rank(x) == k then [x] else [];
      assert WithRank(SortBy(s, rank), rank, k) == WithRank(p, rank, k) + tail by {
        var q := SortBy(p, rank);
        assert SortBy(s, rank) == Insert(x, q, rank);
        InsertWithRank(x, q, rank, k);
        SortStable(p, rank, k);
      }
      assert WithRank(s, rank, k) == WithRank(p, rank, k) + tail by {
        assert s == p + [x];
        WithRankAppend(p, [x], rank, k);
        assert [x][1..] == [];
      }
    }
  }

  /** How entries are ranked: by count, then by the collation key of the name. */
  function EntryRank(key: CollationKey): Entry -> Rank {
    (e: Entry) => Rank(e.count, key(e.name))
  }

  predicate UniqueNames(s: seq<Entry>) {
    forall i, j :: 0 <= i < j < |s| ==> s[i].name != s[j].name
  }

  lemma {:induction false} InsertKeepsUniqueNames(x: Entry, s: seq<Entry>, rank: Entry -> Rank)
    requires Sorted(s, rank) && UniqueNames(s)
    requires forall i :: 0 <= i < |s| ==> s[i].name != x.name
    ensures UniqueNames(Insert(x, s, rank))
    decreases |s|
  {
    if s != [] && !Before(rank(x), rank(s[0])) {
      var t := Insert(x, s[1..], rank);
      InsertKeepsUniqueNames(x, s[1..], rank);
      forall j | 0 <= j < |t|
        ensures t[j].name != s[0].name
      {
        assert t[j] in multiset(t);
      }
    }
  }

  lemma {:induction false} SortKeepsUniqueNames(s: seq<Entry>, rank: Entry -> Rank)
    requires UniqueNames(s)
    ensures UniqueNames(SortBy(s, rank))
    decreases |s|
  {
    if s != [] {
      var p := s[..|s| - 1];
      var x := s[|s| - 1];
      SortKeepsUniqueNames(p, rank);
      var sp := SortBy(p, rank);
      forall i | 0 <= i < |sp|
        ensures sp[i].name != x.name
      {
        assert sp[i] in multiset(p);
      }
      InsertKeepsUniqueNames(x, sp, rank);
    }
  }

  /** What the loop keeps of an item: its trimmed name, with the count or 0 when the count is
      not a finite number. Nothing is kept of a falsy item, of one whose name is not a string,
      or of one whose trimmed name is empty. */
  function Kept(item: Item): (r: Option<Entry>)
    ensures r.Some? <==> item.Item? && item.name.Some? && !AllSpace(item.name.value)
    ensures r.Some? ==> r.value.name != "" && Contains(item.name.value, r.value.name)
    ensures r.Some? ==> !IsSpace(r.value.name[0]) && !IsSpace(r.value.name[|r.value.name| - 1])
    ensures r.Some? ==> r.value.name == Trim(item.name.value)
    ensures r.Some? ==> r.value.count == (if item.count.Some? then item.count.value else 0.0)
  {
    match item
    case Falsy => None
    case Item(name, count) =>
      match name
      case None => None
      case Some(n) =>
        var t := Trim(n);
        TrimIsSubstring(n);
        if t == "" then None else Some(Entry(t, count.GetOr(0.0)))
  }

  /** The record for `e`'s name counts at least as many as `e`. */
  predicate Covers(r: seq<Entry>, e: Entry) {
    exists i :: 0 <= i < |r| && r[i].name == e.name && r[i].count >= e.count
  }

  /** `e` is what the loop keeps of one of the items. */
  predicate FromItem(items: seq<Item>, e: Entry) {
    exists k :: 0 <= k < |items| && Kept(items[k]) == Some(e)
  }

  /** A record read from some items is read from any list they start. */
  lemma FromItemPrefix(p: seq<Item>, items: seq<Item>, e: Entry)
    requires |p| <= |items| && p == items[..|p|] && FromItem(p, e)
    ensures FromItem(items, e)
  {
    var k :| 0 <= k < |p| && Kept(p[k]) == Some(e);
    assert items[k] == p[k];
  }

  /** The position of the record named `name`, `-1` when there is none: `Map.prototype.get`. */
  function NameIndex(acc: seq<Entry>, name: string): (i: int)
    ensures -1 <= i < |acc|
    ensures i >= 0 ==> acc[i].name == name
    ensures i < 0 ==> forall j :: 0 <= j < |acc| ==> acc[j].name != name
  {
    if acc == [] then -1
    else if acc[|acc| - 1].name == name then |acc| - 1
    else NameIndex(acc[..|acc| - 1], name)
  }

  /** One `map.set` step: a new name is appended; a known name is replaced, in place, only by a
      strictly greater count. */
  function Upsert(acc: seq<Entry>, e: Entry): (r: seq<Entry>)
    requires UniqueNames(acc)
    ensures UniqueNames(r)
    ensures |r| <= |acc| + 1
    ensures Covers(r, e)
    ensures forall i :: 0 <= i < |r| ==> r[i] == e || r[i] in acc
    ensures forall x :: x in acc && x.name != e.name ==> x in r
  {
    var i := NameIndex(acc, e.name);
    if i < 0 then
      assert (acc + [e])[|acc|] == e;
      acc + [e]
    else if e.count > acc[i].count then
      var r := acc[i := e];
      assert r[i] == e;
      assert forall x :: x in acc && x.name != e.name ==> x in r by {
        forall x | x in acc && x.name != e.name
          ensures x in r
        {
          var j :| 0 <= j < |acc| && acc[j] == x;
          assert r[j] == x;
        }
      }
      r
    else acc
  }

  /** A record only ever gains count. */
  lemma UpsertKeepsCovers(acc: seq<Entry>, e: Entry, x: Entry)
    requires UniqueNames(acc) && Covers(acc, x)
    ensures Covers(Upsert(acc, e), x)
  {
  }

  /** The map's values after the loop over `items`, in insertion order. */
  function Dedupe(items: seq<Item>): (r: seq<Entry>)
    ensures UniqueNames(r)
    ensures |r| <= |items|
    decreases |items|
  {
    if items == [] then []
    else
      var acc := Dedupe(items[..|items| - 1]);
      match Kept(items[|items| - 1])
      case None => acc
      case Some(e) => Upsert(acc, e)
  }

  /** Every record `dedupeAndSort` keeps was read from one of the items. */
  lemma {:induction false} DedupeFromItem(items: seq<Item>, i: nat)
    requires i < |Dedupe(items)|
    ensures FromItem(items, Dedupe(items)[i])
    decreases |items|
  {
    var p := items[..|items| - 1];
    var acc := Dedupe(p);
    var e := Dedupe(items)[i];
    var last := Kept(items[|items| - 1]);
    if last.Some? && e == last.value {
      assert Kept(items[|items| - 1]) == Some(e);
    } else {
      var j :| 0 <= j < |acc| && acc[j] == e;
      DedupeFromItem(p, j);
      FromItemPrefix(p, items, e);
    }
  }

  lemma {:induction false} DedupeCovers(items: seq<Item>, k: nat)
    requires k < |items| && Kept(items[k]).Some?
    ensures Covers(Dedupe(items), Kept(items[k]).value)
    decreases |items|
  {
    var p := items[..|items| - 1];
    var last := Kept(items[|items| - 1]);
    if k < |items| - 1 {
      assert items[k] == p[k];
      DedupeCovers(p, k);
      if last.Some? {
        UpsertKeepsCovers(Dedupe(p), last.value, Kept(items[k]).value);
      }
    }
  }

  /** No kept item of a record's name counts more than the record. */
  lemma CountIsMaximum(items: seq<Item>, i: nat, k: nat)
    requires i < |Dedupe(items)| && k < |items|
    requires Kept(items[k]).Some? && Kept(items[k]).value.name == Dedupe(items)[i].name
    ensures Kept(items[k]).value.count <= Dedupe(items)[i].count
  {
    var r := Dedupe(items);
    var e := Kept(items[k]).value;
    DedupeCovers(items, k);
    var j :| 0 <= j < |r| && r[j].name == e.name && r[j].count >= e.count;
    assert i == j;
  }

  lemma CoversPermuted(s: seq<Entry>, t: seq<Entry>, e: Entry)
    requires multiset(s) == multiset(t) && Covers(s, e)
    ensures Covers(t, e)
  {
    var i :| 0 <= i < |s| && s[i].name == e.name && s[i].count >= e.count;
    assert s[i] in multiset(t);
    var j :| 0 <= j < |t| && t[j] == s[i];
  }

  lemma FromItemPermuted(s: seq<Entry>, t: seq<Entry>, items: seq<Item>)
    requires multiset(s) == multiset(t)
    requires forall i :: 0 <= i < |s| ==> FromItem(items, s[i])
    ensures forall j :: 0 <= j < |t| ==> FromItem(items, t[j])
  {
    forall j | 0 <= j < |t|
      ensures FromItem(items, t[j])
    {
      assert t[j] in multiset(s);
      var i :| 0 <= i < |s| && s[i] == t[j];
    }
  }

  /** `dedupeAndSort`: one record per trimmed name, holding that name's greatest count, ranked
      by count and then by name. */
  function DedupeAndSort(items: seq<Item>, key: CollationKey): (r: seq<Entry>)
    ensures UniqueNames(r)
    ensures |r| <= |items|
    ensures Sorted(r, EntryRank(key))
    ensures forall i :: 0 <= i < |r| ==> FromItem(items, r[i])
    ensures forall k :: 0 <= k < |items| && Kept(items[k]).Some? ==> Covers(r, Kept(items[k]).value)
  {
    var d := Dedupe(items);
    var r := SortBy(d, EntryRank(key));
    SortKeepsUniqueNames(d, EntryRank(key));
    assert |r| == |multiset(r)| == |multiset(d)| == |d|;
    forall i | 0 <= i < |d| { DedupeFromItem(items, i); }
    FromItemPermuted(d, r, items);
    assert forall k :: 0 <= k < |items| && Kept(items[k]).Some? ==> Covers(r, Kept(items[k]).value) by {
      forall k | 0 <= k < |items| && Kept(items[k]).Some?
        ensures Covers(r, Kept(items[k]).value)
      {
        DedupeCovers(items, k);
        CoversPermuted(d, r, Kept(items[k]).value);
      }
    }
    r
  }

  /** `cleaned.slice(0, limit)`: the first `limit` records, `limit` truncated to an integer. */
  function Select(ranked: seq<Entry>, limit: real): (r: seq<Entry>)
    requires limit > 0.0
    ensures |r| <= |ranked| && |r| as real <= limit
    ensures r == ranked[..|r|]
    ensures |r| == |ranked| || |r| == limit.Floor
  {
    if limit.Floor < |ranked| then ranked[..limit.Floor] else ranked
  }

  const ImagerySuffix := "-imagery.json"

  /** The directory entries that are category files. */
  function CategoryFiles(names: seq<string>): (r: seq<string>)
    ensures |r| <= |names|
    ensures forall f :: f in r <==> f in names && EndsWith(f, ImagerySuffix)
  {
    if names == [] then []
    else (if EndsWith(names[0], ImagerySuffix) then [names[0]] else []) + CategoryFiles(names[1..])
  }

  /** The file name with the suffix removed. */
  function CategoryName(f: string): (c: string)
    requires EndsWith(f, ImagerySuffix)
    ensures c + ImagerySuffix == f
  {
    f[..|f| - |ImagerySuffix|]
  }

  /** How file names are ranked: by collation key alone. */
  function FileRank(key: CollationKey): string -> Rank {
    (f: string) => Rank(0.0, key(f))
  }

  /** The category files in collation order. */
  function SortedCategoryFiles(names: seq<string>, key: CollationKey): (files: seq<string>)
    ensures multiset(files) == multiset(CategoryFiles(names))
    ensures forall i :: 0 <= i < |files| ==> EndsWith(files[i], ImagerySuffix) && files[i] in names
    ensures Sorted(files, FileRank(key))
  {
    var files := SortBy(CategoryFiles(names), FileRank(key));
    assert forall i :: 0 <= i < |files| ==> files[i] in CategoryFiles(names) by {
      forall i | 0 <= i < |files|
        ensures files[i] in CategoryFiles(names)
      {
        assert files[i] in multiset(files);
      }
    }
    files
  }

  /** `listCategoryFiles`: the category files in collation order, their suffix removed. */
  function Categories(names: seq<string>, key: CollationKey): (r: seq<string>)
    ensures |r| == |CategoryFiles(names)|
    ensures forall i :: 0 <= i < |r| ==> r[i] + ImagerySuffix in names
    ensures forall i, j :: 0 <= i < j < |r| ==> !LexLess(key(r[j] + ImagerySuffix), key(r[i] + ImagerySuffix))
  {
    var files := SortedCategoryFiles(names, key);
    assert |files| == |multiset(files)| == |CategoryFiles(names)|;
    var r := seq(|files|, i requires 0 <= i < |files| => CategoryName(files[i]));
    assert forall i :: 0 <= i < |r| ==> r[i] + ImagerySuffix == files[i];
    r
  }

  /** A category is listed exactly when its file is in the directory. */
  lemma CategoryListed(names: seq<string>, key: CollationKey, c: string)
    ensures c in Categories(names, key) <==> c + ImagerySuffix in names
  {
    var f := c + ImagerySuffix;
    var files := SortedCategoryFiles(names, key);
    var r := Categories(names, key);
    if f in names {
      assert f[|f| - |ImagerySuffix|..] == ImagerySuffix;
      assert f in CategoryFiles(names);
      assert f in multiset(files);
      var i :| 0 <= i < |files| && files[i] == f;
      assert CategoryName(f) == c;
      assert r[i] == c;
    }
  }

  /** The answer to `--action query`. */
  datatype Response =
    | UnknownCategory(available: seq<string>)
    | Listing(category: string, total: nat, imagery: seq<Entry>)

  /** `main` in query mode, given the directory's entries and the rows of the category's file:
      an unlisted category is refused; otherwise the ranked records are counted and cut to the
      limit. */
  function Query(names: seq<string>, category: string, rows: seq<Item>, limit: real,
                 key: CollationKey): (r: Response)
    requires limit > 0.0
    ensures r.UnknownCategory? <==> category + ImagerySuffix !in names
    ensures r.UnknownCategory? ==> r.available == Categories(names, key)
    ensures r.Listing? ==> r.total == |DedupeAndSort(rows, key)| && r.total <= |rows|
    ensures r.Listing? ==> |r.imagery| <= r.total && |r.imagery| as real <= limit
    ensures r.Listing? ==> r.imagery == DedupeAndSort(rows, key)[..|r.imagery|]
    ensures r.Listing? ==> |r.imagery| == r.total || |r.imagery| == limit.Floor
  {
    var categories := Categories(names, key);
    CategoryListed(names, key, category);
    if category !in categories then UnknownCategory(categories)
    else
      var cleaned := DedupeAndSort(rows, key);
      Listing(category, |cleaned|, Select(cleaned, limit))
  }
}

=== FILE: isolation.dfy ===
/** The loops of the feed scripts sit inside a `try` whose handler only logs: the first element
    that raises ends the loop, and what was appended before it is kept. This module models such
    a loop by what its body decides for each element, in order. */
module Isolation {

  /** What the loop body does with one element. */
  datatype Step<+T> =
    | Skip           // appends nothing
    | Emit(value: T) // appends one record
    | Raise          // raises; the handler ends the loop

  /** The records a guarded loop appended, and whether it was cut short by an exception. */
  datatype Collected<+T> = Collected(items: seq<T>, failed: bool)

  predicate HasRaise<T>(steps: seq<Step<T>>) {
    exists i :: 0 <= i < |steps| && steps[i].Raise?
  }

  /** The loop, run over `steps` inside its `try`. */
  function Run<T>(steps: seq<Step<T>>): (r: Collected<T>)
    ensures r.failed <==> HasRaise(steps)
    ensures |r.items| <= |steps|
  {
    if steps == [] then Collected([], false)
    else
      assert forall i :: 1 <= i < |steps| ==> steps[1..][i - 1] == steps[i];
      match steps[0]
      case Raise => Collected([], true)
      case Skip => Run(steps[1..])
      case Emit(v) =>
        var rest := Run(steps[1..]);
        Collected([v] + rest.items, rest.failed)
  }

  /** Every record the steps would append, were nothing to raise: a filter over the steps. */
  function Emitted<T>(steps: seq<Step<T>>): (r: seq<T>)
  {
    if steps == [] then []
    else (if steps[0].Emit? then [steps[0].value] else []) + Emitted(steps[1..])
  }

  /** The position of the first raising step, `|steps|` when none raises. */
  function FirstRaise<T>(steps: seq<Step<T>>): (k: nat)
    ensures k <= |steps|
    ensures forall i :: 0 <= i < k ==> !steps[i].Raise?
    ensures k < |steps| ==> steps[k].Raise?
  {
    if steps == [] || steps[0].Raise? then 0 else 1 + FirstRaise(steps[1..])
  }

  /** The records kept are exactly those emitted before the first exception. */
  lemma {:induction false} RunKeepsPrefix<T>(steps: seq<Step<T>>)
    ensures Run(steps).items == Emitted(steps[..FirstRaise(steps)])
    decreases |steps|
  {
    if steps != [] && !steps[0].Raise? {
      RunKeepsPrefix(steps[1..]);
      assert steps[..FirstRaise(steps)][1..] == steps[1..][..FirstRaise(steps[1..])];
    }
  }

  lemma {:induction false} EmittedAppend<T>(a: seq<Step<T>>, b: seq<Step<T>>)
    ensures Emitted(a + b) == Emitted(a) + Emitted(b)
    decreases |a|
  {
    if a == [] {
      assert a + b == b;
    } else {
      var head := if a[0].Emit? then [a[0].value] else [];
      assert (a + b)[0] == a[0];
      assert (a + b)[1..] == a[1..] + b;
      calc {
        Emitted(a + b);
        head + Emitted(a[1..] + b);
        { EmittedAppend(a[1..], b); }
        head + (Emitted(a[1..]) + Emitted(b));
        (head + Emitted(a[1..])) + Emitted(b);
      }
    }
  }

  /** Two loops in one `try`: the second runs only if the first did not raise. */
  lemma {:induction false} RunAppend<T>(a: seq<Step<T>>, b: seq<Step<T>>)
    ensures Run(a + b) == if Run(a).failed then Run(a)
                          else Collected(Run(a).items + Run(b).items, Run(b).failed)
    decreases |a|
  {
    if a == [] {
      assert a + b == b;
    } else {
      assert (a + b)[1..] == a[1..] + b;
      RunAppend(a[1..], b);
    }
  }

  /** With no exception, every emitted record is kept, in order. */
  lemma RunWithoutRaise<T>(steps: seq<Step<T>>)
    requires forall i :: 0 <= i < |steps| ==> !steps[i].Raise?
    ensures Run(steps) == Collected(Emitted(steps), false)
  {
    RunKeepsPrefix(steps);
    assert steps[..FirstRaise(steps)] == steps;
  }

  /** A property every emitted record has holds of every kept record. */
  lemma {:induction false} RunItemsAll<T>(steps: seq<Step<T>>, P: T -> bool)
    requires forall i :: 0 <= i < |steps| && steps[i].Emit? ==> P(steps[i].value)
    ensures forall k :: 0 <= k < |Run(steps).items| ==> P(Run(steps).items[k])
    decreases |steps|
  {
    if steps != [] {
      assert forall i :: 1 <= i < |steps| ==> steps[1..][i - 1] == steps[i];
      RunItemsAll(steps[1..], P);
    }
  }

  /** When every step emits, one record per step is appended. */
  lemma {:induction false} EmittedAllEmit<T>(steps: seq<Step<T>>)
    requires forall i :: 0 <= i < |steps| ==> steps[i].Emit?
    ensures |Emitted(steps)| == |steps|
    decreases |steps|
  {
    if steps != [] {
      assert forall i :: 1 <= i < |steps| ==> steps[1..][i - 1] == steps[i];
      EmittedAllEmit(steps[1..]);
    }
  }
}

=== FILE: line_forms.dfy ===
/** Line shapes the lyric and arrangement scripts recognise with anchored regular expressions,
    written out as predicates on strings. */
module LineForms {
  import opened Text

  /** `\[\d{2}:\d{2}\.\d{n-8}\]` occupies the first `n` characters of `s`. */
  predicate TagOfLength(s: string, n: nat) {
    && 9 <= n <= |s|
    && s[0] == '[' && IsDigit(s[1]) && IsDigit(s[2]) && s[3] == ':'
    && IsDigit(s[4]) && IsDigit(s[5]) && s[6] == '.'
    && (forall k :: 7 <= k < n - 1 ==> IsDigit(s[k]))
    && s[n - 1] == ']'
  }

  /** The length of the LRC time tag `^\[\d{2}:\d{2}\.\d{2,3}\]` at the start of `s`: 10 for
      hundredths, 11 for thousandths, 0 when there is none. */
  function TimeTagLength(s: string): (n: nat)
    ensures n == 0 || n == 10 || n == 11
    ensures n != 0 ==> TagOfLength(s, n)
    ensures n == 0 <==> !TagOfLength(s, 10) && !TagOfLength(s, 11)
  {
    if 10 <= |s| && TagOfLength(s, 10) then 10
    else if 11 <= |s| && TagOfLength(s, 11) then 11
    else 0
  }

  /** The regular expression reads at most one tag: the two lengths exclude each other. */
  lemma TimeTagUnique(s: string)
    ensures !(TagOfLength(s, 10) && TagOfLength(s, 11))
  {
  }

  predicate HasTimeTag(s: string) { TimeTagLength(s) != 0 }

  /** The number of `#` characters `s` starts with. */
  function HashRun(s: string): (n: nat)
    ensures n <= |s|
    ensures forall k :: 0 <= k < n ==> s[k] == '#'
    ensures n == |s| || s[n] != '#'
  {
    if s != [] && s[0] == '#' then 1 + HashRun(s[1..]) else 0
  }

  /** `^#{1,6}\s+`: one to six `#` characters, then whitespace. */
  predicate Heading(s: string) {
    exists k :: 1 <= k <= 6 && k < |s| && IsSpace(s[k]) && forall j :: 0 <= j < k ==> s[j] == '#'
  }

  /** The greedy `#{1,6}` never needs to give characters back: a heading is exactly a run of
      one to six `#` followed by whitespace. */
  function IsHeading(s: string): (b: bool)
    ensures b <==> Heading(s)
  {
    var n := HashRun(s);
    1 <= n <= 6 && n < |s| && IsSpace(s[n])
  }

  /** No line terminator occurs in `s`: JavaScript's `.` can run over all of it. */
  predicate NoLineTerminator(s: string) {
    forall k :: 0 <= k < |s| ==> !IsLineTerminator(s[k])
  }

  /** The number of ASCII letters in `s` from position `j` on. */
  function LetterRun(s: string, j: nat): (n: nat)
    requires j <= |s|
    ensures j + n <= |s|
    ensures forall k :: j <= k < j + n ==> IsAsciiLetter(s[k])
    ensures j + n == |s| || !IsAsciiLetter(s[j + n])
    decreases |s| - j
  {
    if j < |s| && IsAsciiLetter(s[j]) then 1 + LetterRun(s, j + 1) else 0
  }

  /** `^\[[a-z]+:` with the `i` flag: a bracket, one or more ASCII letters of either case,
      a colon. */
  predicate MetadataPrefix(s: string) {
    exists k :: 2 <= k < |s| && s[0] == '[' && s[k] == ':' && forall j :: 1 <= j < k ==> IsAsciiLetter(s[j])
  }

  /** The letters are followed by the colon the pattern asks for: `:` is no letter, so the
      greedy run is the only candidate. */
  function IsMetadataLine(s: string): (b: bool)
    ensures b <==> MetadataPrefix(s)
  {
    if s == [] || s[0] != '[' then false
    else
      var n := LetterRun(s, 1);
      n >= 1 && 1 + n < |s| && s[1 + n] == ':'
  }

  /** `^O[^C]+C$` for an opening character `O` and a closing character `C`: the whole of `s`
      is `open`, one or more characters other than `close`, and `close`. */
  predicate Enclosed(s: string, open: char, close: char)
    ensures Enclosed(s, open, close) <==> exists m :: s == [open] + m + [close] && m != [] && close !in m
  {
    assert 3 <= |s| ==> s == [s[0]] + s[1..|s| - 1] + [s[|s| - 1]];
    3 <= |s| && s[0] == open && s[|s| - 1] == close && close !in s[1..|s| - 1]
  }
}

=== FILE: lists.dfy ===
/** The list shapes the scripts build their output with: a concatenation of per-element
    results, a list paired element by element with another, and a filter that keeps a
    transformed form of some elements. */
module Lists {
  import opened Wrappers

  /** The lists `f` gives for the elements of `xs`, concatenated in order. */
  function FlatMap<T, U>(xs: seq<T>, f: T -> seq<U>): (r: seq<U>)
    ensures xs == [] ==> r == []
    ensures |xs| == 1 ==> r == f(xs[0])
  {
    if xs == [] then [] else f(xs[0]) + FlatMap(xs[1..], f)
  }

  /** Concatenating per-element results distributes over appending the elements. */
  lemma {:induction false} FlatMapAppend<T, U>(a: seq<T>, b: seq<T>, f: T -> seq<U>)
    ensures FlatMap(a + b, f) == FlatMap(a, f) + FlatMap(b, f)
    decreases |a|
  {
    if a == [] {
      assert a + b == b;
    } else {
      assert (a + b)[0] == a[0];
      assert (a + b)[1..] == a[1..] + b;
      FlatMapAppend(a[1..], b, f);
    }
  }

  /** Every element of the concatenation comes from the result of some element of `xs`. */
  lemma {:induction false} FlatMapSource<T, U>(xs: seq<T>, f: T -> seq<U>, i: nat) returns (k: nat, j: nat)
    requires i < |FlatMap(xs, f)|
    ensures k < |xs| && j < |f(xs[k])| && FlatMap(xs, f)[i] == f(xs[k])[j]
    decreases |xs|
  {
    var h := f(xs[0]);
    if i < |h| {
      k, j := 0, i;
    } else {
      var k', j' := FlatMapSource(xs[1..], f, i - |h|);
      k, j := k' + 1, j';
    }
  }

  /** An element whose result is empty leaves the others' results exactly as without it. */
  lemma FlatMapSkip<T, U>(before: seq<T>, x: T, after: seq<T>, f: T -> seq<U>)
    requires f(x) == []
    ensures FlatMap(before + [x] + after, f) == FlatMap(before, f) + FlatMap(after, f)
  {
    FlatMapAppend(before + [x], after, f);
    FlatMapAppend(before, [x], f);
  }

  /** The values `f` gives for the elements of `xs`, in order, skipping the elements for which
      it gives nothing. */
  function FilterMap<T, U>(xs: seq<T>, f: T -> Option<U>): (r: seq<U>)
    ensures |r| <= |xs|
    ensures |xs| == 1 ==> r == (if f(xs[0]).Some? then [f(xs[0]).value] else [])
  {
    if xs == [] then []
    else (if f(xs[0]).Some? then [f(xs[0]).value] else []) + FilterMap(xs[1..], f)
  }

  /** Filtering distributes over appending, so the kept values keep the elements' order. */
  lemma {:induction false} FilterMapAppend<T, U>(a: seq<T>, b: seq<T>, f: T -> Option<U>)
    ensures FilterMap(a + b, f) == FilterMap(a, f) + FilterMap(b, f)
    decreases |a|
  {
    if a == [] {
      assert a + b == b;
    } else {
      var head := if f(a[0]).Some? then [f(a[0]).value] else [];
      assert FilterMap(a + b, f) == head + FilterMap(a[1..] + b, f) by {
        assert (a + b)[0] == a[0];
        assert (a + b)[1..] == a[1..] + b;
      }
      FilterMapAppend(a[1..], b, f);
    }
  }

  /** A value is kept exactly when `f` gives it for some element. */
  lemma {:induction false} FilterMapMembers<T, U>(xs: seq<T>, f: T -> Option<U>, y: U)
    ensures y in FilterMap(xs, f) <==> exists i :: 0 <= i < |xs| && f(xs[i]) == Some(y)
    decreases |xs|
  {
    if xs != [] {
      var rest := xs[1..];
      FilterMapMembers(rest, f, y);
      if f(xs[0]) != Some(y) {
        assert y in FilterMap(xs, f) <==> y in FilterMap(rest, f);
        if exists i :: 0 <= i < |rest| && f(rest[i]) == Some(y) {
          var i :| 0 <= i < |rest| && f(rest[i]) == Some(y);
          assert f(xs[i + 1]) == Some(y);
        }
        if exists i :: 0 <= i < |xs| && f(xs[i]) == Some(y) {
          var i :| 0 <= i < |xs| && f(xs[i]) == Some(y);
          assert rest[i - 1] == xs[i];
        }
      }
    }
  }

  /** `a` and `b` paired position by position. */
  function Zip<A, B>(a: seq<A>, b: seq<B>): (r: seq<(A, B)>)
    requires |a| == |b|
    ensures |r| == |a|
    ensures forall i :: 0 <= i < |r| ==> r[i] == (a[i], b[i])
  {
    seq(|a|, i requires 0 <= i < |a| => (a[i], b[i]))
  }

  /** Pairing distributes over appending. */
  lemma ZipAppend<A, B>(a: seq<A>, b: seq<B>, c: seq<A>, d: seq<B>)
    requires |a| == |b| && |c| == |d|
    ensures Zip(a + c, b + d) == Zip(a, b) + Zip(c, d)
  {
  }
}

=== FILE: lyrics_fetch.dfy ===
/** The lyric fetcher (`skills/ziqi-analyst/scripts/fetch_lyrics_cli.js`): recognising the music
    platform of a song URL, pulling the song id out of it, filtering the timed lines of an LRC
    text, and assembling the file it writes. The HTTP requests and the short-link redirects are
    not modelled; `new URL` is given as the hostname it yields, `None` when it throws. */
module LyricsFetch {
  import opened Wrappers
  import opened Text
  import opened Pattern
  import opened LineForms
  import opened Lists

  /** `SHORT_LINK_DOMAINS` */
  const ShortLinkDomains: seq<string> := ["c6.y.qq.com", "c.y.qq.com", "i.y.qq.com"]

  /** The host is one of the domains or a subdomain of one. */
  predicate OnDomain(host: string, domain: string) {
    host == domain || EndsWith(host, "." + domain)
  }

  /** `isShortLink(url)`, given the hostname `new URL(url)` yields: false when the URL does not
      parse. */
  function IsShortLink(hostname: Option<string>): (b: bool)
    ensures b <==> hostname.Some? && exists i :: 0 <= i < |ShortLinkDomains| && OnDomain(hostname.value, ShortLinkDomains[i])
  {
    match hostname
    case None => false
    case Some(h) => OnDomain(h, ShortLinkDomains[0]) || OnDomain(h, ShortLinkDomains[1]) || OnDomain(h, ShortLinkDomains[2])
  }

  datatype Platform = Netease | Qq

  /** `detectPlatform(url)`: the first platform, in declaration order, whose pattern occurs in
      the URL. The patterns are `music\.163\.com` and `y\.qq\.com`, escaped dots included. */
  function DetectPlatform(url: string): (r: Option<Platform>)
    ensures r == Some(Netease) <==> Contains(url, "music.163.com")
    ensures r == Some(Qq) <==> !Contains(url, "music.163.com") && Contains(url, "y.qq.com")
    ensures r.None? <==> !Contains(url, "music.163.com") && !Contains(url, "y.qq.com")
  {
    if Contains(url, "music.163.com") then Some(Netease)
    else if Contains(url, "y.qq.com") then Some(Qq)
    else None
  }

  /** `[?&]id=(\d+)`, `\d` being the ASCII digits. */
  const NeteaseIdPattern: Regex := Capture([AnyOf("?&")] + Literal("id="), Digits, None)

  /** The Netease `extractId`: the digits after the first `?id=` or `&id=`, or nothing. */
  function NeteaseId(url: string): (r: Option<string>)
    ensures r.Some? ==> |r.value| >= 1 && AllDigits(r.value)
    ensures r.None? <==> forall i: nat, n: nat :: !MatchesWith(url, NeteaseIdPattern, i, n)
  {
    Search(url, NeteaseIdPattern)
  }

  /** What the QQ `extractId` returns: a song mid (`{type: "mid"}`) or a numeric song id
      (`{type: "id"}`). */
  datatype QqSong = Mid(mid: string) | Numeric(id: string)

  /** `songDetail\/([a-zA-Z0-9]+)`, `songmid=([a-zA-Z0-9]+)` and `song\/([a-zA-Z0-9]+)`, tried in
      this order. */
  const MidPatterns: seq<Regex> := [
    Capture(Literal("songDetail/"), AsciiAlnum, None),
    Capture(Literal("songmid="), AsciiAlnum, None),
    Capture(Literal("song/"), AsciiAlnum, None)
  ]

  /** `songid=(\d+)` */
  const SongIdPattern: Regex := Capture(Literal("songid="), Digits, None)

  lemma MidPatternsAlnum()
    ensures forall i :: 0 <= i < |MidPatterns| ==> MidPatterns[i].run == AsciiAlnum
  {
  }

  /** The first mid any of the three mid patterns captures: a non-empty run of ASCII letters
      and digits. */
  function FirstMid(url: string): (r: Option<string>)
    ensures r.None? <==> forall i :: 0 <= i < |MidPatterns| ==> Search(url, MidPatterns[i]).None?
    ensures Search(url, MidPatterns[0]).Some? ==> r == Search(url, MidPatterns[0])
    ensures Search(url, MidPatterns[0]).None? && Search(url, MidPatterns[1]).Some? ==> r == Search(url, MidPatterns[1])
    ensures Search(url, MidPatterns[0]).None? && Search(url, MidPatterns[1]).None? ==> r == Search(url, MidPatterns[2])
    ensures r.Some? ==> |r.value| >= 1 && forall k :: 0 <= k < |r.value| ==> IsAsciiAlnum(r.value[k])
  {
    MidPatternsAlnum();
    SearchFirstRun(url, MidPatterns, AsciiAlnum);
    SearchFirst(url, MidPatterns)
  }

  /** The QQ `extractId`: a mid from the first mid pattern that matches; failing all three, the
      digits after `songid=`; else nothing. */
  function QqId(url: string): (r: Option<QqSong>)
    ensures r.Some? && r.value.Mid? <==> FirstMid(url).Some?
    ensures r.Some? && r.value.Mid? ==> Some(r.value.mid) == FirstMid(url)
    ensures r.Some? && r.value.Numeric? <==> FirstMid(url).None? && Search(url, SongIdPattern).Some?
    ensures r.Some? && r.value.Numeric? ==> Some(r.value.id) == Search(url, SongIdPattern) && AllDigits(r.value.id)
    ensures r.None? <==> FirstMid(url).None? && Search(url, SongIdPattern).None?
  {
    match FirstMid(url)
    case Some(m) => Some(Mid(m))
    case None =>
      match Search(url, SongIdPattern)
      case Some(d) => Some(Numeric(d))
      case None => None
  }

  /** The song `main` asks lyrics for, or why it stops. */
  datatype Request =
    | Unsupported               // "仅支持网易云和QQ音乐链接"
    | NoSongId                  // "无法从链接中提取歌曲ID"
    | NeteaseSong(id: string)
    | QqSongRequest(song: QqSong)

  /** The steps of `main` between resolving the URL and requesting the lyrics. */
  function SongRequest(url: string): (r: Request)
    ensures r.Unsupported? <==> DetectPlatform(url).None?
    ensures r.NeteaseSong? ==> DetectPlatform(url) == Some(Netease) && NeteaseId(url) == Some(r.id)
    ensures r.QqSongRequest? ==> DetectPlatform(url) == Some(Qq) && QqId(url) == Some(r.song)
    ensures r.NoSongId? <==> (DetectPlatform(url) == Some(Netease) && NeteaseId(url).None?)
                             || (DetectPlatform(url) == Some(Qq) && QqId(url).None?)
  {
    match DetectPlatform(url)
    case None => Unsupported
    case Some(Netease) =>
      (match NeteaseId(url)
       case None => NoSongId
       case Some(id) => NeteaseSong(id))
    case Some(Qq) =>
      (match QqId(url)
       case None => NoSongId
       case Some(song) => QqSongRequest(song))
  }

  /** One line through the loop of `extractLyricLines`: metadata lines are skipped; a line
      matching `^(\[\d{2}:\d{2}\.\d{2,3}\])(.*)$` with non-blank text is kept as the tag followed
      by the trimmed text. JavaScript's `.` stops at line terminators, so text holding one
      (a carriage return, say) does not match. */
  function LyricLine(line: string): (r: Option<string>)
    ensures r.Some? <==> !IsMetadataLine(line) && HasTimeTag(line)
                         && NoLineTerminator(line[TimeTagLength(line)..])
                         && Trim(line[TimeTagLength(line)..]) != ""
    ensures r.Some? ==> r.value == line[..TimeTagLength(line)] + Trim(line[TimeTagLength(line)..])
  {
    if IsMetadataLine(line) then None
    else
      var n := TimeTagLength(line);
      if n == 0 then None
      else
        var text := line[n..];
        if NoLineTerminator(text) && Trim(text) != "" then Some(line[..n] + Trim(text)) else None
  }

  /** The kept lines of `lines`, in order. */
  function LyricLines(lines: seq<string>): (r: seq<string>)
    ensures |r| <= |lines|
    ensures forall k :: 0 <= k < |r| ==> HasTimeTag(r[k])
    ensures |lines| == 1 ==> r == (if LyricLine(lines[0]).Some? then [LyricLine(lines[0]).value] else [])
  {
    KeptLinesTimed(lines);
    FilterMap(lines, LyricLine)
  }

  /** Every kept line has a time tag, as the line it came from did. */
  lemma KeptLinesTimed(lines: seq<string>)
    ensures forall k :: 0 <= k < |FilterMap(lines, LyricLine)| ==> HasTimeTag(FilterMap(lines, LyricLine)[k])
  {
    var r := FilterMap(lines, LyricLine);
    forall k | 0 <= k < |r|
      ensures HasTimeTag(r[k])
    {
      FilterMapMembers(lines, LyricLine, r[k]);
      var i :| 0 <= i < |lines| && LyricLine(lines[i]) == Some(r[k]);
      LyricLineShape(lines[i]);
    }
  }

  /** A kept line still starts with its time tag. */
  lemma LyricLineShape(line: string)
    requires LyricLine(line).Some?
    ensures TimeTagLength(LyricLine(line).value) == TimeTagLength(line)
  {
    var n := TimeTagLength(line);
    var r := LyricLine(line).value;
    assert r[..n] == line[..n];
    assert TagOfLength(r, n);
    TimeTagUnique(r);
  }

  /** Filtering distributes over concatenation: the kept lines keep the input's order. */
  lemma LyricLinesAppend(a: seq<string>, b: seq<string>)
    ensures LyricLines(a + b) == LyricLines(a) + LyricLines(b)
  {
    FilterMapAppend(a, b, LyricLine);
  }

  /** A line contributes its kept form, and a rejected line contributes nothing. With
      `LyricLinesAppend` this fixes the output for every list of lines. */
  lemma LyricLinesOne(x: string)
    ensures LyricLines([x]) == (if LyricLine(x).Some? then [LyricLine(x).value] else [])
  {
    assert [x][1..] == [];
  }

  /** A text is among the kept lines exactly when some input line is kept as that text. */
  lemma LyricLinesMembers(lines: seq<string>, x: string)
    ensures x in LyricLines(lines) <==> exists i :: 0 <= i < |lines| && LyricLine(lines[i]) == Some(x)
  {
    FilterMapMembers(lines, LyricLine, x);
  }

  /** `extractLyricLines(lrcText)`: the text is cut at every line feed and the kept lines are
      returned in order. */
  function ExtractLyricLines(lrc: string): (r: seq<string>)
    ensures |r| <= |Split(lrc, '\n')|
    ensures forall k :: 0 <= k < |r| ==> HasTimeTag(r[k]) && '\n' !in r[k]
    ensures forall x :: x in r <==> exists i :: 0 <= i < |Split(lrc, '\n')| && LyricLine(Split(lrc, '\n')[i]) == Some(x)
  {
    var lines := Split(lrc, '\n');
    var r := LyricLines(lines);
    NoFeedInLyricLines(lines);
    forall x
      ensures x in r <==> exists i :: 0 <= i < |lines| && LyricLine(lines[i]) == Some(x)
    {
      LyricLinesMembers(lines, x);
    }
    r
  }

  /** A kept line holds only characters of the line it came from. */
  lemma LyricLineChars(line: string, c: char)
    requires LyricLine(line).Some? && c !in line
    ensures c !in LyricLine(line).value
  {
    var n := TimeTagLength(line);
    var text := line[n..];
    assert c !in text by {
      assert forall k :: 0 <= k < |text| ==> text[k] == line[n + k];
    }
    TrimIsSubstring(text);
    AbsentFromSubstring(text, Trim(text), c);
    assert c !in line[..n] by {
      assert forall k :: 0 <= k < n ==> line[..n][k] == line[k];
    }
  }

  lemma NoFeedInLyricLines(lines: seq<string>)
    requires forall k :: 0 <= k < |lines| ==> '\n' !in lines[k]
    ensures forall k :: 0 <= k < |LyricLines(lines)| ==> '\n' !in LyricLines(lines)[k]
  {
    var r := LyricLines(lines);
    forall k | 0 <= k < |r|
      ensures '\n' !in r[k]
    {
      LyricLinesMembers(lines, r[k]);
      var i :| 0 <= i < |lines| && LyricLine(lines[i]) == Some(r[k]);
      LyricLineChars(lines[i], '\n');
    }
  }

  /** A tag stays a tag when more text follows it. */
  lemma TagOfLengthPrefix(s: string, t: string, n: nat)
    requires TagOfLength(s, n) && n <= |t| && t[..n] == s[..n]
    ensures TagOfLength(t, n)
  {
    assert forall k :: 0 <= k < n ==> t[k] == t[..n][k] == s[..n][k] == s[k];
  }

  /** A timed line with text is kept, its text trimmed. */
  lemma TimedLineKept(tag: string, text: string)
    requires HasTimeTag(tag) && TimeTagLength(tag) == |tag|
    requires NoLineTerminator(text) && Trim(text) != ""
    ensures LyricLines([tag + text]) == [tag + Trim(text)]
  {
    var line := tag + text;
    assert line[..|tag|] == tag[..|tag|] && line[|tag|..] == text;
    TagOfLengthPrefix(tag, line, |tag|);
    TimeTagUnique(line);
    assert TimeTagLength(line) == |tag|;
    assert IsDigit(line[1]) && !IsAsciiLetter(line[1]);
    assert [line][1..] == [];
  }

  /** A timed line that ends in a carriage return, as a CRLF file yields once it is cut at
      line feeds, is dropped, whatever its text. */
  lemma CarriageReturnLineDropped(line: string)
    requires HasTimeTag(line) && EndsWith(line, "\r")
    ensures LyricLine(line).None?
  {
    var n := TimeTagLength(line);
    assert line[n..][|line| - 1 - n] == line[|line| - 1];
  }

  /** The file `main` writes: name, artist, an empty line, then one lyric line per line with a
      final line feed. There is no file when no lyric line was kept. */
  function OutputContent(songName: string, artist: string, lines: seq<string>): (r: Option<string>)
    ensures r.None? <==> lines == []
    ensures r.Some? ==> r.value == Join([songName, artist, ""] + lines + [""], "\n")
  {
    if lines == [] then None
    else
      var body := Join(lines, "\n");
      JoinAppend([songName, artist, ""] + lines, [""], "\n");
      JoinAppend([songName, artist, ""], lines, "\n");
      assert Join([songName, artist, ""], "\n") == songName + "\n" + artist + "\n" by {
        assert [songName, artist, ""][1..] == [artist, ""];
        assert [artist, ""][1..] == [""];
      }
      Some(songName + "\n" + artist + "\n\n" + body + "\n")
  }

  /** Reading the file back line by line gives the name, the artist, the empty line and the
      lyric lines, when none of them holds a line feed. */
  lemma OutputContentLines(songName: string, artist: string, lines: seq<string>)
    requires lines != []
    requires '\n' !in songName && '\n' !in artist
    requires forall k :: 0 <= k < |lines| ==> '\n' !in lines[k]
    ensures Split(OutputContent(songName, artist, lines).value, '\n') == [songName, artist, ""] + lines + [""]
  {
    var parts := [songName, artist, ""] + lines + [""];
    forall k | 0 <= k < |parts|
      ensures '\n' !in parts[k]
    {
      if 3 <= k < |parts| - 1 {
        assert parts[k] == lines[k - 3];
      }
    }
    SplitJoin(parts, '\n');
  }
}

=== FILE: lyrics_validate.dfy ===
/** The lyric format check (`skills/ziqi-lyricist/scripts/validate_lyrics_output.js`): LRC
    time stamps, Markdown headings and parenthesised section labels are reported line by line,
    and a text without any bracketed Suno section tag is reported once at the end. */
module LyricsValidate {
  import opened Text
  import opened LineForms

  datatype Code =
    | TimestampFound        // TIMESTAMP_FOUND
    | MarkdownHeadingFound  // MARKDOWN_HEADING_FOUND
    | ParenTagFound         // PAREN_TAG_FOUND
    | NoSunoTag             // NO_SUNO_TAG

  /** An issue at a 1-based line number; 0 for the whole text. */
  datatype Issue = Issue(line: nat, code: Code)

  /** `^\([^)]+\)$`: a whole line such as `(Chorus)`. */
  predicate ParenTag(s: string)
    ensures ParenTag(s) <==> exists m :: s == "(" + m + ")" && m != "" && ')' !in m
    ensures ParenTag(s) ==> !HasTimeTag(s) && !IsHeading(s) && !SectionTag(s)
  {
    Enclosed(s, '(', ')')
  }

  /** `^\[[^\]]+\]$`: a whole line such as `[Verse 1]`. */
  predicate SectionTag(s: string)
    ensures SectionTag(s) <==> exists m :: s == "[" + m + "]" && m != "" && ']' !in m
  {
    Enclosed(s, '[', ']')
  }

  /** Whether the trimmed line `s` fails the format check named `c`. A blank line fails none. */
  predicate Flags(s: string, c: Code) {
    match c
    case TimestampFound => HasTimeTag(s)
    case MarkdownHeadingFound => IsHeading(s)
    case ParenTagFound => ParenTag(s)
    case NoSunoTag => false
  }

  /** The trimmed line `s` fails none of the line checks. */
  predicate Clean(s: string) {
    !HasTimeTag(s) && !IsHeading(s) && !ParenTag(s)
  }

  /** The three tests of the loop body, in order, for the trimmed line `s` numbered `n`;
      a blank line returns before any of them. The tests want different first characters
      (`[`, `#`, `(`), so at most one of them fires. */
  function LineIssues(s: string, n: nat): (r: seq<Issue>)
    ensures |r| <= 1
    ensures r == [] <==> Clean(s)
  {
    if s == [] then []
    else
      (if HasTimeTag(s) then [Issue(n, TimestampFound)] else [])
      + (if IsHeading(s) then [Issue(n, MarkdownHeadingFound)] else [])
      + (if ParenTag(s) then [Issue(n, ParenTagFound)] else [])
  }

  /** The `forEach` loop over the trimmed lines `ts` with the loop body `check`, numbered from
      1: what the earlier lines report, then what the last one reports. */
  function Collect(ts: seq<string>, check: (string, nat) -> seq<Issue>): seq<Issue>
    decreases |ts|
  {
    if ts == [] then [] else Collect(ts[..|ts| - 1], check) + check(ts[|ts| - 1], |ts|)
  }

  /** Every issue the loop collects was reported by one line. */
  lemma {:induction false} CollectFrom(ts: seq<string>, check: (string, nat) -> seq<Issue>, x: Issue)
    returns (k: nat)
    requires x in Collect(ts, check)
    ensures k < |ts| && x in check(ts[k], k + 1)
    decreases |ts|
  {
    var p := ts[..|ts| - 1];
    if x in check(ts[|ts| - 1], |ts|) {
      k := |ts| - 1;
    } else {
      k := CollectFrom(p, check, x);
      assert p[k] == ts[k];
    }
  }

  /** Every issue a line reports is collected. */
  lemma {:induction false} CollectHas(ts: seq<string>, check: (string, nat) -> seq<Issue>, k: nat, x: Issue)
    requires k < |ts| && x in check(ts[k], k + 1)
    ensures x in Collect(ts, check)
    decreases |ts|
  {
    var p := ts[..|ts| - 1];
    if k < |p| {
      assert p[k] == ts[k];
      CollectHas(p, check, k, x);
    }
  }

  /** The loop collects nothing exactly when no line reports anything. */
  lemma {:induction false} CollectEmpty(ts: seq<string>, check: (string, nat) -> seq<Issue>)
    ensures Collect(ts, check) == [] <==> forall k :: 0 <= k < |ts| ==> check(ts[k], k + 1) == []
    decreases |ts|
  {
    if ts != [] {
      var p := ts[..|ts| - 1];
      CollectEmpty(p, check);
      assert forall k :: 0 <= k < |p| ==> p[k] == ts[k];
    }
  }

  /** A body that reports at most one issue per line, at that line, makes the loop report in
      strictly increasing line order. */
  lemma {:induction false} CollectInOrder(ts: seq<string>, check: (string, nat) -> seq<Issue>)
    requires forall k :: 0 <= k < |ts| ==> |check(ts[k], k + 1)| <= 1
    requires forall k, x :: 0 <= k < |ts| && x in check(ts[k], k + 1) ==> x.line == k + 1
    ensures forall i :: 0 <= i < |Collect(ts, check)| ==> 1 <= Collect(ts, check)[i].line <= |ts|
    ensures forall i, j :: 0 <= i < j < |Collect(ts, check)| ==> Collect(ts, check)[i].line < Collect(ts, check)[j].line
    decreases |ts|
  {
    if ts != [] {
      var p := ts[..|ts| - 1];
      assert forall k :: 0 <= k < |p| ==> p[k] == ts[k];
      CollectInOrder(p, check);
      var a := Collect(p, check);
      var b := check(ts[|ts| - 1], |ts|);
      assert forall i :: 0 <= i < |b| ==> b[i] in b;
      assert forall i :: 0 <= i < |a + b| ==> (a + b)[i] == if i < |a| then a[i] else b[i - |a|];
    }
  }

  /** The issues of the loop over the trimmed lines `ts`. */
  function LineIssuesOf(ts: seq<string>): (r: seq<Issue>)
    ensures forall i :: 0 <= i < |r| ==> 1 <= r[i].line <= |ts|
    ensures forall i, j :: 0 <= i < j < |r| ==> r[i].line < r[j].line
  {
    forall k, x | 0 <= k < |ts| && x in LineIssues(ts[k], k + 1)
      ensures x.line == k + 1
    {
      LineIssuesLine(ts[k], k + 1, x);
    }
    CollectInOrder(ts, LineIssues);
    Collect(ts, LineIssues)
  }

  /** Line `n` reports the check `c` exactly when it fails it. */
  lemma LineIssuesFlags(s: string, n: nat, c: Code)
    ensures Issue(n, c) in LineIssues(s, n) <==> Flags(s, c)
  {
  }

  /** The issues line `n` reports are at line `n`. */
  lemma LineIssuesLine(s: string, n: nat, x: Issue)
    requires x in LineIssues(s, n)
    ensures x.line == n
  {
  }

  /** Every issue the loop reports names a line that fails the reported check. */
  lemma LineIssuesOfReported(ts: seq<string>, x: Issue)
    requires x in LineIssuesOf(ts)
    ensures 1 <= x.line <= |ts| && Flags(ts[x.line - 1], x.code)
  {
    var k := CollectFrom(ts, LineIssues, x);
    LineIssuesLine(ts[k], k + 1, x);
    LineIssuesFlags(ts[k], k + 1, x.code);
  }

  /** Every check a line fails is reported at that line's number. */
  lemma LineIssuesOfFailing(ts: seq<string>, k: nat, c: Code)
    requires k < |ts| && Flags(ts[k], c)
    ensures Issue(k + 1, c) in LineIssuesOf(ts)
  {
    LineIssuesFlags(ts[k], k + 1, c);
    CollectHas(ts, LineIssues, k, Issue(k + 1, c));
  }

  /** The loop reports exactly the checks each line fails, at that line's number. */
  lemma LineIssuesOfMembers(ts: seq<string>, n: nat, c: Code)
    ensures Issue(n, c) in LineIssuesOf(ts) <==> 1 <= n <= |ts| && Flags(ts[n - 1], c)
  {
    if Issue(n, c) in LineIssuesOf(ts) {
      LineIssuesOfReported(ts, Issue(n, c));
    } else if 1 <= n <= |ts| && Flags(ts[n - 1], c) {
      LineIssuesOfFailing(ts, n - 1, c);
    }
  }

  /** The loop reports nothing exactly when every line is clean. */
  lemma LineIssuesOfEmpty(ts: seq<string>)
    ensures LineIssuesOf(ts) == [] <==> forall k :: 0 <= k < |ts| ==> Clean(ts[k])
  {
    CollectEmpty(ts, LineIssues);
  }

  /** `hasTag`: some trimmed line is a whole bracketed tag. */
  function HasTag(ts: seq<string>): (b: bool)
    ensures b <==> exists k :: 0 <= k < |ts| && SectionTag(ts[k])
    decreases |ts|
  {
    if ts == [] then false
    else
      var b := SectionTag(ts[0]) || HasTag(ts[1..]);
      assert forall k :: 1 <= k < |ts| ==> ts[1..][k - 1] == ts[k];
      b
  }

  /** The printed result and the exit status. */
  datatype Report = Report(success: bool, issueCount: nat, issues: seq<Issue>, exitCode: int)

  /** The issue list of `main`: the line issues in line order, then `NO_SUNO_TAG` when no line
      is a section tag. */
  function AllIssues(ts: seq<string>): (r: seq<Issue>)
    ensures Issue(0, NoSunoTag) in r <==> !HasTag(ts)
    ensures !HasTag(ts) ==> r[|r| - 1] == Issue(0, NoSunoTag)
    ensures forall i, j :: 0 <= i < j < |r| ==> r[j].line == 0 || r[i].line < r[j].line
  {
    var a := LineIssuesOf(ts);
    var r := a + (if HasTag(ts) then [] else [Issue(0, NoSunoTag)]);
    assert forall i :: 0 <= i < |a| ==> r[i] == a[i];
    assert Issue(0, NoSunoTag) !in a;
    r
  }

  /** `main`, once the file is read and split into lines. */
  function Validate(text: string): (r: Report)
    ensures r.success <==> r.issues == []
    ensures r.issueCount == |r.issues|
    ensures r.exitCode == (if r.success then 0 else 2)
  {
    var issues := AllIssues(Trimmed(text));
    Report(issues == [], |issues|, issues, if issues == [] then 0 else 2)
  }

  /** The lines of `text` as the loop body sees them: split at line breaks, each trimmed. */
  function Trimmed(text: string): (ts: seq<string>)
    ensures |ts| == |SplitLines(text)|
    ensures forall k :: 0 <= k < |ts| ==> ts[k] == Trim(SplitLines(text)[k])
  {
    var lines := SplitLines(text);
    seq(|lines|, k requires 0 <= k < |lines| => Trim(lines[k]))
  }

  /** `NO_SUNO_TAG` is reported exactly when no line is a section tag, and then it comes last;
      the other issues come in line order. */
  lemma ValidateIssues(text: string)
    ensures Issue(0, NoSunoTag) in Validate(text).issues <==> !exists k :: 0 <= k < |Trimmed(text)| && SectionTag(Trimmed(text)[k])
    ensures forall i, j :: 0 <= i < j < |Validate(text).issues| ==>
              Validate(text).issues[j].line == 0 || Validate(text).issues[i].line < Validate(text).issues[j].line
  {
    assert Validate(text).issues == AllIssues(Trimmed(text));
  }

  /** Line `n` is reported for the check `c` exactly when its trimmed text fails `c`. */
  lemma ValidateReportsLine(text: string, n: nat, c: Code)
    requires c != NoSunoTag
    ensures Issue(n, c) in Validate(text).issues <==> 1 <= n <= |Trimmed(text)| && Flags(Trimmed(text)[n - 1], c)
  {
    var ts := Trimmed(text);
    assert Validate(text).issues == LineIssuesOf(ts) + (if HasTag(ts) then [] else [Issue(0, NoSunoTag)]);
    LineIssuesOfMembers(ts, n, c);
  }

  /** A text passes exactly when no trimmed line fails a line check and some trimmed line is a
      section tag. */
  lemma ValidateSucceeds(text: string)
    ensures Validate(text).success <==>
              && (forall k :: 0 <= k < |Trimmed(text)| ==> Clean(Trimmed(text)[k]))
              && (exists k :: 0 <= k < |Trimmed(text)| && SectionTag(Trimmed(text)[k]))
  {
    var ts := Trimmed(text);
    assert Validate(text).issues == LineIssuesOf(ts) + (if HasTag(ts) then [] else [Issue(0, NoSunoTag)]);
    LineIssuesOfEmpty(ts);
  }

  /** A line that is nothing but a time stamp, such as `[00:12.50]`, is reported and still
      counts as a section tag. */
  lemma BareTimestampIsTag(s: string)
    requires HasTimeTag(s) && TimeTagLength(s) == |s|
    ensures Flags(s, TimestampFound) && SectionTag(s)
  {
    var n := |s|;
    var mid := s[1..n - 1];
    assert forall k :: 0 <= k < |mid| ==> mid[k] == s[k + 1];
    assert forall k :: 0 <= k < |mid| ==> mid[k] != ']';
  }
}

=== FILE: pattern.dfy ===
/** Leftmost regular-expression search for the one shape the scripts use to pull an identifier
    out of a URL or a web page: a fixed prefix, then a captured non-empty run of one character
    class, optionally followed by a closing character. Examples: `[?&]id=(\d+)` and
    `"externalId":"([^"]+)"`. The result is group 1 of the leftmost match, as
    `re.search(...).group(1)` and `str.match(...)[1]` return it. */
module Pattern {
  import opened Wrappers
  import opened Text

  /** One character of the fixed prefix. */
  datatype Atom =
    | Lit(c: char)           // the character itself
    | AnyOf(cs: seq<char>)   // a bracket class such as `[?&]`
    | AnyButNewline          // Python's `.`: any character except a line feed

  /** The character class of the captured run. */
  datatype RunClass =
    | Digits       // `\d`, ASCII digits in JavaScript
    | AsciiAlnum   // `[a-zA-Z0-9]`
    | NotQuote     // `[^"]`

  datatype Capture = Capture(prefix: seq<Atom>, run: RunClass, closer: Option<char>)

  predicate AtomMatches(a: Atom, c: char) {
    match a
    case Lit(x) => c == x
    case AnyOf(cs) => c in cs
    case AnyButNewline => c != '\n'
  }

  predicate InRun(r: RunClass, c: char) {
    match r
    case Digits => IsDigit(c)
    case AsciiAlnum => IsAsciiAlnum(c)
    case NotQuote => c != '"'
  }

  /** A pattern whose closing character cannot belong to the run. All the scripts' patterns
      are of this kind, which is what makes the greedy capture the maximal run. */
  predicate WellFormed(cap: Capture) {
    cap.closer.Some? ==> !InRun(cap.run, cap.closer.value)
  }

  /** A capture pattern of the kind the scripts use. */
  type Regex = cap: Capture | WellFormed(cap) witness Capture([], Digits, None)

  /** The prefix that matches exactly the characters of `s`. */
  function Literal(s: string): (p: seq<Atom>)
    ensures |p| == |s| && forall i :: 0 <= i < |s| ==> p[i] == Lit(s[i])
  {
    seq(|s|, i requires 0 <= i < |s| => Lit(s[i]))
  }

  predicate PrefixAt(s: string, p: seq<Atom>, i: nat) {
    i + |p| <= |s| && forall k :: 0 <= k < |p| ==> AtomMatches(p[k], s[i + k])
  }

  /** The regular expression matches at `i` with a run of exactly `n` characters: the
      backtracking semantics, with no preference among run lengths. */
  predicate MatchesWith(s: string, cap: Capture, i: nat, n: nat) {
    && PrefixAt(s, cap.prefix, i)
    && n >= 1
    && i + |cap.prefix| + n <= |s|
    && (forall k :: i + |cap.prefix| <= k < i + |cap.prefix| + n ==> InRun(cap.run, s[k]))
    && (cap.closer.Some? ==> i + |cap.prefix| + n < |s| && s[i + |cap.prefix| + n] == cap.closer.value)
  }

  /** The length of the longest run of class `r` starting at `j`. */
  function RunLength(s: string, r: RunClass, j: nat): (n: nat)
    requires j <= |s|
    ensures j + n <= |s|
    ensures forall k :: j <= k < j + n ==> InRun(r, s[k])
    ensures j + n == |s| || !InRun(r, s[j + n])
    decreases |s| - j
  {
    if j < |s| && InRun(r, s[j]) then 1 + RunLength(s, r, j + 1) else 0
  }

  /** Group 1 of a match anchored at `i`: the greedy run, which is the longest run length
      with which the expression matches there. */
  function MatchAt(s: string, cap: Capture, i: nat): (r: Option<string>)
    requires WellFormed(cap)
    ensures r.Some? ==> MatchesWith(s, cap, i, |r.value|)
    ensures r.Some? ==> r.value == s[i + |cap.prefix|..i + |cap.prefix| + |r.value|]
    ensures r.Some? ==> forall n :: n > |r.value| ==> !MatchesWith(s, cap, i, n)
    ensures r.None? ==> forall n :: !MatchesWith(s, cap, i, n)
  {
    if !PrefixAt(s, cap.prefix, i) then None
    else
      var j := i + |cap.prefix|;
      var n := RunLength(s, cap.run, j);
      if n == 0 then None
      else match cap.closer
        case None => Some(s[j..j + n])
        case Some(c) =>
          if j + n < |s| && s[j + n] == c then Some(s[j..j + n])
          else None
  }

  /** The leftmost position at or after `from` where the expression matches. */
  function FirstMatch(s: string, cap: Capture, from: nat): (r: Option<nat>)
    requires WellFormed(cap)
    ensures r.Some? ==> from <= r.value <= |s| && MatchAt(s, cap, r.value).Some?
    ensures r.Some? ==> forall j :: from <= j < r.value ==> MatchAt(s, cap, j).None?
    ensures r.None? ==> forall j :: from <= j ==> MatchAt(s, cap, j).None?
    decreases |s| + 1 - from
  {
    if from > |s| then
      assert forall j :: from <= j ==> !PrefixAt(s, cap.prefix, j);
      None
    else if MatchAt(s, cap, from).Some? then Some(from)
    else FirstMatch(s, cap, from + 1)
  }

  /** The expression's first match starts at `i`. */
  predicate LeftmostAt(s: string, cap: Capture, i: nat)
    requires WellFormed(cap)
  {
    MatchAt(s, cap, i).Some? && forall j :: 0 <= j < i ==> MatchAt(s, cap, j).None?
  }

  /** `re.search(pattern, s).group(1)`, `s.match(pattern)[1]`: the capture of the leftmost
      match, or `None` when the expression matches nowhere. */
  function Search(s: string, cap: Capture): (r: Option<string>)
    requires WellFormed(cap)
    ensures r.None? <==> forall i: nat, n: nat :: !MatchesWith(s, cap, i, n)
    ensures r.Some? ==> exists i: nat :: LeftmostAt(s, cap, i) && r == MatchAt(s, cap, i)
    ensures r.Some? ==> |r.value| >= 1 && forall k :: 0 <= k < |r.value| ==> InRun(cap.run, r.value[k])
  {
    match FirstMatch(s, cap, 0)
    case None =>
      forall i: nat, n: nat
        ensures !MatchesWith(s, cap, i, n)
      {
        assert MatchAt(s, cap, i).None?;
      }
      None
    case Some(i) =>
      assert LeftmostAt(s, cap, i);
      MatchAt(s, cap, i)
  }

  /** The first of the patterns from position `from` on that matches, `|caps|` when none does. */
  function FirstHit(s: string, caps: seq<Capture>, from: nat): (i: nat)
    requires forall i :: 0 <= i < |caps| ==> WellFormed(caps[i])
    requires from <= |caps|
    ensures from <= i <= |caps|
    ensures forall j :: from <= j < i ==> Search(s, caps[j]).None?
    ensures i < |caps| ==> Search(s, caps[i]).Some?
    decreases |caps| - from
  {
    if from == |caps| || Search(s, caps[from]).Some? then from
    else FirstHit(s, caps, from + 1)
  }

  /** Patterns tried in order, the first that matches winning: `a || b || c` over
      `re.search` or `str.match`. The result is the capture of the first pattern that matches. */
  function SearchFirst(s: string, caps: seq<Capture>): (r: Option<string>)
    requires forall i :: 0 <= i < |caps| ==> WellFormed(caps[i])
    ensures r.None? <==> forall i :: 0 <= i < |caps| ==> Search(s, caps[i]).None?
    ensures r.Some? ==> exists i :: 0 <= i < |caps| && r == Search(s, caps[i])
                                    && forall j :: 0 <= j < i ==> Search(s, caps[j]).None?
  {
    var i := FirstHit(s, caps, 0);
    if i < |caps| then Search(s, caps[i]) else None
  }

  /** When every pattern captures runs of one class, so does the ordered search. */
  lemma SearchFirstRun(s: string, caps: seq<Capture>, rc: RunClass)
    requires forall i :: 0 <= i < |caps| ==> WellFormed(caps[i]) && caps[i].run == rc
    ensures var r := SearchFirst(s, caps);
            r.Some? ==> |r.value| >= 1 && forall k :: 0 <= k < |r.value| ==> InRun(rc, r.value[k])
  {
    var r := SearchFirst(s, caps);
    if r.Some? {
      var i :| 0 <= i < |caps| && r == Search(s, caps[i]);
    }
  }
}

=== FILE: rss_fetch.dfy ===
/** The RSS fetcher (`skills/rss-fetcher/scripts/fetch_rss.py`): one path that reads both RSS 2.0
    (`channel`/`item`) and Atom (`feed`/`entry`, RFC 4287) documents, keeps the entries dated at
    or after a cutoff, and concatenates the results of every configured feed. */
module RssFetch {
  import opened Wrappers
  import opened Text
  import opened Xml
  import opened Dates
  import opened Isolation
  import opened Lists

  datatype SourceKind = Rss | Atom

  /** A record `parse_feed` appends. A `None` title or link is JSON null: the element is there
      but has no text. `published` is the date text as found in the document. */
  datatype FeedItem = FeedItem(title: Option<string>, link: Option<string>, published: string, source: SourceKind)

  /** What fetching a feed and parsing its bytes give: no bytes at all (the fetch failed or
      returned nothing), bytes that are not XML, or a parsed document. */
  datatype Document = NoContent | Malformed | Parsed(root: Element)

  const NoTitle := "No Title"

  /** `e.find(tag).text if e.find(tag) is not None else default`. */
  function TextOr(e: Element, tag: string, default: string): (r: Option<string>)
    ensures Find(e, tag).None? ==> r == Some(default)
    ensures Find(e, tag).Some? ==> r == Find(e, tag).value.text
  {
    match Find(e, tag)
    case None => Some(default)
    case Some(c) => c.text
  }

  /** The date text: the text of the `first` child if there is one, else of the `second`
      child, else none. An element that is present but empty still wins. */
  function DateText(e: Element, first: string, second: string): (r: Option<string>)
    ensures Find(e, first).Some? ==> r == Find(e, first).value.text
    ensures Find(e, first).None? && Find(e, second).Some? ==> r == Find(e, second).value.text
    ensures Find(e, first).None? && Find(e, second).None? ==> r.None?
  {
    match Find(e, first)
    case Some(c) => c.text
    case None =>
      match Find(e, second)
      case Some(c) => c.text
      case None => None
  }

  /** `if date: d = parse_date(date); if d and d >= cutoff: ...`, where comparing a naive
      date-time with the aware cutoff raises. */
  function Freshness(date: Option<string>, p: Parsers, cutoff: int): (v: Verdict)
    ensures v == Fresh <==> date.Some? && FreshText(date.value, p, cutoff)
    ensures v == Incomparable <==> date.Some? && NaiveText(date.value, p)
  {
    if date.None? || date.value == "" then Stale
    else match ParseDate(date.value, p)
      case None => Stale
      case Some(d) => AtOrAfter(d, cutoff)
  }

  /** The date text reads as an offset-aware instant at or after the cutoff. */
  predicate FreshText(s: string, p: Parsers, cutoff: int) {
    var d := ParseDate(s, p);
    d.Some? && d.value.aware && d.value.instant >= cutoff
  }

  /** The date text reads as a date-time without an offset, which cannot be compared with
      the aware cutoff. */
  predicate NaiveText(s: string, p: Parsers) {
    var d := ParseDate(s, p);
    d.Some? && !d.value.aware
  }

  /** The loop body for one RSS `item`: a fresh date emits the record, a naive date raises,
      and a missing, unreadable or stale date skips the item. */
  function RssStep(item: Element, p: Parsers, cutoff: int): (r: Step<FeedItem>)
    ensures r.Emit? <==> DateText(item, "pubDate", "date").Some?
                         && FreshText(DateText(item, "pubDate", "date").value, p, cutoff)
    ensures r.Emit? ==> r.value == FeedItem(TextOr(item, "title", NoTitle), TextOr(item, "link", ""),
                                            DateText(item, "pubDate", "date").value, Rss)
    ensures DateText(item, "pubDate", "date").None? ==> r.Skip?
    ensures r.Raise? <==> DateText(item, "pubDate", "date").Some? && NaiveText(DateText(item, "pubDate", "date").value, p)
  {
    var date := DateText(item, "pubDate", "date");
    match Freshness(date, p, cutoff)
    case Stale => Skip
    case Incomparable => Raise
    case Fresh => Emit(FeedItem(TextOr(item, "title", NoTitle), TextOr(item, "link", ""), date.value, Rss))
  }

  /** The link of an Atom entry: the `href` of its first `link` child when that is non-empty,
      else the child's text when that is non-empty, else the empty string. */
  function AtomLink(entry: Element): (r: string)
    ensures Find(entry, "link").None? ==> r == ""
    ensures Find(entry, "link").Some? && Attr(Find(entry, "link").value, "href", "") != ""
            ==> r == Find(entry, "link").value.attrs["href"]
    ensures Find(entry, "link").Some? && Attr(Find(entry, "link").value, "href", "") == ""
            ==> r == Find(entry, "link").value.text.GetOr("")
  {
    match Find(entry, "link")
    case None => ""
    case Some(le) =>
      var href := Attr(le, "href", "");
      if href == "" && le.text.Some? && le.text.value != "" then le.text.value else href
  }

  /** Only the first `link` child is read: a later one, even with its own `href`, changes
      nothing. */
  lemma AtomLinkFirstOnly(entry: Element, u: Element)
    requires Find(entry, "link").Some?
    ensures AtomLink(entry.(children := entry.children + [u])) == AtomLink(entry)
  {
    FindAppendLater(entry, u, "link");
  }

  /** The loop body for one Atom `entry`: a fresh date emits the record, a naive date raises,
      and a missing, unreadable or stale date skips the entry. */
  function AtomStep(entry: Element, p: Parsers, cutoff: int): (r: Step<FeedItem>)
    ensures r.Emit? <==> DateText(entry, "updated", "published").Some?
                         && FreshText(DateText(entry, "updated", "published").value, p, cutoff)
    ensures r.Emit? ==> r.value == FeedItem(TextOr(entry, "title", NoTitle), Some(AtomLink(entry)),
                                            DateText(entry, "updated", "published").value, Atom)
    ensures DateText(entry, "updated", "published").None? ==> r.Skip?
    ensures r.Raise? <==> DateText(entry, "updated", "published").Some? && NaiveText(DateText(entry, "updated", "published").value, p)
  {
    var date := DateText(entry, "updated", "published");
    match Freshness(date, p, cutoff)
    case Stale => Skip
    case Incomparable => Raise
    case Fresh => Emit(FeedItem(TextOr(entry, "title", NoTitle), Some(AtomLink(entry)), date.value, Atom))
  }

  function RssSteps(items: seq<Element>, p: Parsers, cutoff: int): (r: seq<Step<FeedItem>>)
    ensures |r| == |items| && forall i :: 0 <= i < |items| ==> r[i] == RssStep(items[i], p, cutoff)
  {
    seq(|items|, i requires 0 <= i < |items| => RssStep(items[i], p, cutoff))
  }

  function AtomSteps(entries: seq<Element>, p: Parsers, cutoff: int): (r: seq<Step<FeedItem>>)
    ensures |r| == |entries| && forall i :: 0 <= i < |entries| ==> r[i] == AtomStep(entries[i], p, cutoff)
  {
    seq(|entries|, i requires 0 <= i < |entries| => AtomStep(entries[i], p, cutoff))
  }

  /** The `item` children of the first `channel` child, if there is a channel. */
  function RssItems(root: Element): (r: seq<Element>)
    ensures Find(root, "channel").None? ==> r == []
    ensures forall x :: x in r <==> Find(root, "channel").Some? && x in Find(root, "channel").value.children
                                     && x.tag == "item"
  {
    match Find(root, "channel")
    case None => []
    case Some(ch) => FindAll(ch, "item")
  }

  /** The `entry` children of the root, if the root is a `feed`. */
  function AtomEntries(root: Element): (r: seq<Element>)
    ensures root.tag != "feed" ==> r == []
    ensures forall x :: x in r <==> root.tag == "feed" && x in root.children && x.tag == "entry"
  {
    if root.tag == "feed" then FindAll(root, "entry") else []
  }

  /** Both loops of `parse_feed`, in order, inside their one `try`, over the tree after its
      namespaces have been stripped. */
  function FeedSteps(root: Element, p: Parsers, cutoff: int): seq<Step<FeedItem>> {
    var r := StripNamespaces(root);
    RssSteps(RssItems(r), p, cutoff) + AtomSteps(AtomEntries(r), p, cutoff)
  }

  /** Every record the steps emit comes from a source of kind `k` and is fresh. */
  predicate EmitsFresh(steps: seq<Step<FeedItem>>, k: SourceKind, p: Parsers, cutoff: int) {
    forall i :: 0 <= i < |steps| && steps[i].Emit? ==>
      steps[i].value.source == k && FreshText(steps[i].value.published, p, cutoff)
  }

  lemma RssStepsEmitFresh(items: seq<Element>, p: Parsers, cutoff: int)
    ensures EmitsFresh(RssSteps(items, p, cutoff), Rss, p, cutoff)
  {
    var steps := RssSteps(items, p, cutoff);
    forall i | 0 <= i < |steps| && steps[i].Emit?
      ensures steps[i].value.source == Rss && FreshText(steps[i].value.published, p, cutoff)
    {
      assert steps[i] == RssStep(items[i], p, cutoff);
    }
  }

  lemma AtomStepsEmitFresh(entries: seq<Element>, p: Parsers, cutoff: int)
    ensures EmitsFresh(AtomSteps(entries, p, cutoff), Atom, p, cutoff)
  {
    var steps := AtomSteps(entries, p, cutoff);
    forall i | 0 <= i < |steps| && steps[i].Emit?
      ensures steps[i].value.source == Atom && FreshText(steps[i].value.published, p, cutoff)
    {
      assert steps[i] == AtomStep(entries[i], p, cutoff);
    }
  }

  /** Every record's date text reads as an aware instant at or after the cutoff. */
  predicate AllFresh(items: seq<FeedItem>, p: Parsers, cutoff: int) {
    forall i :: 0 <= i < |items| ==> FreshText(items[i].published, p, cutoff)
  }

  /** No RSS record comes after an Atom record. */
  predicate RssFirst(items: seq<FeedItem>) {
    forall i, j :: 0 <= i < j < |items| && items[i].source == Atom ==> items[j].source == Atom
  }

  lemma RunFreshInOrder(rss: seq<Step<FeedItem>>, atom: seq<Step<FeedItem>>, p: Parsers, cutoff: int)
    requires EmitsFresh(rss, Rss, p, cutoff) && EmitsFresh(atom, Atom, p, cutoff)
    ensures AllFresh(Run(rss + atom).items, p, cutoff) && RssFirst(Run(rss + atom).items)
  {
    RunAppend(rss, atom);
    var f := (x: FeedItem) => FreshText(x.published, p, cutoff);
    RunItemsAll(rss, (x: FeedItem) => x.source == Rss && f(x));
    RunItemsAll(atom, (x: FeedItem) => x.source == Atom && f(x));
  }

  /** `parse_feed`: the records of the fresh items and entries, RSS items first. Without a
      document there are none; an exception keeps what was collected before it. */
  function ParseFeed(doc: Document, p: Parsers, cutoff: int): (items: seq<FeedItem>)
    ensures !doc.Parsed? ==> items == []
    ensures AllFresh(items, p, cutoff)
    ensures RssFirst(items)
  {
    match doc
    case NoContent => []
    case Malformed => []
    case Parsed(root) =>
      var r := StripNamespaces(root);
      var rss := RssSteps(RssItems(r), p, cutoff);
      var atom := AtomSteps(AtomEntries(r), p, cutoff);
      RssStepsEmitFresh(RssItems(r), p, cutoff);
      AtomStepsEmitFresh(AtomEntries(r), p, cutoff);
      RunFreshInOrder(rss, atom, p, cutoff);
      Run(rss + atom).items
  }

  /** The records of an RSS document are those of its fresh items before the first item whose
      date cannot be compared, and the Atom entries are read only if no item raised. */
  lemma ParseFeedKeepsPrefix(root: Element, p: Parsers, cutoff: int)
    ensures var steps := FeedSteps(root, p, cutoff);
            ParseFeed(Parsed(root), p, cutoff) == Emitted(steps[..FirstRaise(steps)])
  {
    RunKeepsPrefix(FeedSteps(root, p, cutoff));
  }

  /** An RSS document whose every item is dated within the window yields one record per item. */
  lemma EveryFreshRssItemKept(root: Element, p: Parsers, cutoff: int)
    requires StripNamespaces(root).tag != "feed"
    requires forall it :: it in RssItems(StripNamespaces(root)) ==>
               DateText(it, "pubDate", "date").Some? && FreshText(DateText(it, "pubDate", "date").value, p, cutoff)
    ensures |ParseFeed(Parsed(root), p, cutoff)| == |RssItems(StripNamespaces(root))|
  {
    var r := StripNamespaces(root);
    var items := RssItems(r);
    var rss := RssSteps(items, p, cutoff);
    assert AtomSteps(AtomEntries(r), p, cutoff) == [];
    assert rss + [] == rss;
    forall i | 0 <= i < |rss|
      ensures rss[i].Emit?
    {
      assert items[i] in items;
    }
    RunWithoutRaise(rss);
    EmittedAllEmit(rss);
  }

  /** A feed as configured: its URL and display name, each possibly missing. */
  datatype FeedConfig = FeedConfig(url: Option<string>, name: Option<string>)

  /** A record of the final output: a feed record tagged with its feed's name. */
  datatype TaggedItem = TaggedItem(item: FeedItem, feedName: string)

  const UnknownFeed := "Unknown"

  /** What one configured feed contributes to the output, given how each URL loads. */
  function FeedItems(feed: FeedConfig, load: string -> Document, p: Parsers, cutoff: int): (r: seq<TaggedItem>)
    ensures feed.url.None? || feed.url == Some("") ==> r == []
    ensures feed.url.Some? && feed.url.value != "" ==> |r| == |ParseFeed(load(feed.url.value), p, cutoff)|
    ensures forall i :: 0 <= i < |r| ==> r[i].feedName == feed.name.GetOr(UnknownFeed)
    ensures forall i :: 0 <= i < |r| ==> (feed.url.Some? && r[i].item == ParseFeed(load(feed.url.value), p, cutoff)[i])
  {
    if feed.url.None? || feed.url.value == "" then []
    else
      var items := ParseFeed(load(feed.url.value), p, cutoff);
      seq(|items|, i requires 0 <= i < |items| => TaggedItem(items[i], feed.name.GetOr(UnknownFeed)))
  }

  /** The loop of `main`: the feeds' contributions concatenated in configuration order. The
      current time is read again for every feed, so each feed has its own cutoff. */
  function Aggregate(feeds: seq<FeedConfig>, load: string -> Document, p: Parsers, cutoffs: seq<int>): (r: seq<TaggedItem>)
    requires |cutoffs| == |feeds|
    ensures feeds == [] ==> r == []
    ensures |feeds| == 1 ==> r == FeedItems(feeds[0], load, p, cutoffs[0])
    ensures AllFromFeeds(r, feeds, p, cutoffs)
  {
    RecordsFromFeeds(feeds, load, p, cutoffs);
    FlatMap(Zip(feeds, cutoffs), FeedOutput(load, p))
  }

  /** The record carries the feed's name and a date fresh for that feed's cutoff. */
  predicate FromFeed(t: TaggedItem, feed: FeedConfig, p: Parsers, cutoff: int) {
    t.feedName == feed.name.GetOr(UnknownFeed) && FreshText(t.item.published, p, cutoff)
  }

  /** Every record carries the name of some feed and is fresh for that feed's cutoff. */
  predicate AllFromFeeds(r: seq<TaggedItem>, feeds: seq<FeedConfig>, p: Parsers, cutoffs: seq<int>)
    requires |cutoffs| == |feeds|
  {
    forall i :: 0 <= i < |r| ==> exists k :: 0 <= k < |feeds| && FromFeed(r[i], feeds[k], p, cutoffs[k])
  }

  /** Every record of the concatenation was produced by some feed, with that feed's cutoff. */
  lemma RecordsFromFeeds(feeds: seq<FeedConfig>, load: string -> Document, p: Parsers, cutoffs: seq<int>)
    requires |cutoffs| == |feeds|
    ensures AllFromFeeds(FlatMap(Zip(feeds, cutoffs), FeedOutput(load, p)), feeds, p, cutoffs)
  {
    var zs := Zip(feeds, cutoffs);
    var r := FlatMap(zs, FeedOutput(load, p));
    forall i | 0 <= i < |r|
      ensures exists k :: 0 <= k < |feeds| && FromFeed(r[i], feeds[k], p, cutoffs[k])
    {
      var k, j := FlatMapSource(zs, FeedOutput(load, p), i);
      assert zs[k] == (feeds[k], cutoffs[k]);
      var items := FeedItems(feeds[k], load, p, cutoffs[k]);
      assert FeedOutput(load, p)(zs[k]) == items;
      assert r[i] == items[j];
      var parsed := ParseFeed(load(feeds[k].url.value), p, cutoffs[k]);
      assert items[j].item == parsed[j];
      assert FromFeed(r[i], feeds[k], p, cutoffs[k]);
    }
  }

  /** What each feed contributes, as a function of the feed and its cutoff. */
  function FeedOutput(load: string -> Document, p: Parsers): ((FeedConfig, int)) -> seq<TaggedItem> {
    (fc: (FeedConfig, int)) => FeedItems(fc.0, load, p, fc.1)
  }

  /** Aggregation is concatenation: the result for a list of feeds is the result for its first
      part followed by the result for the rest. */
  lemma AggregateAppend(a: seq<FeedConfig>, b: seq<FeedConfig>, load: string -> Document,
                        p: Parsers, ca: seq<int>, cb: seq<int>)
    requires |ca| == |a| && |cb| == |b|
    ensures Aggregate(a + b, load, p, ca + cb) == Aggregate(a, load, p, ca) + Aggregate(b, load, p, cb)
  {
    ZipAppend(a, ca, b, cb);
    FlatMapAppend(Zip(a, ca), Zip(b, cb), FeedOutput(load, p));
  }

  /** A feed whose bytes are not XML contributes nothing, and the other feeds' records are
      exactly what they would be without it. */
  lemma MalformedFeedIsolated(before: seq<FeedConfig>, bad: FeedConfig, after: seq<FeedConfig>,
                              load: string -> Document, p: Parsers, cb: seq<int>, c: int, ca: seq<int>)
    requires |cb| == |before| && |ca| == |after|
    requires bad.url.Some? && load(bad.url.value) == Malformed
    ensures Aggregate(before + [bad] + after, load, p, cb + [c] + ca)
         == Aggregate(before, load, p, cb) + Aggregate(after, load, p, ca)
  {
    ZipAppend(before, cb, [bad], [c]);
    ZipAppend(before + [bad], cb + [c], after, ca);
    assert Zip([bad], [c]) == [(bad, c)];
    assert FeedOutput(load, p)((bad, c)) == [];
    FlatMapSkip(Zip(before, cb), (bad, c), Zip(after, ca), FeedOutput(load, p));
  }
}

=== FILE: text.dfy ===
/** String helpers shared by the scripts: JavaScript white space and trimming, splitting and
    joining, decimal rendering, and UTF-16 lengths. Strings are sequences of Unicode scalar values. */
module Text {

  /** JavaScript white space, as matched by `\s` and removed by `String.prototype.trim`:
      the WhiteSpace and LineTerminator code points of ECMA-262. */
  predicate IsSpace(c: char) {
    || c == '\t' || c == '\n' || c == '\U{000B}' || c == '\U{000C}' || c == '\r' || c == ' '
    || c == '\U{00A0}' || c == '\U{1680}' || ('\U{2000}' <= c <= '\U{200A}')
    || c == '\U{2028}' || c == '\U{2029}' || c == '\U{202F}' || c == '\U{205F}'
    || c == '\U{3000}' || c == '\U{FEFF}'
  }

  /** The code points a JavaScript `.` does not match. */
  predicate IsLineTerminator(c: char) {
    c == '\n' || c == '\r' || c == '\U{2028}' || c == '\U{2029}'
  }

  predicate IsDigit(c: char) { '0' <= c <= '9' }

  predicate IsAsciiLetter(c: char) { ('a' <= c <= 'z') || ('A' <= c <= 'Z') }

  predicate IsAsciiAlnum(c: char) { IsDigit(c) || IsAsciiLetter(c) }

  predicate AllDigits(s: string) { forall i :: 0 <= i < |s| ==> IsDigit(s[i]) }

  predicate AllSpace(s: string) { forall i :: 0 <= i < |s| ==> IsSpace(s[i]) }

  /** ASCII lower-casing. Outside `u` mode a JavaScript `/i` pattern folds case by upper-casing,
      and never lets a non-ASCII character fold onto an ASCII one, so for the ASCII words the
      scripts look for, case-insensitive matching is exactly ASCII case folding. */
  function LowerAscii(c: char): (r: char)
    ensures IsAsciiLetter(c) <==> IsAsciiLetter(r)
    ensures ('a' <= r <= 'z') <==> IsAsciiLetter(c)
  {
    if 'A' <= c <= 'Z' then (c as int + 32) as char else c
  }

  /** `s` starts with the lower-case ASCII word `w`, ignoring ASCII case. */
  predicate StartsWithIgnoreCase(s: string, w: string) {
    |w| <= |s| && forall i :: 0 <= i < |w| ==> LowerAscii(s[i]) == w[i]
  }

  /** The matched part of `s` is itself the word, ignoring case. */
  lemma StartsWithIgnoreCasePrefix(s: string, w: string)
    requires StartsWithIgnoreCase(s, w)
    ensures StartsWithIgnoreCase(s[..|w|], w)
  {
    forall i | 0 <= i < |w|
      ensures LowerAscii(s[..|w|][i]) == w[i]
    {
      assert s[..|w|][i] == s[i];
    }
  }

  predicate StartsWith(s: string, p: string) { |p| <= |s| && s[..|p|] == p }

  predicate EndsWith(s: string, p: string) { |p| <= |s| && s[|s| - |p|..] == p }

  /** `s.includes(sub)` / `sub in s`: `sub` occurs at some position of `s`. */
  predicate Contains(s: string, sub: string) {
    exists i | 0 <= i <= |s| - |sub| :: OccursAt(s, sub, i)
  }

  /** `sub` occurs in `s` starting at position `i`. */
  predicate OccursAt(s: string, sub: string, i: int) {
    0 <= i <= |s| - |sub| && s[i..i + |sub|] == sub
  }

  /** A character missing from `s` is missing from every substring of it. */
  lemma AbsentFromSubstring(s: string, sub: string, c: char)
    requires Contains(s, sub) && c !in s
    ensures c !in sub
  {
    var i :| 0 <= i <= |s| - |sub| && OccursAt(s, sub, i);
    forall k | 0 <= k < |sub|
      ensures sub[k] != c
    {
      assert sub[k] == s[i..i + |sub|][k] == s[i + k];
    }
  }

  /** `trimStart`: drops the leading white space and nothing else. */
  function TrimStart(s: string): (r: string)
    ensures |r| <= |s| && r == s[|s| - |r|..]
    ensures AllSpace(s[..|s| - |r|])
    ensures r == [] || !IsSpace(r[0])
  {
    if s != [] && IsSpace(s[0]) then TrimStart(s[1..]) else s
  }

  /** `trimEnd`: drops the trailing white space and nothing else. */
  function TrimEnd(s: string): (r: string)
    ensures |r| <= |s| && r == s[..|r|]
    ensures AllSpace(s[|r|..])
    ensures r == [] || !IsSpace(r[|r| - 1])
  {
    if s != [] && IsSpace(s[|s| - 1]) then TrimEnd(s[..|s| - 1]) else s
  }

  /** `String.prototype.trim`. */
  function Trim(s: string): (r: string)
    ensures |r| <= |s|
    ensures r == [] <==> AllSpace(s)
    ensures r != [] ==> !IsSpace(r[0]) && !IsSpace(r[|r| - 1])
  {
    var t := TrimStart(s);
    assert AllSpace(t) ==> AllSpace(s) by {
      if AllSpace(t) {
        assert s == s[..|s| - |t|] + t;
      }
    }
    TrimEnd(t)
  }

  /** The trimmed text occurs in the original. */
  lemma TrimIsSubstring(s: string)
    ensures Contains(s, Trim(s))
  {
    var t := TrimStart(s);
    assert OccursAt(s, Trim(s), |s| - |t|);
  }

  /** Leading white space in front of a word is all `trimStart` removes. */
  lemma {:induction false} TrimStartSpaces(p: string, x: string)
    requires AllSpace(p) && (x == [] || !IsSpace(x[0]))
    ensures TrimStart(p + x) == x
    decreases |p|
  {
    if p == [] {
      assert p + x == x;
    } else {
      assert (p + x)[1..] == p[1..] + x;
      TrimStartSpaces(p[1..], x);
    }
  }

  /** Trailing white space behind a word is all `trimEnd` removes. */
  lemma {:induction false} TrimEndSpaces(x: string, q: string)
    requires AllSpace(q) && (x == [] || !IsSpace(x[|x| - 1]))
    ensures TrimEnd(x + q) == x
    decreases |q|
  {
    if q == [] {
      assert x + q == x;
    } else {
      assert (x + q)[..|x + q| - 1] == x + q[..|q| - 1];
      TrimEndSpaces(x, q[..|q| - 1]);
    }
  }

  /** `trimStart` stops inside `x` when `x` is not all white space. */
  lemma {:induction false} TrimStartAppend(x: string, y: string)
    requires !AllSpace(x)
    ensures TrimStart(x + y) == TrimStart(x) + y
    decreases |x|
  {
    if IsSpace(x[0]) {
      assert (x + y)[1..] == x[1..] + y;
      TrimStartAppend(x[1..], y);
    }
  }

  /** White space in front of anything is dropped by `trimStart` along with the rest. */
  lemma {:induction false} TrimStartBehindSpace(p: string, m: string)
    requires AllSpace(p)
    ensures TrimStart(p + m) == TrimStart(m)
    decreases |p|
  {
    if p == [] {
      assert p + m == m;
    } else {
      assert (p + m)[1..] == p[1..] + m;
      TrimStartBehindSpace(p[1..], m);
    }
  }

  /** White space around a word that begins and ends with visible characters is all `trim`
      removes. */
  lemma TrimAround(p: string, x: string, q: string)
    requires AllSpace(p) && AllSpace(q)
    requires x != [] && !IsSpace(x[0]) && !IsSpace(x[|x| - 1])
    ensures Trim(p + x + q) == x
  {
    assert p + x + q == p + (x + q);
    TrimStartSpaces(p, x + q);
    TrimEndSpaces(x, q);
  }

  /** `trimEnd` never cuts into a prefix that ends with a visible character. */
  lemma TrimEndKeepsPrefix(t: string, h: string)
    requires StartsWith(t, h) && h != [] && !IsSpace(h[|h| - 1])
    ensures StartsWith(TrimEnd(t), h)
  {
    var r := TrimEnd(t);
    assert r[..|h|] == t[..|h|];
  }

  /** Text appended after a prefix keeps it a prefix. */
  lemma StartsWithAppend(s: string, p: string, x: string)
    requires StartsWith(s, p)
    ensures StartsWith(s + x, p)
  {
    assert (s + x)[..|p|] == s[..|p|];
  }

  /** A string whose trimmed text is `h` starts, after `trimStart`, with `h`. */
  lemma TrimStartLeadsWithTrim(line: string)
    ensures StartsWith(TrimStart(line), Trim(line))
  {
  }

  /** A line that trims to a word with a visible last character, in front of other text,
      keeps the trimmed whole starting with that word. */
  lemma TrimKeepsLeadingWord(h: string, line: string, rest: string)
    requires h != [] && !IsSpace(h[|h| - 1])
    requires Trim(line) == h
    ensures StartsWith(Trim(line + rest), h)
  {
    var ts := TrimStart(line);
    TrimStartLeadsWithTrim(line);
    TrimStartAppend(line, rest);
    StartsWithAppend(ts, h, rest);
    TrimEndKeepsPrefix(ts + rest, h);
  }

  /** Joining lines keeps the trimmed whole starting with the word the first line trims to. */
  lemma JoinKeepsLeadingWord(h: string, parts: seq<string>, sep: string)
    requires h != [] && !IsSpace(h[|h| - 1])
    requires |parts| >= 1 && Trim(parts[0]) == h
    ensures StartsWith(Trim(Join(parts, sep)), h)
  {
    var rest := if |parts| == 1 then "" else sep + Join(parts[1..], sep);
    assert Join(parts, sep) == parts[0] + rest;
    TrimKeepsLeadingWord(h, parts[0], rest);
  }

  /** A string that starts with `a` and ends with `b`, with room for both, is `a`, a middle
      part and `b`. */
  lemma Frame(u: string, a: string, b: string)
    requires |a| + |b| <= |u| && StartsWith(u, a) && EndsWith(u, b)
    ensures u == a + u[|a|..|u| - |b|] + b
  {
  }

  /** Appending is associative: a sequence split in two, then extended. */
  lemma Regroup<T>(mid: seq<T>, s: seq<T>, m: seq<T>, tail: seq<T>)
    requires mid == s + m
    ensures mid + tail == s + (m + tail)
  {
  }

  /** A non-empty string is its first character, then the rest. */
  lemma SplitHead(t: string)
    requires t != []
    ensures t == [t[0]] + t[1..]
  {
  }

  /** A non-empty string is all but its last character, then that character. */
  lemma SplitLast(t: string)
    requires t != []
    ensures t == t[..|t| - 1] + [t[|t| - 1]]
  {
  }

  /** A string is its first `k` characters and the rest. */
  lemma TakeDrop(t: string, k: nat)
    requires k <= |t|
    ensures t == t[..k] + t[k..]
  {
  }

  /** The white space `trimStart` removes. */
  function LeadingSpace(s: string): (p: string)
    ensures AllSpace(p) && s == p + TrimStart(s)
  {
    var t := TrimStart(s);
    assert s == s[..|s| - |t|] + t;
    s[..|s| - |t|]
  }

  /** The white space `trim` removes at the end. */
  function TrailingSpace(s: string): (q: string)
    ensures AllSpace(q) && TrimStart(s) == Trim(s) + q
  {
    var t := TrimStart(s);
    var r := TrimEnd(t);
    assert Trim(s) == r;
    TakeDrop(t, |r|);
    t[|r|..]
  }

  /** Every string is its trimmed text with white space around it. */
  lemma TrimParts(s: string)
    ensures s == LeadingSpace(s) + (Trim(s) + TrailingSpace(s))
  {
  }

  /** The first position of `c` in `s`. */
  function IndexOf(s: string, c: char): (k: nat)
    requires c in s
    ensures k < |s| && s[k] == c && c !in s[..k]
  {
    if s[0] == c then 0 else 1 + IndexOf(s[1..], c)
  }

  /** When `s` holds no `c`, the first `c` of `s + x` is the first one of `x`. */
  lemma {:induction false} IndexOfAfter(s: string, x: string, c: char)
    requires c !in s && c in x
    ensures c in s + x && IndexOf(s + x, c) == |s| + IndexOf(x, c)
    decreases |s|
  {
    if s == [] {
      assert s + x == x;
    } else {
      assert (s + x)[0] == s[0];
      assert (s + x)[1..] == s[1..] + x;
      IndexOfAfter(s[1..], x, c);
    }
  }

  /** The parts joined with `sep` between consecutive ones (`sep.join(parts)`, `parts.join(sep)`). */
  function Join(parts: seq<string>, sep: string): string {
    if |parts| == 0 then ""
    else if |parts| == 1 then parts[0]
    else parts[0] + sep + Join(parts[1..], sep)
  }

  /** Joining two non-empty lists of parts puts one separator between their joins. */
  lemma {:induction false} JoinAppend(a: seq<string>, b: seq<string>, sep: string)
    requires |a| >= 1 && |b| >= 1
    ensures Join(a + b, sep) == Join(a, sep) + sep + Join(b, sep)
    decreases |a|
  {
    if |a| == 1 {
      assert (a + b)[1..] == b;
    } else {
      assert (a + b)[1..] == a[1..] + b;
      JoinAppend(a[1..], b, sep);
    }
  }

  /** `s.split(sep)`, the same in Python and JavaScript for a one-character separator: the
      pieces between the occurrences of `sep`, one more piece than there are occurrences. */
  function Split(s: string, sep: char): (parts: seq<string>)
    ensures forall i :: 0 <= i < |parts| ==> sep !in parts[i]
    ensures Join(parts, [sep]) == s
    decreases |s|
  {
    if sep !in s then [s]
    else
      var k := IndexOf(s, sep);
      assert s == s[..k] + [sep] + s[k + 1..];
      [s[..k]] + Split(s[k + 1..], sep)
  }

  /** There is one more piece than there are separators. */
  lemma {:induction false} SplitCount(s: string, sep: char)
    ensures |Split(s, sep)| == multiset(s)[sep] + 1
    decreases |s|
  {
    if sep !in s {
      assert multiset(s)[sep] == 0;
    } else {
      var k := IndexOf(s, sep);
      assert s == s[..k] + [sep] + s[k + 1..];
      assert multiset(s) == multiset(s[..k]) + multiset([sep]) + multiset(s[k + 1..]);
      SplitCount(s[k + 1..], sep);
    }
  }

  /** The first piece runs up to the first separator. */
  lemma SplitFirst(a: string, b: string, c: char)
    requires c !in a
    ensures Split(a + [c] + b, c) == [a] + Split(b, c)
  {
    var t := a + [c] + b;
    assert t == a + ([c] + b);
    IndexOfAfter(a, [c] + b, c);
    assert t[..|a|] == a;
    assert t[|a| + 1..] == b;
  }

  /** Splitting undoes joining, when no part contains the separator. */
  lemma {:induction false} SplitJoin(parts: seq<string>, sep: char)
    requires |parts| >= 1
    requires forall i :: 0 <= i < |parts| ==> sep !in parts[i]
    ensures Split(Join(parts, [sep]), sep) == parts
    decreases |parts|
  {
    if |parts| > 1 {
      var rest := Join(parts[1..], [sep]);
      assert Join(parts, [sep]) == parts[0] + [sep] + rest;
      SplitFirst(parts[0], rest, sep);
      SplitJoin(parts[1..], sep);
      assert parts == [parts[0]] + parts[1..];
    }
  }

  /** `s` without one trailing carriage return. */
  function DropCr(s: string): (r: string)
    ensures r + (if EndsWith(s, "\r") then "\r" else "") == s
  {
    if EndsWith(s, "\r") then s[..|s| - 1] else s
  }

  /** JavaScript's `s.split(/\r?\n/)`: the pieces between line feeds, where a carriage return
      just before a line feed belongs to the separator. The last piece is followed by no line
      feed, so it keeps a trailing carriage return. */
  function SplitLines(s: string): (lines: seq<string>)
    ensures |lines| == |Split(s, '\n')|
    ensures forall i :: 0 <= i < |lines| ==> '\n' !in lines[i]
    ensures forall i :: 0 <= i < |lines| - 1 ==> lines[i] == DropCr(Split(s, '\n')[i])
    ensures lines[|lines| - 1] == Split(s, '\n')[|lines| - 1]
  {
    var pieces := Split(s, '\n');
    seq(|pieces|, i requires 0 <= i < |pieces| =>
      if i < |pieces| - 1 then DropCr(pieces[i]) else pieces[i])
  }

  /** The length JavaScript reports for a string: its number of UTF-16 code units, two for
      each code point outside the Basic Multilingual Plane. */
  function Utf16Length(s: string): (n: nat)
    ensures |s| <= n <= 2 * |s|
    ensures n == |s| <==> forall i :: 0 <= i < |s| ==> s[i] as int < 0x1_0000
  {
    if s == [] then 0
    else
      var n := (if s[0] as int < 0x1_0000 then 1 else 2) + Utf16Length(s[1..]);
      assert forall i :: 1 <= i < |s| ==> s[i] == s[1..][i - 1];
      n
  }

  /** A character outside the Basic Multilingual Plane takes a surrogate pair, two code units;
      any other takes one. */
  lemma Utf16LengthOne(c: char)
    ensures Utf16Length([c]) == if c as int < 0x1_0000 then 1 else 2
  {
  }

  /** The code-unit count of a concatenation is the sum of the parts' counts, so together with
      `Utf16LengthOne` it is the sum over the characters. */
  lemma {:induction false} Utf16LengthAppend(a: string, b: string)
    ensures Utf16Length(a + b) == Utf16Length(a) + Utf16Length(b)
    decreases |a|
  {
    if a == [] {
      assert a + b == b;
    } else {
      assert (a + b)[0] == a[0];
      assert (a + b)[1..] == a[1..] + b;
      Utf16LengthAppend(a[1..], b);
    }
  }

  function DigitChar(d: nat): (c: char)
    requires d < 10
    ensures IsDigit(c) && c as int - '0' as int == d
  {
    ('0' as int + d) as char
  }

  /** The number a string of decimal digits denotes. */
  function DecimalValue(s: string): nat
    requires AllDigits(s)
  {
    if s == [] then 0 else 10 * DecimalValue(s[..|s| - 1]) + (s[|s| - 1] as int - '0' as int)
  }

  /** `String(n)` for a non-negative integer: its decimal digits, without leading zeros. */
  function NatToDecimal(n: nat): (s: string)
    ensures |s| >= 1 && AllDigits(s)
    ensures |s| > 1 ==> s[0] != '0'
    ensures DecimalValue(s) == n
  {
    if n < 10 then [DigitChar(n)]
    else
      var s := NatToDecimal(n / 10) + [DigitChar(n % 10)];
      assert s[..|s| - 1] == NatToDecimal(n / 10);
      s
  }

  /** A leading zero does not change the value of a digit string. */
  lemma {:induction false} LeadingZero(s: string)
    requires AllDigits(s)
    ensures AllDigits("0" + s) && DecimalValue("0" + s) == DecimalValue(s)
    decreases |s|
  {
    if s != [] {
      var t := "0" + s;
      assert t[..|t| - 1] == "0" + s[..|s| - 1];
      LeadingZero(s[..|s| - 1]);
    }
  }

  /** `String(n).padStart(2, "0")`: at least two digits, still denoting `n`. */
  function PadTwo(n: nat): (s: string)
    ensures |s| >= 2 && AllDigits(s) && DecimalValue(s) == n
    ensures n >= 10 ==> s == NatToDecimal(n)
  {
    var d := NatToDecimal(n);
    if |d| < 2 then
      LeadingZero(d);
      "0" + d
    else d
  }
}

=== FILE: wrappers.dfy ===
/** Optional values: the model's stand-in for Python's `None` and JavaScript's `null`. */
module Wrappers {

  datatype Option<+T> = None | Some(value: T) {

    /** The wrapped value, or `default` when there is none. */
    function GetOr(default: T): T {
      match this
      case Some(v) => v
      case None => default
    }
  }
}

=== FILE: xml.dfy ===
/** The parsed XML document as ElementTree presents it, and the few queries the feed scripts make
    of it. Parsing itself (`ET.fromstring`) is not modelled: documents arrive already parsed. */
module Xml {
  import opened Wrappers
  import opened Text

  /** An element: its tag in Clark notation (`{namespace}local`, or a bare `local` outside any
      namespace), its attributes, its text (`None` when the element has none) and its children
      in document order. */
  datatype Element = Element(tag: string, attrs: map<string, string>, text: Option<string>, children: seq<Element>)

  /** The position of the first element of `es` with exactly this tag. */
  function FirstWithTag(es: seq<Element>, tag: string): (r: Option<nat>)
    ensures r.Some? ==> r.value < |es| && es[r.value].tag == tag
    ensures r.Some? ==> forall j :: 0 <= j < r.value ==> es[j].tag != tag
    ensures r.None? ==> forall j :: 0 <= j < |es| ==> es[j].tag != tag
  {
    if es == [] then None
    else if es[0].tag == tag then Some(0)
    else match FirstWithTag(es[1..], tag)
      case None => None
      case Some(k) => Some(k + 1)
  }

  /** `e.find(tag)`: the first child with exactly this tag, if any. */
  function Find(e: Element, tag: string): (r: Option<Element>)
    ensures r.None? <==> forall j :: 0 <= j < |e.children| ==> e.children[j].tag != tag
    ensures r.Some? ==> r.value.tag == tag
    ensures r.Some? ==> exists i :: (0 <= i < |e.children| && e.children[i] == r.value
      && forall j :: 0 <= j < i ==> e.children[j].tag != tag)
  {
    match FirstWithTag(e.children, tag)
    case None => None
    case Some(i) => Some(e.children[i])
  }

  /** A child appended after the others, under a different tag, leaves the first match alone. */
  lemma {:induction false} FirstWithTagAppendOther(es: seq<Element>, u: Element, tag: string)
    requires u.tag != tag
    ensures FirstWithTag(es + [u], tag) == FirstWithTag(es, tag)
    decreases |es|
  {
    if es == [] {
      assert [u][1..] == [];
    } else {
      assert (es + [u])[1..] == es[1..] + [u];
      FirstWithTagAppendOther(es[1..], u, tag);
    }
  }

  /** `find` is blind to a later child whose tag differs from the one asked for. */
  lemma FindAppendOther(e: Element, u: Element, tag: string)
    requires u.tag != tag
    ensures Find(e.(children := e.children + [u]), tag) == Find(e, tag)
  {
    FirstWithTagAppendOther(e.children, u, tag);
    var e' := e.(children := e.children + [u]);
    if FirstWithTag(e.children, tag).Some? {
      assert e'.children[FirstWithTag(e.children, tag).value] == e.children[FirstWithTag(e.children, tag).value];
    }
  }

  /** Once some element has the tag, a child appended after the others changes nothing. */
  lemma {:induction false} FirstWithTagAppendLater(es: seq<Element>, u: Element, tag: string)
    requires FirstWithTag(es, tag).Some?
    ensures FirstWithTag(es + [u], tag) == FirstWithTag(es, tag)
    decreases |es|
  {
    assert (es + [u])[0] == es[0];
    if es[0].tag != tag {
      assert (es + [u])[1..] == es[1..] + [u];
      FirstWithTagAppendLater(es[1..], u, tag);
    }
  }

  /** `find` returns the first match: a later child, whatever its tag, does not displace it. */
  lemma FindAppendLater(e: Element, u: Element, tag: string)
    requires Find(e, tag).Some?
    ensures Find(e.(children := e.children + [u]), tag) == Find(e, tag)
  {
    FirstWithTagAppendLater(e.children, u, tag);
    var i := FirstWithTag(e.children, tag).value;
    assert (e.children + [u])[i] == e.children[i];
  }

  /** The elements of `es` with exactly this tag, in order. */
  function WithTag(es: seq<Element>, tag: string): (r: seq<Element>)
    ensures |r| <= |es|
    ensures forall x :: x in r <==> x in es && x.tag == tag
  {
    if es == [] then []
    else (if es[0].tag == tag then [es[0]] else []) + WithTag(es[1..], tag)
  }

  /** Filtering by tag distributes over concatenation, so it keeps document order. */
  lemma {:induction false} WithTagAppend(a: seq<Element>, b: seq<Element>, tag: string)
    ensures WithTag(a + b, tag) == WithTag(a, tag) + WithTag(b, tag)
    decreases |a|
  {
    if a != [] {
      assert (a + b)[1..] == a[1..] + b;
      WithTagAppend(a[1..], b, tag);
    } else {
      assert a + b == b;
    }
  }

  /** `e.findall(tag)`: every child with exactly this tag, in document order. */
  function FindAll(e: Element, tag: string): seq<Element> {
    WithTag(e.children, tag)
  }

  /** `e.get(name, default)`: an attribute's value, or `default` when it is absent. */
  function Attr(e: Element, name: string, default: string): string {
    if name in e.attrs then e.attrs[name] else default
  }

  /** The tag after its first `}`: the local name of a Clark-notation tag. A tag without `}`
      is its own local name. */
  function LocalName(tag: string): (r: string)
    ensures '}' !in tag ==> r == tag
    ensures '}' in tag ==> |r| < |tag| && r == tag[|tag| - |r|..]
    ensures '}' in tag ==> tag[|tag| - |r| - 1] == '}' && '}' !in tag[..|tag| - |r| - 1]
  {
    if '}' in tag then tag[IndexOf(tag, '}') + 1..] else tag
  }

  /** `r` is `e` with every tag, at every depth, replaced by its local name: the same shape,
      attributes and text. */
  predicate Stripped(e: Element, r: Element)
    decreases e
  {
    && r.tag == LocalName(e.tag) && r.attrs == e.attrs && r.text == e.text
    && |r.children| == |e.children|
    && forall i :: 0 <= i < |e.children| ==> Stripped(e.children[i], r.children[i])
  }

  /** The loop over `root.iter()` that rewrites every tag containing `}` to its local name:
      the same tree with every tag replaced by its local name. */
  function StripNamespaces(e: Element): (r: Element)
    ensures r.tag == LocalName(e.tag) && r.attrs == e.attrs && r.text == e.text
    ensures |r.children| == |e.children|
    ensures Stripped(e, r)
    decreases e
  {
    Element(LocalName(e.tag), e.attrs, e.text,
      seq(|e.children|, i requires 0 <= i < |e.children| => StripNamespaces(e.children[i])))
  }

  /** No tag anywhere in the tree contains `}`: the document uses no namespaces. */
  predicate NoNamespaces(e: Element)
    decreases e
  {
    '}' !in e.tag && forall i :: 0 <= i < |e.children| ==> NoNamespaces(e.children[i])
  }

  /** A document without namespaces passes through the rewrite unchanged. */
  lemma {:induction false} StripWithoutNamespaces(e: Element)
    requires NoNamespaces(e)
    ensures StripNamespaces(e) == e
    decreases e
  {
    var r := StripNamespaces(e);
    forall i | 0 <= i < |e.children|
      ensures r.children[i] == e.children[i]
    {
      StripWithoutNamespaces(e.children[i]);
    }
  }

  /** A Clark-notation tag: a bare local name, or `{namespace}local`, neither part containing `}`. */
  predicate ClarkTag(tag: string) {
    '}' !in tag || (tag[0] == '{' && '}' !in tag[IndexOf(tag, '}') + 1..])
  }

  predicate ClarkTree(e: Element)
    decreases e
  {
    ClarkTag(e.tag) && forall i :: 0 <= i < |e.children| ==> ClarkTree(e.children[i])
  }

  /** On what the XML parser produces, the rewrite removes every namespace. */
  lemma {:induction false} StripRemovesNamespaces(e: Element)
    requires ClarkTree(e)
    ensures NoNamespaces(StripNamespaces(e))
    decreases e
  {
    var r := StripNamespaces(e);
    forall i | 0 <= i < |e.children|
      ensures NoNamespaces(r.children[i])
    {
      StripRemovesNamespaces(e.children[i]);
    }
  }

  /** On what the XML parser produces, rewriting twice is rewriting once. */
  lemma StripIdempotent(e: Element)
    requires ClarkTree(e)
    ensures StripNamespaces(StripNamespaces(e)) == StripNamespaces(e)
  {
  }

  /** `Stripped` pins the result down: the rewritten tree is the only one it admits. */
  lemma {:induction false} StrippedUnique(e: Element, r: Element)
    requires Stripped(e, r)
    ensures r == StripNamespaces(e)
    decreases e
  {
    var s := StripNamespaces(e);
    forall i | 0 <= i < |e.children|
      ensures r.children[i] == s.children[i]
    {
      StrippedUnique(e.children[i], r.children[i]);
    }
  }
}

=== FILE: youtube_updates.dfy ===
/** The update check of the YouTube tracker (`skills/youtube-tracker/scripts/check_updates.py`):
    for every tracked channel with an id, read the channel's Atom feed and report the videos
    published strictly after a cutoff. One cutoff, computed once, serves every channel. */
module YoutubeUpdates {
  import opened Wrappers
  import opened Text
  import opened Xml
  import opened Dates
  import opened Isolation
  import opened Lists

  /** The namespaces of the feed, as prefixes of Clark-notation tags. The feed's tags are
      matched with these prefixes; they are never stripped. */
  const AtomNs := "{http://www.w3.org/2005/Atom}"
  const YtNs := "{http://www.youtube.com/xml/schemas/2015}"

  const FeedUrlPrefix := "https://www.youtube.com/feeds/videos.xml?channel_id="
  const WatchUrlPrefix := "https://www.youtube.com/watch?v="

  /** A tracked channel as stored: its id and name, each possibly missing. */
  datatype ChannelConfig = ChannelConfig(id: Option<string>, name: Option<string>)

  /** A reported video. `None` stands for Python's `None` (JSON null). */
  datatype Video = Video(channel: Option<string>, title: Option<string>, url: string,
                         published: string, videoId: Option<string>)

  /** The feed URL of a channel id. */
  function FeedUrl(id: string): (u: string)
    ensures StartsWith(u, FeedUrlPrefix) && u[|FeedUrlPrefix|..] == id
  {
    FeedUrlPrefix + id
  }

  /** Distinct channels are read from distinct feeds. */
  lemma FeedUrlInjective(a: string, b: string)
    requires FeedUrl(a) == FeedUrl(b)
    ensures a == b
  {
    assert a == FeedUrl(a)[|FeedUrlPrefix|..];
  }

  /** How an f-string renders an optional text: Python prints `None` as the four letters `None`. */
  function Render(s: Option<string>): string {
    match s
    case None => "None"
    case Some(t) => t
  }

  /** The watch URL built from a video id. */
  function WatchUrl(videoId: Option<string>): (u: string)
    ensures StartsWith(u, WatchUrlPrefix)
    ensures videoId.Some? ==> u[|WatchUrlPrefix|..] == videoId.value
    ensures videoId.None? ==> u[|WatchUrlPrefix|..] == "None"
  {
    WatchUrlPrefix + Render(videoId)
  }

  /** The text of the entry's Atom `published` child, when the child exists and has text. */
  function PublishedText(entry: Element): Option<string> {
    match Find(entry, AtomNs + "published")
    case None => None
    case Some(pe) => pe.text
  }

  /** The instant of the entry's `published` text, read by `datetime.fromisoformat`. */
  function PublishedAt(entry: Element, iso: string -> Option<DateTime>): Option<DateTime> {
    match PublishedText(entry)
    case None => None
    case Some(s) => iso(s)
  }

  /** The entry was published strictly after the cutoff, on an offset-aware date. */
  predicate PublishedAfter(entry: Element, iso: string -> Option<DateTime>, cutoff: int) {
    var d := PublishedAt(entry, iso);
    d.Some? && d.value.aware && d.value.instant > cutoff
  }

  /** Every field the record needs can be read without an exception: the `videoId` and
      `title` children exist, and a `link` child, if any, has an `href`. */
  predicate Readable(entry: Element) {
    && Find(entry, YtNs + "videoId").Some?
    && Find(entry, AtomNs + "title").Some?
    && (Find(entry, AtomNs + "link").Some? ==> "href" in Find(entry, AtomNs + "link").value.attrs)
  }

  /** The loop body for one entry. A missing `published` child or text, a text the ISO 8601
      parser refuses and a naive date-time all raise; so do a missing `videoId` or `title`
      child and a `link` without `href`, once the entry is known to be recent. */
  function EntryStep(entry: Element, channel: Option<string>, iso: string -> Option<DateTime>,
                     cutoff: int): (r: Step<Video>)
    ensures r.Emit? <==> PublishedAfter(entry, iso, cutoff) && Readable(entry)
    ensures r.Skip? <==> var d := PublishedAt(entry, iso); d.Some? && d.value.aware && d.value.instant <= cutoff
    ensures r.Emit? ==> r.value.channel == channel && Some(r.value.published) == PublishedText(entry)
    ensures r.Emit? ==> r.value.videoId == Find(entry, YtNs + "videoId").value.text
    ensures r.Emit? ==> r.value.title == Find(entry, AtomNs + "title").value.text
    ensures r.Emit? && Find(entry, AtomNs + "link").Some? ==>
              r.value.url == Find(entry, AtomNs + "link").value.attrs["href"]
    ensures r.Emit? && Find(entry, AtomNs + "link").None? ==> r.value.url == WatchUrl(r.value.videoId)
  {
    match PublishedText(entry)
    case None => Raise
    case Some(s) =>
      match iso(s)
      case None => Raise
      case Some(d) =>
        match After(d, cutoff)
        case Incomparable => Raise
        case Stale => Skip
        case Fresh =>
          match Find(entry, YtNs + "videoId")
          case None => Raise
          case Some(ve) =>
            match Find(entry, AtomNs + "title")
            case None => Raise
            case Some(te) =>
              match Find(entry, AtomNs + "link")
              case None => Emit(Video(channel, te.text, WatchUrl(ve.text), s, ve.text))
              case Some(le) =>
                if "href" in le.attrs then Emit(Video(channel, te.text, le.attrs["href"], s, ve.text))
                else Raise
  }

  function EntrySteps(entries: seq<Element>, channel: Option<string>, iso: string -> Option<DateTime>,
                      cutoff: int): (r: seq<Step<Video>>)
    ensures |r| == |entries|
    ensures forall i :: 0 <= i < |entries| ==> r[i] == EntryStep(entries[i], channel, iso, cutoff)
  {
    seq(|entries|, i requires 0 <= i < |entries| => EntryStep(entries[i], channel, iso, cutoff))
  }

  /** The channel has an id that is not empty: the others are skipped. */
  predicate Tracked(ch: ChannelConfig) {
    ch.id.Some? && ch.id.value != ""
  }

  /** The Atom `entry` children of the feed's root. */
  function Entries(root: Element): seq<Element> {
    WithTag(root.children, AtomNs + "entry")
  }

  /** One pass of the loop over channels: the videos appended for `ch`, where `fetch` gives the
      parsed feed at a URL, `None` when fetching or parsing raises. Whatever was appended before
      an exception stays. */
  function ChannelVideos(ch: ChannelConfig, fetch: string -> Option<Element>,
                         iso: string -> Option<DateTime>, cutoff: int): (r: seq<Video>)
    ensures !Tracked(ch) ==> r == []
    ensures Tracked(ch) && fetch(FeedUrl(ch.id.value)).None? ==> r == []
    ensures forall i :: 0 <= i < |r| ==> r[i].channel == ch.name
  {
    if !Tracked(ch) then []
    else match fetch(FeedUrl(ch.id.value))
      case None => []
      case Some(root) =>
        var steps := EntrySteps(Entries(root), ch.name, iso, cutoff);
        RunItemsAll(steps, (v: Video) => v.channel == ch.name);
        Run(steps).items
  }

  /** What each channel contributes, as a function of the channel. */
  function ChannelOutput(fetch: string -> Option<Element>, iso: string -> Option<DateTime>, cutoff: int): ChannelConfig -> seq<Video> {
    (ch: ChannelConfig) => ChannelVideos(ch, fetch, iso, cutoff)
  }

  /** `get_updates`: the channels' videos concatenated in channel order. */
  function GetUpdates(channels: seq<ChannelConfig>, fetch: string -> Option<Element>,
                      iso: string -> Option<DateTime>, cutoff: int): (r: seq<Video>)
    ensures channels == [] ==> r == []
    ensures |channels| == 1 ==> r == ChannelVideos(channels[0], fetch, iso, cutoff)
    ensures AllFromChannels(r, channels)
  {
    VideosFromChannels(channels, fetch, iso, cutoff);
    FlatMap(channels, ChannelOutput(fetch, iso, cutoff))
  }

  /** Every video names a tracked channel of the list. */
  predicate AllFromChannels(r: seq<Video>, channels: seq<ChannelConfig>) {
    forall i :: 0 <= i < |r| ==> FromTrackedChannel(r[i], channels)
  }

  /** The video names a tracked channel of the list. */
  predicate FromTrackedChannel(v: Video, channels: seq<ChannelConfig>) {
    exists k :: 0 <= k < |channels| && Tracked(channels[k]) && v.channel == channels[k].name
  }

  /** Every video of the concatenation was appended for a channel with an id. */
  lemma VideosFromChannels(channels: seq<ChannelConfig>, fetch: string -> Option<Element>,
                           iso: string -> Option<DateTime>, cutoff: int)
    ensures AllFromChannels(FlatMap(channels, ChannelOutput(fetch, iso, cutoff)), channels)
  {
    var r := FlatMap(channels, ChannelOutput(fetch, iso, cutoff));
    forall i | 0 <= i < |r|
      ensures FromTrackedChannel(r[i], channels)
    {
      var k, j := FlatMapSource(channels, ChannelOutput(fetch, iso, cutoff), i);
      var vs := ChannelVideos(channels[k], fetch, iso, cutoff);
      assert ChannelOutput(fetch, iso, cutoff)(channels[k]) == vs;
      assert r[i] == vs[j];
      assert Tracked(channels[k]) && r[i].channel == channels[k].name;
    }
  }

  /** The videos of a channel are those emitted by its entries before the first entry that
      raises: an exception ends that channel's loop without discarding what it appended. */
  lemma ChannelKeepsPrefix(ch: ChannelConfig, root: Element, fetch: string -> Option<Element>,
                           iso: string -> Option<DateTime>, cutoff: int)
    requires Tracked(ch) && fetch(FeedUrl(ch.id.value)) == Some(root)
    ensures var steps := EntrySteps(Entries(root), ch.name, iso, cutoff);
            ChannelVideos(ch, fetch, iso, cutoff) == Emitted(steps[..FirstRaise(steps)])
  {
    RunKeepsPrefix(EntrySteps(Entries(root), ch.name, iso, cutoff));
  }

  /** Every reported video was published strictly after the cutoff: the filter's bound is strict. */
  lemma {:induction false} UpdatesAreRecent(channels: seq<ChannelConfig>, fetch: string -> Option<Element>,
                                            iso: string -> Option<DateTime>, cutoff: int)
    ensures forall v :: v in GetUpdates(channels, fetch, iso, cutoff) ==>
              var d := iso(v.published); d.Some? && d.value.aware && d.value.instant > cutoff
    decreases |channels|
  {
    if channels != [] {
      var ch := channels[0];
      UpdatesAreRecent(channels[1..], fetch, iso, cutoff);
      if Tracked(ch) && fetch(FeedUrl(ch.id.value)).Some? {
        var steps := EntrySteps(Entries(fetch(FeedUrl(ch.id.value)).value), ch.name, iso, cutoff);
        RunItemsAll(steps, (v: Video) => var d := iso(v.published); d.Some? && d.value.aware && d.value.instant > cutoff);
      }
    }
  }

  /** Updates are concatenation: the output for a list of channels is the output for its first
      part followed by the output for the rest, so channel order is kept. */
  lemma GetUpdatesAppend(a: seq<ChannelConfig>, b: seq<ChannelConfig>,
                         fetch: string -> Option<Element>,
                         iso: string -> Option<DateTime>, cutoff: int)
    ensures GetUpdates(a + b, fetch, iso, cutoff) == GetUpdates(a, fetch, iso, cutoff) + GetUpdates(b, fetch, iso, cutoff)
  {
    FlatMapAppend(a, b, ChannelOutput(fetch, iso, cutoff));
  }

  /** A channel whose feed cannot be read contributes nothing, and the other channels' videos
      are exactly what they would be without it. */
  lemma FailingChannelIsolated(before: seq<ChannelConfig>, bad: ChannelConfig, after: seq<ChannelConfig>,
                               fetch: string -> Option<Element>, iso: string -> Option<DateTime>, cutoff: int)
    requires !Tracked(bad) || fetch(FeedUrl(bad.id.value)).None?
    ensures GetUpdates(before + [bad] + after, fetch, iso, cutoff)
         == GetUpdates(before, fetch, iso, cutoff) + GetUpdates(after, fetch, iso, cutoff)
  {
    assert ChannelOutput(fetch, iso, cutoff)(bad) == [];
    FlatMapSkip(before, bad, after, ChannelOutput(fetch, iso, cutoff));
  }

  /** An entry published exactly at the cutoff is not reported. */
  lemma AtCutoffSkipped(entry: Element, channel: Option<string>, iso: string -> Option<DateTime>, cutoff: int)
    requires PublishedAt(entry, iso) == Some(DateTime(cutoff, true))
    ensures EntryStep(entry, channel, iso, cutoff) == Skip
  {
  }

  /** The entry's `updated` child is never read: adding one changes nothing. */
  lemma UpdatedIgnored(entry: Element, u: Element, channel: Option<string>,
                       iso: string -> Option<DateTime>, cutoff: int)
    requires u.tag == AtomNs + "updated"
    ensures EntryStep(entry.(children := entry.children + [u]), channel, iso, cutoff)
         == EntryStep(entry, channel, iso, cutoff)
  {
    FindAppendOther(entry, u, AtomNs + "published");
    FindAppendOther(entry, u, YtNs + "videoId");
    FindAppendOther(entry, u, AtomNs + "title");
    FindAppendOther(entry, u, AtomNs + "link");
  }
}
